=== FILE: README.md ===
# Mill power feed: a Dafny model

This project models the logic of a milling-machine power feed. The system has
two parts.

The first is a Raspberry Pi Pico firmware. It decodes a quadrature rotary
encoder and reads push buttons from GPIO interrupts, and it hands the results
to coroutines through single-slot mailboxes, events and notifications. It
draws text on a vertically packed OLED bitmap using fonts loaded from a
generated blob, and it converts a requested step frequency into PWM settings
for the stepper driver.

The second is a CircuitPython parameter programmer. It talks Modbus RTU to the
motor controller (or to a fake stream standing in for it). It keeps a cached
table of 304 parameters split into eight pages. It drives macropad key LEDs
through stacks of overlays and edits values with a six-digit editor.

Every handler or method is modelled as one atomic, pure transition on an
immutable record. The coroutine executor is a multiset of scheduled handles,
and a critical section is the atomicity of the method that takes it. Python
exceptions become `Failure` values of a `Result`, and Python's `%` is written
out as `Exceptions.PyMod`. Bytes are `bv8`.

Modules, one per file of the system:

- `Quadrature` (quadrature.dfy): the increment table, the decoder step, the
  older global encoder in `rotary_encoder.cc` and the per-pin-pair encoder in
  `src/rotary_encoder.cc`.
- `Mailbox` and `Executor` (mailbox.dfy, executor.dfy): the single-slot
  waiters of `src/rotary_encoder.h` and `src/button.h`, and scheduling.
- `Button`, `PollingButton`, `Gpio` and `DigitalInput` (button.dfy, gpio.dfy,
  digital_input.dfy): the edge-interrupt button, the 100 ms polling button and
  the digital input.
- `Event` and `Notification` (event.dfy, notification.dfy): the wake-up
  primitives in `src/picoro`.
- `OledBuffer` (oled_buffer.dfy): pixel addressing, clearing and clipped
  drawing.
- `Fonts` and `FontWriter` (fonts.dfy, font_writer.dfy): the font blob parser
  in `src/font/font.cc` and the writer in `src/font/generate_fonts.py`, with
  the layout round trip between them.
- `SpeedControl` (speed_control.dfy): the frequency to PWM computation.
- `Modbus`, `FakeStream` and `FakeBus` (modbus.dfy, fake_stream.dfy): framing,
  the fake responder, and the client talking to it.
- `Parameters`, `Page`, `Led` and `Ui` (parameters.dfy, page.dfy, led.dfy,
  ui.dfy): the programmer's parameter cache, pages, LED overlays and editor.
- `Wrappers`, `Bytes`, `Arith` and `Exceptions` (wrappers.dfy): shared
  result types, byte helpers, arithmetic lemmas and the exception names.

Where the code and its documentation disagree, the model follows the code.

- The encoder table counts +1 along 11 → 01 → 00 → 10 → 11 and -1 the other
  way round. This is what `src/rotary_encoder.cc:15-25` encodes, whatever the
  comment above it suggests.
- The interrupt paths of the button and the digital input have no time-window
  debounce. The value sent is the raw level or the fall bit.
- `src/rotary_encoder.cc` refers to `counter_critical_section` and
  `async_worker`, which the `State` of `src/rotary_encoder.h:89-113` does not
  declare; it declares a `waiter`. The model follows the header: a completed
  detent hands the new counter to the waiter's `Send`.

## Model

| member | source | states |
|---|---|---|
| Quadrature.Transition | src/rotary_encoder.cc:52-53 | The table index is below 16, and the previous pair and the new pair are recovered from its high and low two bits. |
| Quadrature.IncrementsTable | src/rotary_encoder.cc:12-27 | The table has sixteen entries, each a quarter step of -1, 0 or +1. `Quadrature.TableEntries` lists them one by one. |
| Quadrature.TableEntries | src/rotary_encoder.cc:12-27 | The sixteen table entries, one by one; the table at rotary_encoder.cc:47-62 is the same. |
| Quadrature.TableCounts | src/rotary_encoder.cc:12-27 | The +1 entries sit exactly at indices {2, 4, 11, 13} and the -1 entries at {1, 7, 8, 14}, four each. The other eight are 0. |
| Quadrature.Increment | src/rotary_encoder.cc:52-54 | The `kIncrementsTable[transition]` lookup. `Quadrature.IncrementCharacterisation` states which transitions count +1, -1 and 0. |
| Quadrature.IncrementCharacterisation | src/rotary_encoder.cc:15-25 | A transition counts +1 iff it is one step forward along 11→01→00→10→11, and -1 iff it is one step back. Every other transition counts 0. |
| Quadrature.IncrementAntisymmetric | src/rotary_encoder.cc:15-25 | Reversing any transition negates its increment. |
| Quadrature.InvalidTransitionsAreZero | src/rotary_encoder.cc:13-25 | No change, and a jump that flips both pins, both count 0. |
| Quadrature.Sample | src/rotary_encoder.cc:47-51 | Bit 0 of the sampled pair is pin a's level and bit 1 is pin b's. |
| Quadrature.Step | src/rotary_encoder.cc:46-63 | The new pair becomes the previous pair and the fraction stays in [-3, 3]. 4·counter + fraction grows by exactly the increment. The counter moves, by exactly ±1 with the fraction reset to 0, iff the fraction reaches ±4. |
| Quadrature.RunConservesQuarterSteps | src/rotary_encoder.cc:45-66 | After any sequence of interrupts, 4·counter + fraction has grown by the summed increments of the walk. The fraction stays in range and the last sample is remembered. |
| Quadrature.ForwardDetent | src/rotary_encoder.cc:15-25 | From fraction 0, the walk 11→01→00→10→11 raises the counter by exactly 1 and leaves the fraction at 0. |
| Quadrature.BackwardDetent | src/rotary_encoder.cc:15-25 | From fraction 0, the reverse walk lowers the counter by exactly 1. |
| Quadrature.Read | src/rotary_encoder.cc:68-71 | `Read()` returns the detent counter. `Quadrature.ReadCountsDetents` states that, from power-on, it is the summed quarter-steps less the pending fraction, divided by four. |
| Quadrature.ReadCountsDetents | src/rotary_encoder.cc:68-71 | From power-on, four times `Read` equals the summed quarter-steps less the pending fraction. |
| Quadrature.LegacyCreate | rotary_encoder.cc:28-39 | The older encoder starts with pins 0b11, fraction 0 and counter 0, so `Read` gives 0. |
| Quadrature.LegacyEdgeInterrupt | rotary_encoder.cc:70-88 | Both pins are acknowledged for both edges and re-sampled. The sampled pair replaces the stored one and quarter-steps are conserved. A change in `Read` comes with a reset fraction. |
| Quadrature.Create | src/rotary_encoder.h:89-127 | A new per-pin-pair state has pins 0b11, fraction 0, counter 0 and an empty waiter. |
| Quadrature.HandleInterrupt | src/rotary_encoder.cc:45-66 | Without a completed detent, the counter, waiter and executor are untouched. A detent moves the counter by ±1, resets the fraction and hands the new counter to the waiter. The consumer is scheduled once, unless that value was already buffered. |
| Mailbox.Fresh | src/button.h:71-73 | A new waiter holds no value and no registered handle. |
| Mailbox.AwaitReady | src/button.h:35-38 | `await_ready` is true iff a value is buffered. `Mailbox.EncoderAwait` and `Mailbox.NoLostWakeup` state that the consumer suspends exactly when it is false. |
| Mailbox.AwaitSuspend | src/button.h:40-48 | It suspends iff no value is buffered, registering the handle. A value that raced in after `await_ready` cancels the suspension and changes nothing. |
| Mailbox.AwaitResume | src/button.h:50-55 | It returns the buffered value and empties the slot, leaving the registration alone. |
| Mailbox.Send | src/rotary_encoder.h:69-78 | Sending the buffered value changes nothing and schedules nothing. Otherwise the value overwrites the slot, and a registered handle is scheduled once and cleared. |
| Mailbox.EncoderAwait | src/rotary_encoder.h:52-60 | Ready check and suspension taken as one locked step: it suspends and registers the handle iff the slot is empty. |
| Mailbox.StepsKeepConsistent | src/button.h:57-73 | Every operation keeps at most one handle, registered only while the slot is empty. |
| Mailbox.SendThenResume | src/rotary_encoder.h:62-78 | With an empty slot, `Send(v)` then `await_resume` yields v and leaves the slot empty. |
| Mailbox.LatestValueWins | src/rotary_encoder.h:69-78 | Of two unread sends, the later value is the one delivered. |
| Mailbox.NoLostWakeup | src/button.h:35-66 | Whether `Send` lands before `await_ready`, between the two awaiter steps, or after suspension, the consumer gets the value. The handle is scheduled exactly when the consumer really suspended, and then exactly once. |
| Mailbox.DuplicateSendSchedulesNothing | src/button.h:57-66 | A repeated send of the same value never schedules the consumer a second time. |
| Mailbox.AwaitReadyAsWritten | src/rotary_encoder.h:52-55 | `await_ready` as written enters the critical section and stays inside. It deadlocks iff the section is already held. |
| Mailbox.AwaitResumeAsWritten | src/rotary_encoder.h:62-67 | `await_resume` takes the critical section again. It deadlocks iff the section is held; otherwise it returns the value and leaves the section. |
| Mailbox.ReadyPathDeadlocks | src/rotary_encoder.h:52-67 | With a value buffered, the as-written `await_ready` (true) then `await_resume` always deadlocks. |
| Mailbox.EncoderReadyPathDelivers | src/rotary_encoder.h:52-67 | With the lock spanning only ready and suspend, a buffered value is delivered without suspending. |
| Executor.Handles | src/button.h:63-65 | A registration contributes no handle or exactly its one handle. |
| Executor.Wake | src/picoro/event.h:38-40 | A registered handle is added to the executor exactly once, and no other handle's count changes. |
| Button.Create | src/button.cc:11-16 | The pin gets its pull-up and both edge interrupts, and the waiter starts empty. |
| Button.HandleInterrupt | src/button.cc:18-26 | A mask without an edge bit changes nothing and acknowledges nothing. Otherwise both edge bits are acknowledged and the raw level lands in the waiter, with the waiter's send semantics for the consumer. |
| Button.SpuriousInterruptIsInvisible | src/button.cc:19-22 | An interrupt with neither edge bit leaves state, executor and acknowledgements unchanged. |
| Button.PressWakesConsumer | src/button.cc:23-25 | A consumer suspended on a new button is scheduled exactly once by the next edge, and then receives the pin level. |
| PollingButton.Create | button.h:17-31 | `last_value` starts as the level at creation, and the first poll is due immediately. |
| PollingButton.Poll | button.h:20-27 | The callback fires iff the level differs from the last one, with the negated level. The level is remembered, and the next poll is due 100 ms later. |
| PollingButton.UnchangedLevelIsSilent | button.h:21-25 | A second poll seeing the same level fires nothing. |
| PollingButton.CallbacksAlternate | button.h:20-26 | Over any sequence of polls the callback arguments alternate. The first is the starting level and the last is the negated final level. |
| PollingButton.CallbacksOfConstant | button.h:21-25 | No callback at all means every sample equalled the starting level. |
| Gpio.HasEdgeMeansRiseOrFall | src/button.cc:8 | An event mask passes the edge filter iff it has the rise bit or the fall bit. |
| DigitalInput.EdgeInterrupt | digital_input.cc:25-33 | A mask without an edge bit changes nothing. Otherwise exactly the observed bits are acknowledged, the value is true iff the fall bit is set, and the worker is marked pending. |
| DigitalInput.Value | digital_input.cc:20-23 | `Value()` returns the stored value. `DigitalInput.ValueReportsLastFall` states that it is the fall bit of the last accepted interrupt. |
| DigitalInput.ValueReportsLastFall | digital_input.cc:20-33 | `Value()` after an accepted interrupt reports its fall bit, and after an ignored one the previous value. |
| DigitalInput.BothEdgesReadAsFall | digital_input.cc:31 | A mask with both rise and fall reads as a fall; rise alone reads false. |
| DigitalInput.PendingCoalesces | digital_input.cc:30-32 | Two accepted interrupts before the worker runs leave the state the second alone would: pending once, latest value. |
| Event.Notify | src/picoro/event.h:35-41 | The flag is set, and a registered waiter is scheduled exactly once and cleared. |
| Event.AwaitReady | src/picoro/event.h:47-50 | `await_ready` reads the notified flag. `Event.NoMissedWakeup` states that a notify before the await makes it true, so the awaiter never suspends. |
| Event.AwaitSuspend | src/picoro/event.h:52-59 | It suspends and registers the handle iff the event is not notified; otherwise nothing changes. |
| Event.AwaitResume | src/picoro/event.h:61-64 | The event goes back to unnotified. |
| Event.OperationsKeepConsistent | src/picoro/event.h:28-64 | Every operation keeps a registered waiter only on an unnotified event. |
| Event.NotifyIsIdempotent | src/picoro/event.h:35-41 | A second notify before an await changes nothing and schedules nothing: notifications are a flag, not a count. |
| Event.NoMissedWakeup | src/picoro/event.h:47-59 | A notify before the await, between its steps, or after suspension is never lost. The waiter is scheduled exactly when it suspended. |
| Notification.Release | src/picoro/notification.h:26-28 | A release adds a permit below the maximum of 1 and does nothing at the maximum. |
| Notification.Notify | src/picoro/notification.h:28 | With nobody waiting, one permit is available afterwards, never more. A consumer parked in `Wait()` takes the released permit and latches, leaving no permit. |
| Notification.Wait | src/picoro/notification.h:37-43 | A latched wait returns at once and changes nothing. Otherwise it blocks without a permit, or consumes the permit and latches. |
| Notification.Notified | src/picoro/notification.h:30-35 | Latched, or a permit is free, without taking it. `Notification.NotifiedMeansWaitReturns` states it holds iff `Wait()` would return, and `Notification.LatchIsPermanent` that it stays true once latched. |
| Notification.NotifiedMeansWaitReturns | src/picoro/notification.h:30-43 | `Notified()` is true exactly when `Wait()` would return without blocking. |
| Notification.Apply | src/picoro/notification.h:26-43 | Any sequence of notifies and waits keeps the permit count within [0, 1], and a consumer is parked only while nothing is latched and no permit is free. |
| Notification.LatchIsPermanent | src/picoro/notification.h:30-43 | Once latched, `Notified()` stays true after any further operations. |
| Notification.LatchesIffWaitMeetsNotify | src/picoro/notification.h:26-43 | In any order of notifies and waits, the latch ends up set iff it was set already, or some wait, possibly one already parked, meets some permit: one already free or one from a later notify. |
| Notification.BlockedWaitLatchesOnNotify | src/picoro/notification.h:37-43 | A wait that blocks is completed by the next notify, which ends with no permit and the latch set. |
| Notification.NotifyThenWaitReturns | src/picoro/notification.h:26-43 | A fresh notification is not notified and its wait blocks. A notify before the first wait makes the wait return and latch. |
| OledBuffer.WriteBit | src/oled_buffer.cc:66-73 | Writing a pixel bit sets it to the value and leaves the other seven bits of the block unchanged. |
| OledBuffer.Set | src/oled_buffer.cc:7-12 | Writing pixel (x, y) changes only byte `x + (y >> 3)·width`, and in it only bit `y & 7`, which now reads the value. |
| OledBuffer.Index | src/oled_buffer.cc:7-11 | `operator()` addresses byte `x + (y >> 3)·width`. `OledBuffer.AddressInjective` states that inside the width distinct pixels get distinct byte-and-bit addresses, and `OledBuffer.IndexInFootprint` that they stay inside the bitmap. |
| OledBuffer.Get | src/oled_buffer.cc:64 | `Pixel::operator bool` reads bit `y & 7` of that byte. `OledBuffer.SetThenGet` states that it returns what the last write of the pixel stored. |
| OledBuffer.AddressInjective | src/oled_buffer.cc:7-12 | Inside the width, two pixels with the same byte and bit are the same pixel. |
| OledBuffer.IndexInFootprint | src/oled_buffer.cc:7-12 | Every pixel of the block-padded bitmap addresses a byte inside `width·ceil(height/8)`. |
| OledBuffer.SetThenGet | src/oled_buffer.cc:64-73 | Reading a pixel after writing v returns v, and every other pixel inside the width reads as before. |
| OledBuffer.SetTrueOnlyThatPixel | src/oled_buffer.cc:66-73 | Setting a pixel of a valid buffer turns on exactly that pixel, and bytes beyond the bitmap are unchanged. |
| OledBuffer.ClearAsWritten | src/oled_buffer.cc:14-26 | `Clear` as written zeroes exactly the first `width·height/8` bytes (rounded down) and nothing else. |
| OledBuffer.ClearAsWrittenMissesPartialRow | src/oled_buffer.cc:20-26 | For a 1×4 bitmap the as-written span is 0 bytes, so a lit pixel survives `Clear`. |
| OledBuffer.Span | src/oled_buffer.cc:20-26 | The corrected span agrees with the written one when the height is a multiple of 8 and is never shorter. |
| OledBuffer.SpanCoversAsWritten | src/oled_buffer.cc:20-26 | The block footprint equals `width·height/8` for heights that are multiples of 8, and is never smaller. |
| OledBuffer.Clear | src/oled_buffer.cc:14-18 | The corrected `Clear` zeroes every byte of the bitmap and nothing beyond it. |
| OledBuffer.ClearBlanks | src/oled_buffer.cc:14-18 | After the corrected `Clear`, every pixel reads false. |
| OledBuffer.DrawChar | src/oled_buffer.cc:28-45 | For x0 ≤ W and y0 ≤ H, exactly the glyph's lit pixels in the box clipped to the screen are turned on. No pixel is cleared, and nothing else changes. |
| OledBuffer.DrawGlyphColumn | src/oled_buffer.cc:39-43 | The inner loop adds the lit pixels of glyph column dx, top to bottom, clipped at the screen's height. |
| OledBuffer.DrawLineH | src/oled_buffer.cc:55-59 | For any row y of the block-padded bitmap (y < 8·ceil(height/8)) and any x1 up to the width, exactly the pixels (x, y) with x0 ≤ x < x1 are turned on, and nothing else changes. |
| OledBuffer.Glyph | src/font/font.h:18-20 | `font[c]` is the glyph's `bytes_per_char` bytes at offset `(c - ' ')·bytes_per_char`, one bitmap footprint long. |
| OledBuffer.GlyphInData | src/font/font.h:13-20 | Every printable character's glyph lies inside the font data. |
| OledBuffer.DrawString | src/oled_buffer.cc:47-53 | Character i is drawn as by `DrawChar` at `x0 + i·width`, and nothing else is turned on. The last character must start on the screen. |
| OledBuffer.DrawNextChar | src/oled_buffer.cc:49-52 | One loop iteration adds character k at `x0 + k·width` to the first k characters drawn. |
| Fonts.BlocksPerColumn | src/font/font.cc:23-24 | `(height + 7) / 8` is the least number of 8-pixel blocks covering the height. |
| Fonts.DataSize | src/font/font.cc:23-25 | `width * storage_height * 95 / 8`. `Fonts.DataSizeCountsGlyphs` states that it is exactly 95 glyphs of `width·blocks` bytes. |
| Fonts.DataSizeCountsGlyphs | src/font/font.cc:23-25 | The record's data size is 95 glyphs of `width·blocks` bytes each. |
| Fonts.Record | src/font/font.cc:20-27 | A font record is two header bytes followed by the data, `2 + |data|` bytes. |
| Fonts.ParseFonts | src/font/font.cc:18-31 | When the blob holds them, the parser produces exactly `count` fonts. Each has byte-sized dimensions, `data_size` bytes of data and a `bytes_per_char` of one glyph. |
| Fonts.ParsedRecords | src/font/font.cc:19-31 | What the parser consumed is exactly the concatenated records of the fonts it produced: the cursor advances `2 + data_size` per font. |
| Fonts.ParseRecords | src/font/font.cc:19-31 | Parsing the records of any loaded fonts, whatever follows them, gives back those fonts and that remainder. |
| Fonts.LoadFonts | src/font/font.cc:11-33 | On success the first byte is the font count and exactly that many loaded fonts are produced. Their records follow the count byte contiguously. |
| Fonts.GlyphOffset | src/font/font.h:19-21 | `operator[]`'s offset `(c - ' ')·bytes_per_char`. `Fonts.GlyphSlots` states that with the corrected `bytes_per_char` the slots are disjoint, ordered and inside the data. `Fonts.AsWrittenGlyphsAlias` states that with `bytes_per_char` 0 every offset is 0. |
| Fonts.GlyphSlots | src/font/font.h:18-20 | Glyphs of different characters occupy disjoint slots in code order, all inside the data. |
| Fonts.FontForHeight | src/font/font.cc:41-49 | The first font of the requested height, or font 0 when no font has it. |
| Fonts.LoadFontsAsWritten | src/font/font.cc:18-31 | The parser as written produces the same fonts, except that `bytes_per_char` is left at its value-initialised 0. |
| Fonts.AsWrittenGlyphsAlias | src/font/font.h:10-20 | As written, every character's glyph starts at the offset of ' '. |
| Fonts.LoadedFontsFit | src/font/font.cc:23-26 | With `bytes_per_char` set to one glyph's size, every loaded font holds all 95 glyphs. |
| FontWriter.PackByte | src/font/generate_fonts.py:27-29 | Bit k of a packed byte is the k-th pixel of the block, least significant bit topmost. |
| FontWriter.Padded | src/font/generate_fonts.py:19-26 | `np.pad` with blank rows below the glyph. `FontWriter.Block` and `FontWriter.PackGlyphPixels` state that padding rows read blank and the other pixels are the glyph's. |
| FontWriter.Block | src/font/generate_fonts.py:15-26 | Block j of column x is the 8 pixels from row 8j down, with rows below the height padded blank. |
| FontWriter.BlockRows | src/font/generate_fonts.py:27-29 | `packbits` over the row axis gives `ceil(height/8)` rows of `width` bytes, each the packed block. |
| FontWriter.PackGlyph | src/font/generate_fonts.py:25-30 | A packed glyph is `width·ceil(height/8)` bytes. |
| FontWriter.PackGlyphPixels | src/font/generate_fonts.py:12-30 | Read as a bitmap of the glyph's size, the packed glyph shows exactly the padded input pixels. |
| FontWriter.PackedGlyphs | src/font/generate_fonts.py:24-30 | 95 glyphs, one per code from ' ' to '~', in code order. |
| FontWriter.GlyphData | src/font/generate_fonts.py:16-30 | The glyph bytes of a font are exactly as long as the data size the parser reads. |
| FontWriter.SerializeFont | src/font/generate_fonts.py:6-30 | A font serialises iff its dimensions fit a byte. The record is `[width, height]` followed by the data size in glyph bytes. |
| FontWriter.Concat | src/font/generate_fonts.py:52-55 | The successive `output.write` calls. `FontWriter.ConcatAt` states where each byte of each part lands, and `FontWriter.WrittenRecords` that the written records are the expected fonts' records. |
| FontWriter.Serialized | src/font/generate_fonts.py:53-55 | One serialised record per font, in order. |
| FontWriter.WriteBlob | src/font/generate_fonts.py:49-55 | `main` completes iff there are fewer than 256 fonts, each fitting, and the completed blob starts with the font count. |
| FontWriter.FittingPrefix | src/font/generate_fonts.py:11 | The number of leading fonts whose dimensions fit a byte: all fonts before it fit, and the font at it does not. |
| FontWriter.MainOutput | src/font/generate_fonts.py:49-55 | The file `main` leaves behind. It raises iff `WriteBlob` fails, and when it does not raise the file is the blob. With 256 fonts or more the truncated file stays empty. Otherwise it holds the count byte and the records of the fonts before the first one that does not fit. |
| FontWriter.Expected | src/font/font.cc:20-26 | The font the parser should recover from a source font is a loaded font. |
| FontWriter.WrittenRecords | src/font/generate_fonts.py:51-55 | The records written are exactly the records of the expected fonts. |
| FontWriter.SerializedRecord | src/font/generate_fonts.py:9-30 | Each serialised font is the record of its expected font. |
| FontWriter.WriteThenLoad | src/font/font.cc:11-33 | Loading any blob the writer produces gives back exactly the expected fonts: the layout round trip. |
| FontWriter.WrittenGlyphPixels | src/font/generate_fonts.py:12-13 | Every pixel of every character's glyph, as the firmware reads it from the loaded font, is the source font's pixel. |
| SpeedControl.Create | speed_control.cc:10-22 | The direction pin becomes an output, the pulse pin a PWM output, and the slice runs at 1 MHz in phase-correct mode. |
| SpeedControl.Wrap | speed_control.cc:30-33 | The wrap never exceeds 65535. |
| SpeedControl.Top | speed_control.cc:38 | `wrap - 1` as a 16-bit top: one more than the top is the wrap, modulo 65536. |
| SpeedControl.Set | speed_control.cc:24-42 | The slice is disabled first. A request of 0 stops there; any other request ends by re-enabling the slice. No call touches a GPIO pin. |
| SpeedControl.WrapIgnoresSign | speed_control.cc:30-33 | The sign of the request does not change the wrap. |
| SpeedControl.SetProgramsSlice | speed_control.cc:24-42 | The slice runs iff the request is nonzero. It then has counter 0, top + 1 equal to the wrap, and level half the wrap; a 0 request only disables it. |
| SpeedControl.WrapIsHalfPeriod | speed_control.cc:31-33 | The wrap is the largest whole number of microseconds not exceeding half the requested period, capped at 65535. |
| SpeedControl.TooFastRunsFlat | speed_control.cc:33-39 | Above 500 kHz the wrap is 0, so the top wraps to 65535 and the level is 0: the slice runs but never pulses. |
| SpeedControl.OrdinaryRequestsHaveWrap | speed_control.cc:33-38 | Requests of 1 to 500000 Hz in either direction get a wrap of at least 1, whose top is `wrap - 1` without wrapping. |
| Modbus.Frame | rs232/modbus.py:18-19 | A frame is the payload followed immediately by its two checksum bytes. |
| Modbus.Recv | rs232/modbus.py:21-39 | No data or a wrong length raises `MessageLengthError`, and a bad trailer raises `ChecksumError`. Success happens iff neither applies, and the payload's frame is the data received. |
| Modbus.RecvFrame | rs232/modbus.py:18-39 | Receiving a frame sent with the same checksum returns its payload. |
| Modbus.PackRequest | rs232/modbus.py:42-52 | The 6-byte `>BBHH` request (address 63, function code, two big-endian words that read back as given). Packing fails with `struct.error` iff a word is outside 16 bits. |
| Modbus.ReadRequest | rs232/modbus.py:42-52 | `get`'s request: packing fails iff the key is outside 16 bits. Otherwise it is 6 bytes: address 63, function 3, then the key and a count of 1 as big-endian words. |
| Modbus.ReadReply | rs232/modbus.py:54-55 | `get` succeeds iff the reply frame is valid, and returns the big-endian value word of the 5-byte payload. |
| Modbus.WriteRequest | rs232/modbus.py:58-68 | The intended `set`'s request: packing fails iff the key or the value is outside 16 bits. Otherwise it is 6 bytes: address 63, function 6, then the key and the value as big-endian words. |
| Modbus.WriteReply | rs232/modbus.py:69-74 | `set` succeeds iff the reply is exactly the request framed with its checksum. A valid frame with another payload raises `ValueError`. |
| Modbus.GetAsWritten | rs232/modbus.py:1-19 | `get(key)` as written writes nothing. A 16-bit key raises `NameError` on the unimported `crc` in `_send`, and any other key raises `struct.error`. |
| Modbus.GetAsWrittenNeverReads | rs232/modbus.py:41-55 | As written, no call of `get` reads a register, though the request packs for every 16-bit key. |
| Modbus.SetAsWritten | rs232/modbus.py:57-67 | `set(self, key)` as written raises `NameError` on the unbound `value` before sending anything. |
| Modbus.SetAsWrittenNeverWrites | rs232/modbus.py:57-74 | As written, no call of `set` writes anything or succeeds, though the intended request packs for every 16-bit key. |
| Bytes.BigEndian16 | rs232/modbus.py:42-52 | `struct`'s `>H` field: two bytes, the high byte `n / 256` first, then `n % 256`. |
| FakeStream.Write | rs232/fake_stream.py:11-12 | The request is remembered, replacing any earlier one, and the registers are untouched. |
| FakeStream.Register | rs232/fake_stream.py:23 | `_data.get(key, 1000 + key)`. `FakeBus.GetReads` states that a read returns the stored value, or this default for a key never written. |
| FakeStream.Read | rs232/fake_stream.py:14-30 | The request is consumed whatever happens. None or empty gives `None`, and a request of the wrong size fails to unpack. Registers change only through an 8-byte function-6 request. |
| FakeStream.ReadConsumesRequest | rs232/fake_stream.py:15-18 | A second read without a write in between returns `None`. |
| FakeBus.Get | rs232/modbus.py:42-52 | A key outside 16 bits fails to pack and leaves the stream untouched. |
| FakeBus.Set | rs232/modbus.py:58-68 | A key or value outside 16 bits fails to pack and leaves the stream untouched. |
| FakeBus.SetStores | rs232/fake_stream.py:26-30 | A write through the client succeeds, stores the value under the key and consumes the request. |
| FakeBus.GetReads | rs232/fake_stream.py:21-25 | A read through the client returns the stored value or the `1000 + key` default. A default above 65535 fails to pack. The registers are untouched. |
| FakeBus.SetThenGet | rs232/fake_stream.py:23-29 | After a write of v to a key, a read of that key returns v. |
| FakeBus.LargeDefaultFails | rs232/fake_stream.py:23-24 | On a fresh stream, reading a key above 64535 fails because its default does not fit the reply. |
| Parameters.CheckKey | motor_programmer/parameters.py:34-37 | A non-integral key raises `TypeError`. Any other key maps into [0, 304), congruent to it modulo 304. |
| Parameters.KeysWrap | motor_programmer/parameters.py:17-37 | Integer keys k and k + 304 name the same parameter. |
| Parameters.Get | motor_programmer/parameters.py:20-26 | A read succeeds iff the key is a whole number, and otherwise raises `TypeError` with nothing touched. A cached key is answered from the cache with no device access. A miss reads the device once and caches the answer. |
| Parameters.Set | motor_programmer/parameters.py:28-31 | A write succeeds iff the key is a whole number, and otherwise raises `TypeError` with nothing touched. On success the device is written once, then the cache, at the reduced key. |
| Parameters.CacheIsTransparent | motor_programmer/parameters.py:20-31 | While the table is the device's only writer, reads return the device's value and the cache stays coherent. |
| Parameters.SetThenGet | motor_programmer/parameters.py:28-31 | After a write, reading the key returns the value with no device access. |
| Parameters.GetTwice | motor_programmer/parameters.py:22-26 | A repeated read returns the same value with no device access. |
| Page.Len | motor_programmer/page.py:14-15 | `__len__` is `stop - start`. `Page.TablePagesAreNonEmpty` states that it is positive for every page of the table, and `Page.AbsoluteKey` that only a zero length raises. |
| Page.AbsoluteKey | motor_programmer/page.py:23-24 | An empty page divides by zero. Otherwise the key lies in [start, stop), or in (stop, start] for a reversed window. |
| Page.OffsetsInWindow | motor_programmer/page.py:23-24 | An offset inside the window names the key that many places after `start`. |
| Page.OffsetsWrap | motor_programmer/page.py:23-24 | Offsets differing by the page length name the same key. |
| Page.Get | motor_programmer/page.py:17-18 | A page read succeeds iff the page is non-empty; an empty page raises `ZeroDivisionError` with nothing touched. Otherwise it is the table read at the absolute key. |
| Page.SetAsWritten | motor_programmer/page.py:20-21 | The setter as written succeeds iff the page is non-empty, and writes the table at `start + absolute_key(offset)`. |
| Page.Set | motor_programmer/page.py:20-21 | The corrected setter succeeds iff the page is non-empty, and writes the table at the key the getter reads. |
| Page.SetThenGet | motor_programmer/page.py:17-21 | Through the corrected setter, reading the offset back returns the value from the cache. |
| Page.WrittenKey | motor_programmer/page.py:20-21 | The parameter key either setter writes lies in [0, 304). |
| Page.AsWrittenHitsIffStartWraps | motor_programmer/page.py:20-24 | The as-written setter writes the key the getter reads iff the page starts at a multiple of 304. |
| Page.Table | motor_programmer/parameters.py:7-11 | Eight pages; page i covers `[starts[i], starts[i] + lengths[i])`. |
| Page.TableLayout | motor_programmer/parameters.py:7-11 | The pages lie inside the 304 parameters, in increasing order and pairwise disjoint. |
| Page.TablePagesAreNonEmpty | motor_programmer/parameters.py:7-11 | Every page has a positive length, so page access never divides by zero. |
| Page.AsWrittenLosesWrite | motor_programmer/page.py:20-21 | On page 1 the as-written setter stores offset 0 at key 50. Reading offset 0 back returns the device's old value. |
| Led.Find | motor_programmer/led.py:19-23 | The position of the first overlay with the key, or none iff no overlay has it. |
| Led.Update | motor_programmer/led.py:13-17 | The pixel shows the last overlay's value, or 0 with no overlays. |
| Led.Get | motor_programmer/led.py:19-23 | The value of an overlay with the key, or `None` iff no overlay has it. |
| Led.Set | motor_programmer/led.py:25-32 | An existing key's overlay is replaced in place and a new key is appended on top. The pixel shows the top afterwards. |
| Led.Delete | motor_programmer/led.py:34-39 | The overlay with the key is removed and the pixel updated. An absent key changes nothing, not even the pixel. |
| Led.SetThenGet | motor_programmer/led.py:25-32 | Setting keeps keys unique, the key reads back its value, and every other key reads as before. |
| Led.SetKeys | motor_programmer/led.py:25-32 | After a set the old keys stay in order and other overlays are untouched. A new key is added at the end. |
| Led.DeleteRemoves | motor_programmer/led.py:34-39 | Deleting keeps keys unique and leaves the key absent. |
| Led.SetThenDelete | motor_programmer/led.py:25-39 | Setting a new key and deleting it again restores the LED exactly, pixel included. |
| Ui.Decimal | motor_programmer/ui.py:33 | `str(v)` of a natural number is a non-empty string of decimal digits. |
| Ui.Parse | motor_programmer/ui.py:69 | `int` of a digit string. `Ui.ParseDecimal` states `int(str(v)) == v`, and `Ui.ParseLeadingZeros` that leading zeros change nothing. |
| Ui.ParseDecimal | motor_programmer/ui.py:69 | `int(str(v)) == v`. |
| Ui.ParseLeadingZeros | motor_programmer/ui.py:69 | Leading zeros do not change what `int` reads. |
| Ui.Join | motor_programmer/ui.py:69 | `"".join(d.text for d in self)`. `Ui.JoinDigits` states that single-digit texts join one character each, in order. |
| Ui.JoinDigits | motor_programmer/ui.py:69 | The joined texts of single digits have one character per digit, in order. |
| Ui.Format6 | motor_programmer/ui.py:73 | `f"{v:6d}"` right-justifies v in six columns and never truncates. |
| Ui.Columns | motor_programmer/ui.py:73 | For v ≤ 999999, a column is blank iff it lies before the digits of `str(v)`. The rest hold those digits in order. |
| Ui.TooWide | motor_programmer/ui.py:73 | Values of seven or more digits overflow the six columns. |
| Ui.Place | motor_programmer/ui.py:74-81 | A blank column becomes a hidden 0, and a digit column a shown digit of that value. |
| Ui.SetValue | motor_programmer/ui.py:71-82 | A negative value raises `ValueError` and one above 999999 raises `IndexError`. Otherwise exactly the leading columns are hidden, the last digit is highlighted with no other highlight removed, and the edit index stays. |
| Ui.SetValueText | motor_programmer/ui.py:71-82 | The digit texts after the setter spell `str(v)` behind leading zeros. |
| Ui.Value | motor_programmer/ui.py:67-69 | The `value` getter parses the six digit texts. `Ui.SetThenValue` states that it reads back any value from 0 to 999999 the setter wrote, and `Ui.NewReads123` that a new editor reads 123. |
| Ui.SetThenValue | motor_programmer/ui.py:67-82 | For 0 ≤ v ≤ 999999, reading `value` after setting v returns v. |
| Ui.New | motor_programmer/ui.py:53-65 | A new editor is well formed and edits the last digit. |
| Ui.NewReads123 | motor_programmer/ui.py:53-69 | A new editor reads 123. |
| Ui.IncrementDigit | motor_programmer/ui.py:88-92 | 0 does nothing. Otherwise only the edited digit changes, to a digit congruent to value + delta modulo 10. |
| Ui.IncrementUndo | motor_programmer/ui.py:88-92 | Incrementing by d and then by -d restores the editor. |
| Ui.NextDigit | motor_programmer/ui.py:94-99 | The index moves to `(i - 1) mod 6`. The old digit loses its highlight, the new one is highlighted and shown, and no value changes. |
| Ui.NextDigitMovesHighlight | motor_programmer/ui.py:94-99 | A single highlight on the edited digit stays single and moves with the index. |
| Ui.SetValueCanHighlightTwo | motor_programmer/ui.py:71-82 | Once the index has left the last digit, setting a value leaves two digits highlighted. |
| Ui.NextDigitCycle | motor_programmer/ui.py:94-97 | Six moves bring the index back where it started. |
| Ui.Advance | motor_programmer/ui.py:178-189 | Both deltas at once fail the assertion. An offset step moves round the current page modulo its length, and a page step moves round the eight pages to offset 0. No step changes nothing, and every result is a valid position. |
| Ui.AdvanceWraps | motor_programmer/ui.py:179-182 | Stepping a whole page length returns to the same position, which shows a key of its own page. |
| Ui.PageStepsCompose | motor_programmer/ui.py:183-187 | Page steps of a and then b land where one step of a + b does. |
| Ui.PagesCycle | motor_programmer/ui.py:183-187 | Eight page steps return to the same page at offset 0. |
| Exceptions.PyMod | motor_programmer/page.py:24 | Python's `%`: for a positive divisor the result lies in [0, n), and for a negative one in (n, 0]. Either way it is congruent to the dividend. |

## Left out

- I/O and printing: every `std::cout` and `print`, the float frequency in `speed_control.cc:34-37`, and the serial and I2C transports behind the Modbus stream.
- Concurrency beyond atomic steps: critical sections are modelled as the atomicity of each method. Real interleavings of interrupts, the poll loop and the `async_context` are not modelled. Neither are the executor's internals (`AsyncExecutor::Schedule` adds a handle to a multiset).
- Interrupt registration and enabling (`gpio_add_raw_irq_handler`, `irq_set_enabled`): only `Button.Create` records its pin setup, the pull-up and both edge interrupts. `Quadrature.Create`, `Quadrature.LegacyCreate` and `PollingButton.Create` model only their initial state. The pull-ups and edge-interrupt enables of `src/rotary_encoder.cc:34-41` and `rotary_encoder.cc:28-39`, and the pull-up of `button.h:18-19`, are not modelled.
- SDK wrappers (`picopp/*`, `src/picopp/*`), coroutine frames (`src/picoro/task.h`, `src/picoro/awaitable_reference.h`) and the entry points (`main.cc`, `src/main.cc`, `code.py` files, `rs232/target.py`, `motor_programmer/i2c_bridge.py`): hardware wiring and loops with no logic of their own.
- OLED command sequences (`oled.cc`, `src/oled.cc`) and host tooling (`push.py` files, `analysis/prolific.py`, `motor_programmer/font_loader.py`): I/O only.
- Quadrature.Step: the 64-bit `counter` is an unbounded integer. Signed overflow after 2^63 detents is undefined behaviour rather than wrap-around, so it is not modelled.
- PollingButton.Poll: the deadline is an unbounded number of microseconds, and 64-bit time wrap-around is not modelled.
- `digital_input.h` declares a `State` that does not match the fields `digital_input.cc` uses. The model follows the `.cc` file and keeps only the pin, the value and the pending flag.
- SpeedControl.Set: requires |f| < 2^62, so that `2 * std::abs(freq_hz)` fits in an `int64_t`. Larger requests, and `std::abs(INT64_MIN)`, overflow: that is undefined behaviour in the source, so they are not modelled.
- Modbus.Frame: the CRC of MODBUS over Serial Line V1.02 section 2.5.1 is a parameter, and only its two-byte length is assumed; the `crc` module is not part of this model. `rs232/modbus.py` never imports `crc`, so as written every `get` of a 16-bit key, and every `set`, raises `NameError` before writing (`Modbus.GetAsWritten`, `Modbus.SetAsWritten`). `Modbus.Frame`, `Modbus.Recv` and the `FakeBus` members describe the module with `import crc` added, as `rs232/fake_stream.py:2` has it.
- Modbus.PackRequest: the `struct.error` branches, including `FakeBus.LargeDefaultFails` and the out-of-range default in `FakeStream.Read`, follow CPython's range-checked `struct.pack`. The programmer runs under CircuitPython, whose `struct.pack` may truncate instead of raising; that behaviour is not modelled.
- FakeStream.Read: the `nbytes` argument is ignored, as in the source.
- Parameters.CacheIsTransparent: coherence is stated only while the table is the device's only writer. The device is a 304-entry sequence, not the I2C bridge.
- Ui.SetValue: a failing setter leaves no partial update. The source has already changed the columns before the failing one, and the model returns only the exception.
- Ui.Advance: requires a valid position. Every position the UI reaches is one, and `_update_key_value_text`, label text and rendering are not modelled.
- Ui.New: the editor's label geometry and the initial 5..0 digits are not observable after the constructor's `value = 123`. Only well-formedness and the value read back are stated.
- OledBuffer.Set: requires only that the pixel's byte lie inside the data, so an x beyond the width writes the aliased byte of a later block row, as `operator()` does. `OledBuffer.SetThenGet` and `OledBuffer.AddressInjective` state independence of pixels only for x below the width, because aliased pixels do share a byte.
- OledBuffer.DrawLineH: requires x1 to be at most the width. Beyond the width the source writes the aliased byte of the next block row, as `OledBuffer.Set` does, or a byte past the bitmap on the last block row. The pixel-level postcondition speaks only of pixels inside the width, so these calls are not modelled.
- OledBuffer.DrawString: requires the last character to start on the screen. Further right, `x1 - x0` underflows as a `size_t` in the source.
- FontWriter.Block: the BDF file and numpy are not modelled. The glyph pixel grid is an input function, and its shape is the font's width and height.
- Fonts.LoadFonts: the C++ parser has no length check and reads past a short blob. The model returns no fonts for a blob too short for its count.
- Fonts.Record: stores each dimension modulo 256, as the one-byte header does. Wider fonts are refused by `FontWriter.SerializeFont`.
- `AllFonts` and the linker-embedded blob (`_binary_font_data_bin_start`) are not modelled; `LoadFonts` takes the blob as a parameter.

## Findings

| source | as written | input that shows it | evidently intended | confidence | as-written member | corrected member |
|---|---|---|---|---|---|---|
| src/rotary_encoder.h:52-67 | `await_ready` takes the lock and only `await_suspend` releases it, so `await_resume` re-locks a held lock | a value already buffered when the consumer awaits: `await_ready` returns true, then `await_resume` locks again | the lock spans ready and suspend only, as in `Button::Waiter` | not executed | Mailbox.ReadyPathDeadlocks | Mailbox.EncoderReadyPathDelivers |
| motor_programmer/page.py:20-21 | `__setitem__` writes at `start + absolute_key(offset)`, adding `start` twice | page 1 (`[25, 63)`), offset 0: writes key 50, reads key 25 | write at `absolute_key(offset)`, the key `__getitem__` reads | not executed | Page.AsWrittenLosesWrite | Page.SetThenGet |
| src/font/font.h:10-20 | `bytes_per_char` is never assigned by `LoadFonts`, so it stays 0 | any loaded font and any character c: `font[c]` points at the glyph of ' ' | `bytes_per_char = width · blocks_per_column` | not executed | Fonts.AsWrittenGlyphsAlias | Fonts.LoadedFontsFit |
| src/oled_buffer.cc:20-26 | `Span()` is `width * height / 8` bytes, rounded down | a 1×4 bitmap with pixel (0, 0) lit: the span is 0 bytes and the pixel survives `Clear` | the span covers `width · ceil(height / 8)` bytes | not executed | OledBuffer.ClearAsWrittenMissesPartialRow | OledBuffer.ClearBlanks |
| rs232/modbus.py:1-19 | `_send` and `_recv` call `crc.checksum_bytes`, but the module imports only `struct` | `get(0)`: the request packs, then `_send` raises `NameError` before the stream is written | `import crc`, as `rs232/fake_stream.py` does, so `get` returns the register | not executed | Modbus.GetAsWrittenNeverReads | FakeBus.GetReads |
| rs232/modbus.py:57-74 | `set(self, key)` packs `value`, a name bound nowhere | any call, e.g. `set(0)`: `NameError` before anything is sent | `set(self, key, value)` writes the value and checks the echo | not executed | Modbus.SetAsWrittenNeverWrites | FakeBus.SetThenGet |

=== FILE: button.dfy ===
/**
 * `Button` (`src/button.h`, `src/button.cc`): an edge interrupt on one pin
 * forwards the raw pin level to a boolean mailbox. There is no time filter:
 * every edge event is forwarded, and the mailbox drops a level equal to the
 * one still buffered.
 */
module Button {
  import opened Wrappers
  import opened Executor
  import opened Gpio
  import Mailbox

  /** How `Init` configures the pin. */
  datatype PinSetup = PinSetup(pullUp: bool, enabledEvents: Events)

  /** `Button::State`: the pin, its configuration and the waiter a consumer awaits. */
  datatype ButtonState = ButtonState(pin: Pin, setup: PinSetup, waiter: Mailbox.Waiter<bool>)

  /** `Create` followed by `Init`: pull-up on, both edges enabled, empty waiter. */
  function Create(pin: Pin): (b: ButtonState)
    ensures b.pin == pin
    ensures b.setup.pullUp && b.setup.enabledEvents & EdgeRise != 0 && b.setup.enabledEvents & EdgeFall != 0
    ensures b.waiter.slot.None? && b.waiter.pending.None?
  {
    ButtonState(pin, PinSetup(true, EdgeMask), Mailbox.Fresh())
  }

  /** The outcome of one interrupt: state, executor queue, acknowledgements. */
  datatype Interrupted = Interrupted(button: ButtonState, scheduled: Scheduled, acks: seq<Ack>)

  /**
   * `State::HandleInterrupt()`: an event mask without an edge bit is ignored
   * entirely; otherwise both edge bits are acknowledged and the current pin
   * level, uninverted, is sent to the waiter.
   */
  function HandleInterrupt(b: ButtonState, events: Events, levels: Levels, q: Scheduled): (r: Interrupted)
    ensures !HasEdge(events) ==> r == Interrupted(b, q, [])
    ensures HasEdge(events) ==> r.acks == [Ack(b.pin, EdgeMask)]
    ensures HasEdge(events) ==> r.button.waiter.slot == Some(levels(b.pin))
    ensures HasEdge(events) && b.waiter.slot == Some(levels(b.pin)) ==> r.button == b && r.scheduled == q
    ensures HasEdge(events) && b.waiter.slot != Some(levels(b.pin)) ==>
              r.button.waiter.pending.None? && r.scheduled == q + Handles(b.waiter.pending)
    ensures r.button.pin == b.pin && r.button.setup == b.setup
  {
    if events & EdgeMask == 0 then
      Interrupted(b, q, [])
    else
      var sent := Mailbox.Send(b.waiter, levels(b.pin), q);
      Interrupted(b.(waiter := sent.waiter), sent.scheduled, [Ack(b.pin, EdgeMask)])
  }

  /** A spurious interrupt (no rise or fall bit) between two edges changes nothing observable. */
  lemma SpuriousInterruptIsInvisible(b: ButtonState, events: Events, levels: Levels, q: Scheduled)
    requires events & EdgeMask == 0
    ensures HandleInterrupt(b, events, levels, q).button == b
    ensures HandleInterrupt(b, events, levels, q).scheduled == q
    ensures HandleInterrupt(b, events, levels, q).acks == []
  {
  }

  /**
   * A press seen by a suspended consumer: the level is delivered and the
   * consumer is scheduled exactly once.
   */
  lemma PressWakesConsumer(pin: Pin, h: Handle, events: Events, levels: Levels, q: Scheduled)
    requires HasEdge(events)
    ensures var b := Create(pin);
            var s := Mailbox.AwaitSuspend(b.waiter, h);
            var r := HandleInterrupt(b.(waiter := s.waiter), events, levels, q);
            s.suspended && r.scheduled == q + multiset{h}
            && Mailbox.AwaitResume(r.button.waiter).value == levels(pin)
  {
  }
}

/**
 * The older polling `Button` (`button.h`): a scheduled worker samples the pin
 * every 100 ms and calls back with the negated (active-low) level whenever the
 * level differs from the last one seen.
 */
module PollingButton {
  import opened Wrappers
  import opened Gpio

  /** Microseconds since boot (`absolute_time_t`). */
  type Micros = nat

  /** `make_timeout_time_ms(100)`: the polling period in microseconds. */
  const PollPeriod: Micros := 100 * 1000

  /** The worker lambda's captured state. */
  datatype Poller = Poller(pin: Pin, lastValue: bool)

  /** The outcome of `Create`: the worker's state and its first deadline. */
  datatype Created = Created(poller: Poller, firstDeadline: Micros)

  /** `Create`: `last_value` is the level at creation; the first poll is due at once. */
  function Create(pin: Pin, levels: Levels, now: Micros): (c: Created)
    ensures c.poller.pin == pin && c.poller.lastValue == levels(pin)
    ensures c.firstDeadline == now
  {
    Created(Poller(pin, levels(pin)), now)
  }

  /** The outcome of one poll: new state, the callback argument if called, next deadline. */
  datatype Polled = Polled(poller: Poller, callback: Option<bool>, deadline: Micros)

  /**
   * `do_work`: fire the callback with the negated level iff the level changed,
   * remember the level, and ask to run again 100 ms later.
   */
  function Poll(p: Poller, levels: Levels, now: Micros): (r: Polled)
    ensures r.deadline == now + PollPeriod
    ensures r.callback.Some? <==> levels(p.pin) != p.lastValue
    ensures r.callback.Some? ==> r.callback.value == !levels(p.pin)
    ensures r.poller == p.(lastValue := levels(p.pin))
  {
    var current := levels(p.pin);
    if current != p.lastValue then
      Polled(Poller(p.pin, current), Some(!current), now + PollPeriod)
    else
      Polled(p, None, now + PollPeriod)
  }

  /** A level unchanged since the previous poll fires nothing. */
  lemma UnchangedLevelIsSilent(p: Poller, levels: Levels, now: Micros, later: Micros)
    ensures Poll(Poll(p, levels, now).poller, levels, later).callback.None?
  {
  }

  /** The callback arguments of a sequence of polls seeing the given levels. */
  function Callbacks(last: bool, samples: seq<bool>): seq<bool>
    decreases |samples|
  {
    if samples == [] then []
    else if samples[0] != last then [!samples[0]] + Callbacks(samples[0], samples[1..])
    else Callbacks(last, samples[1..])
  }

  /** Consecutive callback arguments alternate. */
  predicate Alternating(calls: seq<bool>) {
    forall i :: 0 < i < |calls| ==> calls[i] != calls[i - 1]
  }

  /**
   * Over any sequence of polls the callback alternates between pressed and
   * released, starting with the opposite of the level at creation, and the
   * last call reports the last level seen (negated).
   */
  lemma {:induction false} CallbacksAlternate(last: bool, samples: seq<bool>)
    ensures Alternating(Callbacks(last, samples))
    ensures Callbacks(last, samples) != [] ==> Callbacks(last, samples)[0] == last
    ensures Callbacks(last, samples) != [] ==> Callbacks(last, samples)[|Callbacks(last, samples)| - 1] == !samples[|samples| - 1]
    decreases |samples|
  {
    if samples != [] {
      var rest := samples[1..];
      if samples[0] != last {
        CallbacksAlternate(samples[0], rest);
        var tail := Callbacks(samples[0], rest);
        assert Callbacks(last, samples) == [!samples[0]] + tail;
        if tail == [] {
          CallbacksOfConstant(samples[0], rest);
        }
      } else {
        CallbacksAlternate(last, rest);
        if Callbacks(last, rest) == [] {
          CallbacksOfConstant(last, rest);
        }
      }
    }
  }

  /** No callback at all means every sample equals the starting level. */
  lemma {:induction false} CallbacksOfConstant(last: bool, samples: seq<bool>)
    requires Callbacks(last, samples) == []
    ensures forall i :: 0 <= i < |samples| ==> samples[i] == last
    decreases |samples|
  {
    if samples != [] {
      CallbacksOfConstant(last, samples[1..]);
    }
  }
}

=== FILE: digital_input.dfy ===
/**
 * `DigitalInput` (`digital_input.cc`): an edge interrupt records whether the
 * event included a falling edge and marks the input's pending worker, which
 * the async context runs on its next poll.
 */
module DigitalInput {
  import opened Gpio

  /** The fields `EdgeInterrupt` and `Value` use: pin, stored value, worker pending flag. */
  datatype InputState = InputState(pin: Pin, value: bool, workPending: bool)

  /** The outcome of one interrupt: state and the acknowledgements issued. */
  datatype Interrupted = Interrupted(input: InputState, acks: seq<Ack>)

  /**
   * `State::EdgeInterrupt()`: without a rise or fall bit nothing happens;
   * otherwise exactly the observed events are acknowledged, the value becomes
   * "a falling edge was seen" (also when both edges are present), and the
   * worker is marked pending.
   */
  function EdgeInterrupt(s: InputState, events: Events): (r: Interrupted)
    ensures !HasEdge(events) ==> r == Interrupted(s, [])
    ensures HasEdge(events) ==> r.acks == [Ack(s.pin, events)]
    ensures HasEdge(events) ==> (r.input.value <==> events & EdgeFall != 0)
    ensures HasEdge(events) ==> r.input.workPending
    ensures r.input.pin == s.pin
  {
    if events & EdgeMask == 0 then
      Interrupted(s, [])
    else
      Interrupted(InputState(s.pin, events & EdgeFall != 0, true), [Ack(s.pin, events)])
  }

  /** `Value()`: the stored value, under the lock. */
  function Value(s: InputState): bool {
    s.value
  }

  /**
   * `Value()` after an accepted event reports whether it held a falling edge,
   * whatever the value was before; a spurious event leaves it unchanged.
   */
  lemma ValueReportsLastFall(s: InputState, events: Events)
    ensures HasEdge(events) ==> (Value(EdgeInterrupt(s, events).input) <==> events & EdgeFall != 0)
    ensures !HasEdge(events) ==> Value(EdgeInterrupt(s, events).input) == Value(s)
  {
  }

  /** A rise and a fall in one event count as a fall. */
  lemma BothEdgesReadAsFall(s: InputState)
    ensures Value(EdgeInterrupt(s, EdgeMask).input)
    ensures !Value(EdgeInterrupt(s, EdgeRise).input)
  {
  }

  /**
   * The pending flag is a level, not a count: two accepted events before the
   * worker runs leave the same pending state as the second one alone.
   */
  lemma PendingCoalesces(s: InputState, e1: Events, e2: Events)
    requires HasEdge(e1) && HasEdge(e2)
    ensures EdgeInterrupt(EdgeInterrupt(s, e1).input, e2).input == EdgeInterrupt(s, e2).input
  {
  }
}

=== FILE: event.dfy ===
/**
 * `Event` (`src/picoro/event.h`): a reusable binary flag with at most one
 * registered waiter. Every operation runs under the event's critical section
 * and is an atomic step here.
 */
module Event {
  import opened Wrappers
  import opened Executor

  datatype EventState = EventState(notified: bool, waiter: Option<Handle>)

  /** A new event: not notified, nobody waiting. */
  const Fresh: EventState := EventState(false, None)

  /** The outcome of `Notify`: state and executor queue. */
  datatype Notified = Notified(event: EventState, scheduled: Scheduled)

  /** `Notify()`: set the flag; a registered waiter is scheduled exactly once and cleared. */
  function Notify(e: EventState, q: Scheduled): (r: Notified)
    ensures r.event.notified && r.event.waiter.None?
    ensures r.scheduled == q + Handles(e.waiter)
  {
    Notified(EventState(true, None), Wake(q, e.waiter))
  }

  /** `await_ready()`: the notified flag. */
  predicate AwaitReady(e: EventState) {
    e.notified
  }

  /** The outcome of `await_suspend`: whether the coroutine suspends, and the state. */
  datatype Suspension = Suspension(suspended: bool, event: EventState)

  /**
   * `await_suspend(h)`: an event notified since the ready check is consumed
   * without suspending; otherwise `h` becomes the one registered waiter.
   */
  function AwaitSuspend(e: EventState, h: Handle): (r: Suspension)
    ensures r.suspended <==> !e.notified
    ensures r.suspended ==> r.event == EventState(false, Some(h))
    ensures !r.suspended ==> r.event == e
  {
    if e.notified then Suspension(false, e) else Suspension(true, e.(waiter := Some(h)))
  }

  /** `await_resume()`: reset the flag to unnotified. */
  function AwaitResume(e: EventState): (e': EventState)
    ensures !e'.notified && e'.waiter == e.waiter
  {
    e.(notified := false)
  }

  /** A registered waiter always belongs to an unnotified event (so a later Notify wakes it). */
  predicate Consistent(e: EventState) {
    e.waiter.Some? ==> !e.notified
  }

  /** Every operation keeps the waiter registered only while unnotified. */
  lemma OperationsKeepConsistent(e: EventState, h: Handle, q: Scheduled)
    requires Consistent(e)
    ensures Consistent(Notify(e, q).event)
    ensures Consistent(AwaitSuspend(e, h).event)
    ensures Consistent(AwaitResume(e))
  {
  }

  /** Notifications coalesce: a second `Notify` before an await changes nothing and schedules nothing. */
  lemma NotifyIsIdempotent(e: EventState, q: Scheduled)
    ensures var n := Notify(e, q);
            Notify(n.event, n.scheduled) == n
  {
  }

  /**
   * No missed wakeup: whether `Notify` lands before the ready check, between
   * the check and the suspension, or after the suspension, the awaiter either
   * does not suspend or is scheduled exactly once, and the event is reset
   * when it resumes.
   */
  lemma NoMissedWakeup(h: Handle, q: Scheduled)
    // Notify before the ready check: ready, no suspension.
    ensures var n := Notify(Fresh, q);
            AwaitReady(n.event) && n.scheduled == q && !AwaitResume(n.event).notified
    // Notify between the ready check and the suspension: the re-check declines.
    ensures var n := Notify(Fresh, q);
            !AwaitReady(Fresh) && !AwaitSuspend(n.event, h).suspended && n.scheduled == q
    // Notify after the suspension: the awaiter is scheduled once and unregistered.
    ensures var s := AwaitSuspend(Fresh, h);
            var n := Notify(s.event, q);
            s.suspended && n.scheduled == q + multiset{h} && n.event.waiter.None?
            && !AwaitResume(n.event).notified
  {
  }
}

=== FILE: executor.dfy ===
/**
 * The coroutine executor, seen from the producers: `AsyncExecutor::Schedule`
 * hands a suspended coroutine handle to the async context, which resumes it
 * later from its poll loop. The model keeps only the multiset of handles that
 * have been handed over and not yet resumed.
 */
module Executor {
  import opened Wrappers

  /** A suspended coroutine (`std::coroutine_handle<>`), identified by a number. */
  type Handle = nat

  /** Handles scheduled for resumption from the poll loop. */
  type Scheduled = multiset<Handle>

  /** The handles an optional registration contributes: none, or exactly one. */
  function Handles(pending: Option<Handle>): (m: multiset<Handle>)
    ensures |m| <= 1
    ensures pending.None? <==> m == multiset{}
    ensures forall h :: pending == Some(h) ==> m == multiset{h}
  {
    match pending
    case None => multiset{}
    case Some(h) => multiset{h}
  }

  /**
   * `if (pending) executor_.Schedule(std::exchange(pending, nullptr))`: a
   * registered handle is handed to the executor exactly once, nothing else is.
   */
  function Wake(q: Scheduled, pending: Option<Handle>): (q': Scheduled)
    ensures pending.None? ==> q' == q
    ensures forall h :: pending == Some(h) ==> q'[h] == q[h] + 1
    ensures forall x :: pending != Some(x) ==> q'[x] == q[x]
    ensures |q'| == |q| + |Handles(pending)|
  {
    q + Handles(pending)
  }
}

=== FILE: fake_stream.dfy ===
/**
 * `FakeStream` (`rs232/fake_stream.py`): a stand-in for the serial link that
 * answers the last request written to it once, from a register dictionary
 * whose unset registers read as `1000 + key`.
 */
module FakeStream {
  import opened Wrappers
  import opened Bytes
  import opened Exceptions
  import Modbus

  /** `_last_request` and `_data`. */
  datatype Fake = Fake(lastRequest: Option<seq<Byte>>, registers: map<int, int>)

  /** A new stream: no request, no registers. */
  const Fresh: Fake := Fake(None, map[])

  /** `write(request)`: remember the request, replacing any earlier one. */
  function Write(s: Fake, request: seq<Byte>): (s': Fake)
    ensures s'.lastRequest == Some(request) && s'.registers == s.registers
  {
    s.(lastRequest := Some(request))
  }

  /** The outcome of `read`: the bytes returned (or `None`), and the stream afterwards. */
  datatype Reply = Reply(data: Result<Option<seq<Byte>>, Exception>, stream: Fake)

  /** `_data.get(key, 1000 + key)`. */
  function Register(registers: map<int, int>, key: int): int {
    if key in registers then registers[key] else 1000 + key
  }

  /**
   * `read(nbytes)`: the request is consumed whatever happens. No request or
   * an empty one gives `None`; a request that is not 8 bytes fails to
   * unpack as `">BBHHBB"`. Function 3 answers `[63, 3, 2, value]` plus the
   * checksum, failing to pack a value above 65535; function 6 stores the
   * value and echoes the request; any other function gives `None`. The
   * requested byte count is ignored.
   */
  function Read(s: Fake, crc: Modbus.Checksum): (r: Reply)
    ensures r.stream.lastRequest.None?
    ensures s.lastRequest.None? || s.lastRequest == Some([]) ==> r == Reply(Success(None), s.(lastRequest := None))
    ensures s.lastRequest.Some? && |s.lastRequest.value| !in {0, 8} ==> r.data == Failure(StructError)
    ensures r.stream.registers != s.registers ==>
              r.data.Success? && s.lastRequest.Some? && |s.lastRequest.value| == 8 && s.lastRequest.value[1] == 6
  {
    var s' := s.(lastRequest := None);
    match s.lastRequest
    case None => Reply(Success(None), s')
    case Some(request) =>
      if request == [] then Reply(Success(None), s')
      else if |request| != 8 then Reply(Failure(StructError), s')
      else
        var key := ReadBigEndian16(request[2], request[3]);
        if request[1] == 3 then
          var value := Register(s.registers, key);
          if !IsU16(value) then Reply(Failure(StructError), s')
          else
            var payload := [Modbus.DeviceAddress, 3, 2] + BigEndian16(value);
            Reply(Success(Some(Modbus.Frame(payload, crc))), s')
        else if request[1] == 6 then
          var value := ReadBigEndian16(request[4], request[5]);
          Reply(Success(Some(request)), s'.(registers := s.registers[key := value]))
        else
          Reply(Success(None), s')
  }

  /** A second `read` without a `write` in between returns `None`. */
  lemma ReadConsumesRequest(s: Fake, crc: Modbus.Checksum)
    ensures Read(Read(s, crc).stream, crc).data == Success(None)
  {
  }
}

/**
 * The Modbus client talking to the fake stream: each call writes its frame,
 * then reads the reply.
 */
module FakeBus {
  import opened Wrappers
  import opened Bytes
  import opened Exceptions
  import Modbus
  import opened FakeStream

  /** The outcome of a client call: its result and the stream afterwards. */
  datatype Call<T> = Call(result: Result<T, Exception>, stream: Fake)

  /** `Modbus.get(key)` over the fake stream. */
  function Get(s: Fake, key: int, crc: Modbus.Checksum): (r: Call<int>)
    ensures !IsU16(key) ==> r == Call(Failure(StructError), s)
  {
    match Modbus.ReadRequest(key)
    case Failure(e) => Call(Failure(e), s)
    case Success(request) =>
      var reply := Read(Write(s, Modbus.Frame(request, crc)), crc);
      match reply.data
      case Failure(e) => Call(Failure(e), reply.stream)
      case Success(data) => Call(Modbus.ReadReply(data, crc), reply.stream)
  }

  /** `Modbus.set(key, value)` (with the value parameter the method needs) over the fake stream. */
  function Set(s: Fake, key: int, value: int, crc: Modbus.Checksum): (r: Call<()>)
    ensures !(IsU16(key) && IsU16(value)) ==> r == Call(Failure(StructError), s)
  {
    match Modbus.WriteRequest(key, value)
    case Failure(e) => Call(Failure(e), s)
    case Success(request) =>
      var reply := Read(Write(s, Modbus.Frame(request, crc)), crc);
      match reply.data
      case Failure(e) => Call(Failure(e), reply.stream)
      case Success(data) => Call(Modbus.WriteReply(data, request, crc), reply.stream)
  }

  /**
   * A write through the client succeeds and stores the value: the fake
   * echoes the request, which the client accepts.
   */
  lemma SetStores(s: Fake, key: int, value: int, crc: Modbus.Checksum)
    requires IsU16(key) && IsU16(value)
    ensures Set(s, key, value, crc).result == Success(())
    ensures Set(s, key, value, crc).stream == Fake(None, s.registers[key := value])
  {
    var request := Modbus.WriteRequest(key, value).value;
    Modbus.RecvFrame(request, crc);
  }

  /**
   * A read through the client returns the register's value, or the fake's
   * `1000 + key` default, or fails to pack a default above 65535.
   */
  lemma GetReads(s: Fake, key: int, crc: Modbus.Checksum)
    requires IsU16(key)
    ensures IsU16(Register(s.registers, key)) ==> Get(s, key, crc).result == Success(Register(s.registers, key))
    ensures !IsU16(Register(s.registers, key)) ==> Get(s, key, crc).result == Failure(StructError)
    ensures Get(s, key, crc).stream == Fake(None, s.registers)
  {
    var value := Register(s.registers, key);
    if IsU16(value) {
      var payload := [Modbus.DeviceAddress, 3, 2] + BigEndian16(value);
      Modbus.RecvFrame(payload, crc);
      BigEndian16RoundTrip(value);
    }
  }

  /** After `set(key, v)`, `get(key)` returns v. */
  lemma SetThenGet(s: Fake, key: int, value: int, crc: Modbus.Checksum)
    requires IsU16(key) && IsU16(value)
    ensures Get(Set(s, key, value, crc).stream, key, crc).result == Success(value)
  {
    SetStores(s, key, value, crc);
    GetReads(Set(s, key, value, crc).stream, key, crc);
  }

  /** On a fresh stream, keys above 64535 have a default that does not fit the reply. */
  lemma LargeDefaultFails(key: int, crc: Modbus.Checksum)
    requires IsU16(key) && key > 64535
    ensures Get(Fresh, key, crc).result == Failure(StructError)
  {
    GetReads(Fresh, key, crc);
  }
}

=== FILE: font_writer.dfy ===
/**
 * The font blob writer (`src/font/generate_fonts.py`): `serialize_font`
 * emits a font's width and height bytes and then the 95 glyphs ' '..'~',
 * each padded to whole 8-pixel blocks and bit-packed over the rows with the
 * top pixel in the least significant bit; `main` prefixes the font count.
 * The glyph bitmaps rendered from the BDF file are inputs here.
 */
module FontWriter {
  import opened Wrappers
  import opened Bytes
  import opened Fonts
  import OledBuffer
  import Arith

  /** A rendered glyph, `grid[y][x]`. */
  type Grid = seq<seq<bool>>

  /** A font as the writer sees it: bounding-box size and one bitmap per printable character. */
  datatype BdfFont = BdfFont(width: nat, height: nat, glyphs: seq<Grid>)

  /** Each glyph bitmap is `height` rows of `width` pixels, one per printable character. */
  predicate WellShaped(f: BdfFont) {
    && |f.glyphs| == NumChars
    && forall c :: 0 <= c < NumChars ==>
         |f.glyphs[c]| == f.height && forall y :: 0 <= y < f.height ==> |f.glyphs[c][y]| == f.width
  }

  /** The bitmap padded with blank rows below (`np.pad`): pixels outside the grid read false. */
  function Padded(g: Grid, x: nat, y: nat): bool {
    if y < |g| && x < |g[y]| then g[y][x] else false
  }

  /** `packbits(..., bitorder="little")` of 8 pixels: pixel k becomes bit k. */
  function PackByte(bits: seq<bool>): (b: Byte)
    requires |bits| == 8
    ensures forall k :: 0 <= k < 8 ==> OledBuffer.BitOf(b, k) == bits[k]
  {
    var b := (if bits[0] then 1 else 0) | (if bits[1] then 2 else 0)
           | (if bits[2] then 4 else 0) | (if bits[3] then 8 else 0)
           | (if bits[4] then 16 else 0) | (if bits[5] then 32 else 0)
           | (if bits[6] then 64 else 0) | (if bits[7] then 128 else 0);
    PackByteBits(bits, b);
    b
  }

  lemma PackByteBits(bits: seq<bool>, b: Byte)
    requires |bits| == 8
    requires b == (if bits[0] then 1 else 0) | (if bits[1] then 2 else 0)
                | (if bits[2] then 4 else 0) | (if bits[3] then 8 else 0)
                | (if bits[4] then 16 else 0) | (if bits[5] then 32 else 0)
                | (if bits[6] then 64 else 0) | (if bits[7] then 128 else 0)
    ensures forall k :: 0 <= k < 8 ==> OledBuffer.BitOf(b, k) == bits[k]
  {
    forall k | 0 <= k < 8
      ensures OledBuffer.BitOf(b, k) == bits[k]
    {
      if k == 0 {} else if k == 1 {} else if k == 2 {} else if k == 3 {}
      else if k == 4 {} else if k == 5 {} else if k == 6 {} else {}
    }
  }

  /** The 8 pixels of block row `j` in column `x`, top first. */
  function Block(g: Grid, x: nat, j: nat): (bits: seq<bool>)
    ensures |bits| == 8 && forall k :: 0 <= k < 8 ==> bits[k] == Padded(g, x, 8 * j + k)
  {
    seq(8, k requires 0 <= k < 8 => Padded(g, x, 8 * j + k))
  }

  /** Pieces laid end to end (`b"".join`, and successive `output.write`s). */
  function Concat(parts: seq<seq<Byte>>): seq<Byte>
    decreases |parts|
  {
    if parts == [] then [] else parts[0] + Concat(parts[1..])
  }

  /** Pieces of one length `n` make `|parts| * n` bytes. */
  lemma {:induction false} ConcatLength(parts: seq<seq<Byte>>, n: nat)
    requires forall i :: 0 <= i < |parts| ==> |parts[i]| == n
    ensures |Concat(parts)| == |parts| * n
    decreases |parts|
  {
    if parts != [] {
      ConcatLength(parts[1..], n);
    }
  }

  /** Pieces of one length `n`: piece i occupies bytes `[i*n, (i+1)*n)`. */
  lemma {:induction false} ConcatSlice(parts: seq<seq<Byte>>, n: nat, i: nat)
    requires forall i :: 0 <= i < |parts| ==> |parts[i]| == n
    requires i < |parts|
    ensures i * n + n <= |Concat(parts)|
    ensures Concat(parts)[i * n..i * n + n] == parts[i]
    decreases i
  {
    ConcatLength(parts, n);
    Arith.MulMono(i + 1, |parts|, n);
    if i > 0 {
      var tail := parts[1..];
      ConcatSlice(tail, n, i - 1);
      var k := (i - 1) * n;
      assert i * n == n + k;
      assert Concat(parts)[n..] == Concat(tail);
      assert Concat(parts)[n + k..n + k + n] == Concat(tail)[k..k + n];
    }
  }

  /** Byte j of piece i. */
  lemma ConcatAt(parts: seq<seq<Byte>>, n: nat, i: nat, j: nat)
    requires forall i :: 0 <= i < |parts| ==> |parts[i]| == n
    requires i < |parts| && j < n
    ensures i * n + j < |Concat(parts)| && Concat(parts)[i * n + j] == parts[i][j]
  {
    ConcatSlice(parts, n, i);
    assert Concat(parts)[i * n..i * n + n][j] == Concat(parts)[i * n + j];
  }

  /** The packed block rows of a glyph: row j holds the `width` bytes of block row j. */
  function BlockRows(g: Grid, width: nat, height: nat): (rows: seq<seq<Byte>>)
    ensures |rows| == BlocksPerColumn(height)
    ensures forall j :: 0 <= j < |rows| ==> |rows[j]| == width
    ensures forall j, x :: 0 <= j < |rows| && 0 <= x < width ==> rows[j][x] == PackByte(Block(g, x, j))
  {
    seq(BlocksPerColumn(height), j requires 0 <= j < BlocksPerColumn(height) =>
      seq(width, x requires 0 <= x < width => PackByte(Block(g, x, j))))
  }

  /** One packed glyph: `blocks_per_column` rows of `width` bytes (shape `(blocks, width)`). */
  function PackGlyph(g: Grid, width: nat, height: nat): (bytes: seq<Byte>)
    ensures |bytes| == GlyphBytes(width, height)
  {
    ConcatLength(BlockRows(g, width, height), width);
    Concat(BlockRows(g, width, height))
  }

  /**
   * Read as an `OledBuffer` of the font's size, a packed glyph shows the
   * bitmap: every pixel of the padded bitmap reads as the rendered pixel,
   * blank padding rows included.
   */
  lemma PackGlyphPixels(g: Grid, width: nat, height: nat, x: nat, y: nat)
    requires x < width && y < 8 * BlocksPerColumn(height)
    ensures OledBuffer.Valid(OledBuffer.Buffer(PackGlyph(g, width, height), width, height))
    ensures OledBuffer.Lit(OledBuffer.Buffer(PackGlyph(g, width, height), width, height), x, y) == Padded(g, x, y)
  {
    var rows := BlockRows(g, width, height);
    var j := y / 8;
    ConcatAt(rows, width, j, x);
    assert OledBuffer.Index(width, x, y) == j * width + x;
    var byte := PackGlyph(g, width, height)[j * width + x];
    assert byte == PackByte(Block(g, x, j));
    assert OledBuffer.BitOf(byte, y % 8) == Block(g, x, j)[y % 8];
    assert 8 * j + y % 8 == y;
  }

  /** The glyph bitmap of character code offset `c`, empty when missing. */
  function GlyphGrid(f: BdfFont, c: nat): Grid {
    if c < |f.glyphs| then f.glyphs[c] else []
  }

  /** The 95 packed glyphs of a font, in code order. */
  function PackedGlyphs(f: BdfFont): (glyphs: seq<seq<Byte>>)
    ensures |glyphs| == NumChars
    ensures forall c :: 0 <= c < NumChars ==> glyphs[c] == PackGlyph(GlyphGrid(f, c), f.width, f.height)
    ensures forall c :: 0 <= c < NumChars ==> |glyphs[c]| == GlyphBytes(f.width, f.height)
  {
    seq(NumChars, c requires 0 <= c < NumChars => PackGlyph(GlyphGrid(f, c), f.width, f.height))
  }

  /** The glyph data of a font: the packed glyphs back to back. */
  function GlyphData(f: BdfFont): (data: seq<Byte>)
    ensures |data| == DataSize(f.width, f.height)
  {
    ConcatLength(PackedGlyphs(f), GlyphBytes(f.width, f.height));
    DataSizeCountsGlyphs(f.width, f.height);
    Concat(PackedGlyphs(f))
  }

  /** Dimensions `bytes()` accepts. */
  predicate Fits(f: BdfFont) {
    f.width < 256 && f.height < 256
  }

  /**
   * `serialize_font`: width and height bytes, then the glyph data. `bytes()`
   * rejects a dimension above 255, reported as `None`.
   */
  function SerializeFont(f: BdfFont): (r: Option<seq<Byte>>)
    ensures r.Some? <==> Fits(f)
    ensures r.Some? ==> |r.value| == 2 + DataSize(f.width, f.height)
    ensures r.Some? ==> r.value[0] as nat == f.width && r.value[1] as nat == f.height
  {
    if Fits(f) then
      Some([ToByte(f.width), ToByte(f.height)] + GlyphData(f))
    else
      None
  }

  /** The serialised fonts, in order. */
  function Serialized(fonts: seq<BdfFont>): (parts: seq<seq<Byte>>)
    requires forall i :: 0 <= i < |fonts| ==> Fits(fonts[i])
    ensures |parts| == |fonts|
    ensures forall i :: 0 <= i < |fonts| ==> Some(parts[i]) == SerializeFont(fonts[i])
  {
    seq(|fonts|, i requires 0 <= i < |fonts| => SerializeFont(fonts[i]).value)
  }

  /** `main`: the font count byte, then each font's record; `None` if any `bytes()` call fails. */
  function WriteBlob(fonts: seq<BdfFont>): (r: Option<seq<Byte>>)
    ensures r.Some? <==> |fonts| < 256 && forall i :: 0 <= i < |fonts| ==> Fits(fonts[i])
    ensures r.Some? ==> |r.value| >= 1 && r.value[0] as nat == |fonts|
  {
    if |fonts| < 256 && forall i :: 0 <= i < |fonts| ==> Fits(fonts[i]) then
      Some([ToByte(|fonts|)] + Concat(Serialized(fonts)))
    else
      None
  }

  /** The font the parser should recover from a written font. */
  function Expected(f: BdfFont): (font: Font)
    requires Fits(f)
    ensures Loaded(font)
  {
    Font(f.width, f.height, GlyphBytes(f.width, f.height), GlyphData(f))
  }

  /** The fonts the parser should recover from a written blob. */
  function ExpectedFonts(fonts: seq<BdfFont>): (r: seq<Font>)
    requires forall i :: 0 <= i < |fonts| ==> Fits(fonts[i])
    ensures |r| == |fonts| && forall i :: 0 <= i < |fonts| ==> r[i] == Expected(fonts[i]) && Loaded(r[i])
  {
    seq(|fonts|, i requires 0 <= i < |fonts| => Expected(fonts[i]))
  }

  /** The written records are the records of the expected fonts. */
  lemma {:induction false} WrittenRecords(fonts: seq<BdfFont>)
    requires forall i :: 0 <= i < |fonts| ==> Fits(fonts[i])
    ensures Concat(Serialized(fonts)) == Records(ExpectedFonts(fonts))
    decreases |fonts|
  {
    if fonts != [] {
      var tail := fonts[1..];
      WrittenRecords(tail);
      SerializedRecord(fonts[0]);
      assert ExpectedFonts(fonts)[1..] == ExpectedFonts(tail);
      assert Serialized(fonts)[1..] == Serialized(tail);
    }
  }

  /** A font's serialised bytes are the record the parser reads as the expected font. */
  lemma SerializedRecord(f: BdfFont)
    requires Fits(f)
    ensures SerializeFont(f) == Some(Record(Expected(f)))
  {
    assert f.width % 256 == f.width && f.height % 256 == f.height;
  }

  /**
   * Layout round trip: the parser reads back exactly the fonts the writer
   * wrote, with the parser's `data_size` matching the written glyph data.
   */
  lemma WriteThenLoad(fonts: seq<BdfFont>)
    requires WriteBlob(fonts).Some?
    ensures LoadFonts(WriteBlob(fonts).value) == Some(ExpectedFonts(fonts))
  {
    var blob := WriteBlob(fonts).value;
    WrittenRecords(fonts);
    assert blob[1..] == Records(ExpectedFonts(fonts)) + [];
    ParseRecords(ExpectedFonts(fonts), []);
  }

  /** The number of leading fonts whose dimensions fit in a byte. */
  function FittingPrefix(fonts: seq<BdfFont>): (k: nat)
    ensures k <= |fonts|
    ensures forall i :: 0 <= i < k ==> Fits(fonts[i])
    ensures k < |fonts| ==> !Fits(fonts[k])
    decreases |fonts|
  {
    if fonts == [] || !Fits(fonts[0]) then 0 else 1 + FittingPrefix(fonts[1..])
  }

  /** What `main` leaves in the output file, and whether it raised. */
  datatype OutputFile = OutputFile(bytes: seq<Byte>, raised: bool)

  /**
   * `main` with the output it leaves behind. Opening the file truncates it,
   * so a count of 256 or more, which `bytes([num_fonts])` rejects, leaves it
   * empty. Otherwise the count byte and the records of every font before the
   * first one that does not fit are already written when that font's
   * `bytes([width, height])` raises.
   */
  function MainOutput(fonts: seq<BdfFont>): (o: OutputFile)
    ensures o.raised <==> WriteBlob(fonts).None?
    ensures !o.raised ==> WriteBlob(fonts) == Some(o.bytes)
    ensures |fonts| >= 256 ==> o.bytes == []
    ensures |fonts| < 256 ==> |o.bytes| >= 1 && o.bytes[0] as nat == |fonts|
    ensures |fonts| < 256 ==>
              o.bytes[1..] == Records(ExpectedFonts(fonts[..FittingPrefix(fonts)]))
  {
    if |fonts| >= 256 then OutputFile([], true)
    else
      var k := FittingPrefix(fonts);
      WrittenRecords(fonts[..k]);
      assert k == |fonts| ==> fonts[..k] == fonts;
      OutputFile([ToByte(|fonts|)] + Concat(Serialized(fonts[..k])), k < |fonts|)
  }

  /**
   * Pixel round trip: a character drawn from a loaded font shows the bitmap
   * the writer was given, read through `OledBuffer` addressing.
   */
  lemma WrittenGlyphPixels(f: BdfFont, c: char, x: nat, y: nat)
    requires WellShaped(f) && Fits(f)
    requires Printable(c) && x < f.width && y < f.height
    ensures GlyphsFit(Expected(f))
    ensures OledBuffer.GlyphPixel(OledBuffer.Glyph(Expected(f), c), f.width, f.height, x, y)
            == f.glyphs[c as int - ' ' as int][y][x]
  {
    var font := Expected(f);
    DataSizeCountsGlyphs(f.width, f.height);
    var i := c as int - ' ' as int;
    ConcatSlice(PackedGlyphs(f), GlyphBytes(f.width, f.height), i);
    assert OledBuffer.Glyph(font, c) == PackGlyph(f.glyphs[i], f.width, f.height);
    OledBuffer.BlockRowsCover(f.height, y);
    PackGlyphPixels(f.glyphs[i], f.width, f.height, x, y);
  }
}

=== FILE: fonts.dfy ===
/**
 * The embedded font blob and its parser (`src/font/font.cc`, `font.h`).
 *
 * Layout: one byte holding the number of fonts, then per font a width byte,
 * a height byte and `width * blocks_per_column * 95` bytes of glyph data for
 * the printable ASCII characters ' '..'~', each glyph stored as
 * `blocks_per_column` rows of `width` vertical 8-pixel blocks.
 */
module Fonts {
  import opened Wrappers
  import opened Bytes
  import Arith

  /** `kNumChars`: the printable ASCII characters ' '..'~'. */
  const NumChars: nat := 95

  /** Characters a glyph exists for. */
  predicate Printable(c: char) {
    ' ' <= c <= '~'
  }

  /** `(height + 7) / 8`: 8-pixel blocks per glyph column. */
  function BlocksPerColumn(height: nat): (n: nat)
    ensures 8 * n >= height && 8 * n < height + 8
  {
    (height + 7) / 8
  }

  /** Bytes per glyph: one byte per column per block row. */
  function GlyphBytes(width: nat, height: nat): nat {
    width * BlocksPerColumn(height)
  }

  /** `data_size = width * storage_height * kNumChars / 8` as the parser computes it. */
  function DataSize(width: nat, height: nat): nat {
    width * (BlocksPerColumn(height) * 8) * NumChars / 8
  }

  /** The parser's `data_size` is exactly 95 glyphs of `GlyphBytes` each. */
  lemma DataSizeCountsGlyphs(width: nat, height: nat)
    ensures DataSize(width, height) == NumChars * GlyphBytes(width, height)
  {
    assert width * (BlocksPerColumn(height) * 8) * NumChars == 8 * (NumChars * GlyphBytes(width, height));
  }

  /** `struct Font`. */
  datatype Font = Font(width: nat, height: nat, bytesPerChar: nat, data: seq<Byte>)

  /** The result of parsing: fonts plus the bytes after the last one. */
  datatype Parsed = Parsed(fonts: seq<Font>, rest: seq<Byte>)

  /**
   * The bytes of one font record: width and height, each stored in one
   * byte, then the glyph data.
   */
  function Record(f: Font): (r: seq<Byte>)
    ensures |r| == 2 + |f.data|
  {
    [ToByte(f.width % 256), ToByte(f.height % 256)] + f.data
  }

  /** The records of several fonts, back to back. */
  function Records(fonts: seq<Font>): seq<Byte> {
    if fonts == [] then [] else Record(fonts[0]) + Records(fonts[1..])
  }

  /**
   * The loop body of `LoadFonts`, `count` times: read width and height, take
   * `data_size` bytes, advance the cursor past them. The C++ has no length
   * check and would read past the end of a truncated blob; the model reports
   * that case as `None`.
   */
  function ParseFonts(blob: seq<Byte>, count: nat): (r: Option<Parsed>)
    ensures r.Some? ==> |r.value.fonts| == count
    ensures r.Some? ==> forall i :: 0 <= i < count ==> Loaded(r.value.fonts[i])
    decreases count
  {
    if count == 0 then Some(Parsed([], blob))
    else if |blob| < 2 then None
    else
      var width := Value(blob[0]);
      var height := Value(blob[1]);
      var size := DataSize(width, height);
      if |blob| < 2 + size then None
      else
        var font := Font(width, height, GlyphBytes(width, height), blob[2..2 + size]);
        match ParseFonts(blob[2 + size..], count - 1)
        case None => None
        case Some(tail) =>
          assert Loaded(font);
          Some(Parsed([font] + tail.fonts, tail.rest))
  }

  /** The parser consumes exactly the records of the fonts it returns. */
  lemma {:induction false} ParsedRecords(blob: seq<Byte>, count: nat)
    requires ParseFonts(blob, count).Some?
    ensures blob == Records(ParseFonts(blob, count).value.fonts) + ParseFonts(blob, count).value.rest
    decreases count
  {
    if count > 0 {
      var size := DataSize(Value(blob[0]), Value(blob[1]));
      var font := Font(Value(blob[0]), Value(blob[1]), GlyphBytes(Value(blob[0]), Value(blob[1])), blob[2..2 + size]);
      var tail := ParseFonts(blob[2 + size..], count - 1).value;
      assert ParseFonts(blob, count) == Some(Parsed([font] + tail.fonts, tail.rest));
      ParsedRecords(blob[2 + size..], count - 1);
      ConsParsed(blob, font, tail);
    }
  }

  /** A font as the parser produces it: byte-sized dimensions, one glyph slot per character. */
  predicate Loaded(f: Font) {
    && f.width < 256 && f.height < 256
    && |f.data| == DataSize(f.width, f.height)
    && f.bytesPerChar == GlyphBytes(f.width, f.height)
  }

  /** A font record at the front of the blob, followed by the parsed tail, makes the parse of the whole. */
  lemma ConsParsed(blob: seq<Byte>, font: Font, tail: Parsed)
    requires |blob| >= 2 && font.width == Value(blob[0]) && font.height == Value(blob[1])
    requires font.bytesPerChar == GlyphBytes(font.width, font.height)
    requires |blob| >= 2 + DataSize(font.width, font.height)
    requires font.data == blob[2..2 + DataSize(font.width, font.height)]
    requires blob[2 + DataSize(font.width, font.height)..] == Records(tail.fonts) + tail.rest
    ensures blob == Records([font] + tail.fonts) + tail.rest
  {
    assert Loaded(font);
    RecordIsPrefix(blob, font);
    ConsRecords(font, tail.fonts);
  }

  /** The records of `[f] + fonts` are the record of `f` followed by theirs. */
  lemma ConsRecords(f: Font, fonts: seq<Font>)
    ensures Records([f] + fonts) == Record(f) + Records(fonts)
  {
    assert ([f] + fonts)[1..] == fonts;
  }

  /** The bytes the parser consumed for one font are that font's record. */
  lemma RecordIsPrefix(blob: seq<Byte>, f: Font)
    requires Loaded(f)
    requires |blob| >= 2 + |f.data| && f.width == Value(blob[0]) && f.height == Value(blob[1])
    requires f.data == blob[2..2 + |f.data|]
    ensures blob == Record(f) + blob[2 + |f.data|..]
  {
    assert f.width % 256 == f.width && f.height % 256 == f.height;
    ToByteOfByte(blob[0]);
    ToByteOfByte(blob[1]);
    assert Record(f) == [blob[0], blob[1]] + blob[2..2 + |f.data|];
    SplitHeader(blob, |f.data|);
  }

  /** A byte string cut after a two-byte header and n more bytes. */
  lemma SplitHeader(s: seq<Byte>, n: nat)
    requires 2 + n <= |s|
    ensures s == [s[0], s[1]] + s[2..2 + n] + s[2 + n..]
  {
    assert s == s[..2 + n] + s[2 + n..];
    assert s[..2 + n] == [s[0], s[1]] + s[2..2 + n];
  }

  /** The parts of a two-byte header, a body and a tail, read back by position. */
  lemma HeaderParts(header: seq<Byte>, body: seq<Byte>, tail: seq<Byte>)
    requires |header| == 2
    ensures var s := header + body + tail;
            && s[0] == header[0] && s[1] == header[1]
            && s[2..2 + |body|] == body && s[2 + |body|..] == tail
  {
    var s := header + body + tail;
    assert s[2..] == body + tail;
  }

  /** Parsing back-to-back records recovers exactly those fonts and the bytes after them. */
  lemma {:induction false} ParseRecords(fonts: seq<Font>, rest: seq<Byte>)
    requires forall i :: 0 <= i < |fonts| ==> Loaded(fonts[i])
    ensures ParseFonts(Records(fonts) + rest, |fonts|) == Some(Parsed(fonts, rest))
    decreases |fonts|
  {
    if fonts != [] {
      ParseRecords(fonts[1..], rest);
      ParseOneRecord(fonts[0], fonts[1..], rest);
      RecordsSplit(fonts, rest);
      assert [fonts[0]] + fonts[1..] == fonts;
    } else {
      assert Records(fonts) + rest == rest;
    }
  }

  /** The records of a non-empty list, followed by more bytes, split after the first record. */
  lemma RecordsSplit(fonts: seq<Font>, rest: seq<Byte>)
    requires |fonts| > 0
    ensures Records(fonts) + rest == Record(fonts[0]) + (Records(fonts[1..]) + rest)
  {
  }

  /** One record in front of parseable bytes parses as one more font. */
  lemma ParseOneRecord(f: Font, tail: seq<Font>, rest: seq<Byte>)
    requires Loaded(f)
    requires ParseFonts(Records(tail) + rest, |tail|) == Some(Parsed(tail, rest))
    ensures ParseFonts(Record(f) + (Records(tail) + rest), |tail| + 1) == Some(Parsed([f] + tail, rest))
  {
    var more := Records(tail) + rest;
    var blob := Record(f) + more;
    RecordFields(f, more);
    var size := DataSize(f.width, f.height);
    assert Font(Value(blob[0]), Value(blob[1]), GlyphBytes(f.width, f.height), blob[2..2 + size]) == f;
  }

  /** What the parser reads from a record followed by more bytes. */
  lemma RecordFields(f: Font, more: seq<Byte>)
    requires Loaded(f)
    ensures var blob := Record(f) + more;
            && |blob| >= 2 + DataSize(f.width, f.height)
            && Value(blob[0]) == f.width && Value(blob[1]) == f.height
            && blob[2..2 + DataSize(f.width, f.height)] == f.data
            && blob[2 + DataSize(f.width, f.height)..] == more
  {
    assert f.width % 256 == f.width && f.height % 256 == f.height;
    HeaderParts([ToByte(f.width), ToByte(f.height)], f.data, more);
  }

  /**
   * `LoadFonts()`: the first byte is the font count and exactly that many
   * fonts follow. Each font's `bytesPerChar` is the size of one glyph (see
   * `LoadFontsAsWritten` for the code as written).
   */
  function LoadFonts(blob: seq<Byte>): (r: Option<seq<Font>>)
    ensures r.Some? ==> |blob| >= 1 && |r.value| == Value(blob[0])
    ensures r.Some? ==> forall i :: 0 <= i < |r.value| ==> Loaded(r.value[i])
    ensures r.Some? ==> Records(r.value) <= blob[1..]
  {
    if |blob| == 0 then None
    else
      match ParseFonts(blob[1..], Value(blob[0]))
      case None => None
      case Some(p) =>
        ParsedRecords(blob[1..], Value(blob[0]));
        Some(p.fonts)
  }

  /**
   * `Font::operator[]`: the offset of a character's glyph, `(c - ' ') *
   * bytes_per_char`.
   */
  function GlyphOffset(f: Font, c: char): nat
    requires Printable(c)
  {
    (c as int - ' ' as int) * f.bytesPerChar
  }

  /** The fonts `LoadFonts` returns hold every glyph, each in its own slot. */
  predicate GlyphsFit(f: Font) {
    f.bytesPerChar == GlyphBytes(f.width, f.height) && |f.data| == NumChars * f.bytesPerChar
  }

  /**
   * With `bytesPerChar` set, glyph slots are disjoint, in code order, and
   * inside the font's data.
   */
  lemma GlyphSlots(f: Font, c: char, d: char)
    requires GlyphsFit(f) && Printable(c) && Printable(d) && c < d
    ensures GlyphOffset(f, c) + f.bytesPerChar <= GlyphOffset(f, d)
    ensures GlyphOffset(f, d) + f.bytesPerChar <= |f.data|
  {
    var i := c as int - ' ' as int;
    var j := d as int - ' ' as int;
    var b := f.bytesPerChar;
    assert GlyphOffset(f, c) == i * b && GlyphOffset(f, d) == j * b;
    assert i + 1 <= j && j + 1 <= NumChars;
    Arith.MulMono(i + 1, j, b);
    Arith.MulMono(j + 1, NumChars, b);
    assert (i + 1) * b == i * b + b && (j + 1) * b == j * b + b;
  }

  /**
   * `FontForHeight(height)`: the first font of that height, else the first
   * font. The C++ reads `fonts[0]` unconditionally, so at least one font must
   * exist.
   */
  function FontForHeight(fonts: seq<Font>, height: nat): (i: nat)
    requires |fonts| > 0
    ensures i < |fonts|
    ensures fonts[i].height == height ==> forall j :: 0 <= j < i ==> fonts[j].height != height
    ensures fonts[i].height != height ==> i == 0 && forall j :: 0 <= j < |fonts| ==> fonts[j].height != height
    decreases |fonts|
  {
    if fonts[0].height == height || |fonts| == 1 then 0
    else
      var k := FontForHeight(fonts[1..], height);
      if fonts[1 + k].height == height then 1 + k else 0
  }

  // ---------------------------------------------------------------------------
  // `LoadFonts` as written never assigns `bytes_per_char`; `std::vector<Font>
  // fonts(num_fonts)` value-initialises it to zero.

  /** The fonts as the code loads them: `bytesPerChar` left at zero. */
  function LoadFontsAsWritten(blob: seq<Byte>): (r: Option<seq<Font>>)
    ensures r.Some? <==> LoadFonts(blob).Some?
    ensures r.Some? ==> |r.value| == |LoadFonts(blob).value|
    ensures r.Some? ==> forall i :: 0 <= i < |r.value| ==>
              r.value[i] == LoadFonts(blob).value[i].(bytesPerChar := 0)
  {
    match LoadFonts(blob)
    case None => None
    case Some(fonts) => Some(seq(|fonts|, i requires 0 <= i < |fonts| => fonts[i].(bytesPerChar := 0)))
  }

  /**
   * As written, every character's glyph address is the glyph of ' ': all
   * text renders as the space glyph.
   */
  lemma AsWrittenGlyphsAlias(blob: seq<Byte>, i: nat, c: char)
    requires LoadFontsAsWritten(blob).Some? && i < |LoadFontsAsWritten(blob).value| && Printable(c)
    ensures GlyphOffset(LoadFontsAsWritten(blob).value[i], c) == GlyphOffset(LoadFontsAsWritten(blob).value[i], ' ')
  {
  }

  /** With `bytesPerChar` assigned, every loaded font holds its 95 glyphs in separate slots. */
  lemma LoadedFontsFit(blob: seq<Byte>, i: nat)
    requires LoadFonts(blob).Some? && i < |LoadFonts(blob).value|
    ensures GlyphsFit(LoadFonts(blob).value[i])
  {
    var f := LoadFonts(blob).value[i];
    DataSizeCountsGlyphs(f.width, f.height);
  }
}

=== FILE: gpio.dfy ===
/**
 * The slice of the RP2040 GPIO interface the input handlers use: pin numbers,
 * the per-pin interrupt event mask, and the acknowledgements a handler
 * issues. The mask bit values are those of the Pico SDK
 * (`GPIO_IRQ_EDGE_FALL == 0x4`, `GPIO_IRQ_EDGE_RISE == 0x8`).
 */
module Gpio {

  /** A bank-0 GPIO number; `gpio_get_all()` returns one bit per pin of a 32-bit word. */
  type Pin = p: nat | p < 32

  /** A pin's interrupt event mask (`gpio_get_irq_event_mask`). */
  type Events = bv32

  const EdgeFall: Events := 0x4
  const EdgeRise: Events := 0x8

  /** `GPIO_IRQ_EDGE_RISE | GPIO_IRQ_EDGE_FALL`, the events every handler enables. */
  const EdgeMask: Events := EdgeRise | EdgeFall

  /** One call `gpio_acknowledge_irq(pin, mask)`. */
  datatype Ack = Ack(pin: Pin, mask: Events)

  /** A snapshot of every pin level, as returned by `gpio_get_all()`. */
  type Levels = Pin -> bool

  /** Whether an event mask holds an edge the handlers react to. */
  predicate HasEdge(events: Events) {
    events & EdgeMask != 0
  }

  /** An edge event is a rise, a fall, or both. */
  lemma HasEdgeMeansRiseOrFall(events: Events)
    ensures HasEdge(events) <==> (events & EdgeRise != 0 || events & EdgeFall != 0)
  {
  }
}

=== FILE: led.dfy ===
/**
 * `Led` (`motor_programmer/led.py`): one key LED of the macropad, driven by a
 * stack of keyed overlays. Whichever overlay was added last decides the
 * colour; with no overlays the LED is off.
 */
module Led {
  import opened Wrappers

  /** `Overlay(key, value)`: a colour requested under some key. */
  datatype Overlay<K> = Overlay(key: K, value: int)

  /** `_overlays`, and the colour last written to `pixels[index]`. */
  datatype Led<K> = Led(overlays: seq<Overlay<K>>, pixel: int)

  /** The first overlay with the given key, as the `for` loops find it. */
  function Find<K(==)>(overlays: seq<Overlay<K>>, key: K): (r: Option<nat>)
    ensures r.Some? ==> r.value < |overlays| && overlays[r.value].key == key
    ensures r.Some? ==> forall j :: 0 <= j < r.value ==> overlays[j].key != key
    ensures r.None? <==> forall j :: 0 <= j < |overlays| ==> overlays[j].key != key
  {
    if overlays == [] then None
    else if overlays[0].key == key then Some(0)
    else
      match Find(overlays[1..], key)
      case None => None
      case Some(i) => Some(i + 1)
  }

  /** `_update`: the pixel shows the last overlay's value, or 0 when there is none. */
  function Update<K>(l: Led<K>): (r: Led<K>)
    ensures r.overlays == l.overlays
    ensures Shows(r)
  {
    l.(pixel := if l.overlays == [] then 0 else l.overlays[|l.overlays| - 1].value)
  }

  /** The pixel agrees with the top of the overlay stack. */
  predicate Shows<K>(l: Led<K>) {
    if l.overlays == [] then l.pixel == 0 else l.pixel == l.overlays[|l.overlays| - 1].value
  }

  /** No key appears in two overlays. */
  predicate UniqueKeys<K(==)>(l: Led<K>) {
    forall i, j :: 0 <= i < j < |l.overlays| ==> l.overlays[i].key != l.overlays[j].key
  }

  /** `__getitem__`: the value of the overlay with the key, or `None`. */
  function Get<K(==)>(l: Led<K>, key: K): (r: Option<int>)
    ensures r.None? <==> forall j :: 0 <= j < |l.overlays| ==> l.overlays[j].key != key
    ensures r.Some? ==> exists j :: 0 <= j < |l.overlays| && l.overlays[j] == Overlay(key, r.value)
  {
    match Find(l.overlays, key)
    case None => None
    case Some(i) => Some(l.overlays[i].value)
  }

  /**
   * `__setitem__`: an existing overlay with the key is replaced in place,
   * keeping its position; otherwise the overlay goes on top. The pixel is
   * updated either way.
   */
  function Set<K(==)>(l: Led<K>, key: K, value: int): (r: Led<K>)
    ensures Shows(r)
    ensures Find(l.overlays, key).Some? ==> r.overlays == l.overlays[Find(l.overlays, key).value := Overlay(key, value)]
    ensures Find(l.overlays, key).None? ==> r.overlays == l.overlays + [Overlay(key, value)]
  {
    match Find(l.overlays, key)
    case Some(i) => Update(l.(overlays := l.overlays[i := Overlay(key, value)]))
    case None => Update(l.(overlays := l.overlays + [Overlay(key, value)]))
  }

  /**
   * `__delitem__`: the overlay with the key is removed and the pixel
   * updated; an absent key changes nothing, not even the pixel.
   */
  function Delete<K(==)>(l: Led<K>, key: K): (r: Led<K>)
    ensures Find(l.overlays, key).None? ==> r == l
    ensures Find(l.overlays, key).Some? ==> Shows(r) && |r.overlays| == |l.overlays| - 1
    ensures Find(l.overlays, key).Some? ==>
              var i := Find(l.overlays, key).value;
              r.overlays == l.overlays[..i] + l.overlays[i + 1..]
  {
    match Find(l.overlays, key)
    case None => l
    case Some(i) => Update(l.(overlays := l.overlays[..i] + l.overlays[i + 1..]))
  }

  /** Setting a key keeps the keys unique; the key then reads back its value and no other key changes. */
  lemma SetThenGet<K>(l: Led<K>, key: K, value: int, other: K)
    requires UniqueKeys(l)
    ensures UniqueKeys(Set(l, key, value))
    ensures Get(Set(l, key, value), key) == Some(value)
    ensures other != key ==> Get(Set(l, key, value), other) == Get(l, other)
  {
    var r := Set(l, key, value);
    SetKeys(l, key, value);
    match Find(l.overlays, key)
    case Some(i) => UniqueFind(r.overlays, key, i);
    case None => UniqueFind(r.overlays, key, |l.overlays|);
    if other != key {
      match Find(l.overlays, other)
      case Some(m) =>
        assert r.overlays[m] == l.overlays[m];
        UniqueFind(r.overlays, other, m);
      case None =>
    }
  }

  /** The keys after `Set`: the old ones in order, followed by the new key when it was absent. */
  lemma SetKeys<K>(l: Led<K>, key: K, value: int)
    requires UniqueKeys(l)
    ensures var r := Set(l, key, value);
            && UniqueKeys(r)
            && (forall j :: 0 <= j < |l.overlays| ==> r.overlays[j].key == l.overlays[j].key)
            && (forall j :: 0 <= j < |l.overlays| && l.overlays[j].key != key ==> r.overlays[j] == l.overlays[j])
            && (Find(l.overlays, key).None? ==> |r.overlays| == |l.overlays| + 1 && r.overlays[|l.overlays|].key == key)
            && (Find(l.overlays, key).Some? ==> |r.overlays| == |l.overlays|)
  {
  }

  /** In a list without repeated keys, an overlay's key finds that overlay. */
  lemma UniqueFind<K>(overlays: seq<Overlay<K>>, key: K, i: nat)
    requires forall a, b :: 0 <= a < b < |overlays| ==> overlays[a].key != overlays[b].key
    requires i < |overlays| && overlays[i].key == key
    ensures Find(overlays, key) == Some(i)
  {
  }

  /** Deleting a key keeps the keys unique and leaves the key absent. */
  lemma DeleteRemoves<K>(l: Led<K>, key: K)
    requires UniqueKeys(l)
    ensures UniqueKeys(Delete(l, key))
    ensures Get(Delete(l, key), key).None?
  {
    match Find(l.overlays, key)
    case None =>
    case Some(i) =>
      var r := Delete(l, key);
      forall j | 0 <= j < |r.overlays|
        ensures r.overlays[j].key != key
      {
        if j < i {
          assert r.overlays[j] == l.overlays[j];
        } else {
          assert r.overlays[j] == l.overlays[j + 1];
        }
      }
  }

  /**
   * Setting a key that had no overlay and deleting it again restores the
   * LED exactly, pixel included, when the pixel showed the stack before.
   */
  lemma SetThenDelete<K>(l: Led<K>, key: K, value: int)
    requires Shows(l) && Get(l, key).None?
    ensures Delete(Set(l, key, value), key) == l
  {
    var s := Set(l, key, value);
    var r := Find(s.overlays, key);
    assert s.overlays[|l.overlays|].key == key;
    assert r.Some? && r.value == |l.overlays|;
    assert s.overlays[..|l.overlays|] == l.overlays;
  }
}

=== FILE: mailbox.dfy ===
/**
 * The single-slot mailboxes `Button::Waiter` (bool) and
 * `RotaryEncoder::Waiter` (int64): an optional buffered value plus at most one
 * registered coroutine handle. Every method runs under the waiter's critical
 * section, so each one is an atomic step here.
 */
module Mailbox {
  import opened Wrappers
  import opened Executor

  datatype Waiter<T> = Waiter(slot: Option<T>, pending: Option<Handle>)

  /** A freshly constructed waiter: no value, no registered consumer. */
  function Fresh<T>(): (w: Waiter<T>)
    ensures w.slot.None? && w.pending.None?
  {
    Waiter(None, None)
  }

  /** `await_ready`: true iff a value is buffered. */
  predicate AwaitReady<T>(w: Waiter<T>) {
    w.slot.Some?
  }

  /** The outcome of `await_suspend`: whether the coroutine really suspends. */
  datatype Suspension<T> = Suspension(suspended: bool, waiter: Waiter<T>)

  /**
   * `Button::Waiter::await_suspend`: re-checks the slot under the lock, so a
   * value that arrived after `await_ready` cancels the suspension; otherwise
   * the handle is registered.
   */
  function AwaitSuspend<T>(w: Waiter<T>, h: Handle): (r: Suspension<T>)
    ensures r.suspended <==> w.slot.None?
    ensures r.suspended ==> r.waiter == Waiter(w.slot, Some(h))
    ensures !r.suspended ==> r.waiter == w
  {
    if w.slot.Some? then Suspension(false, w) else Suspension(true, w.(pending := Some(h)))
  }

  /** The outcome of `await_resume`: the delivered value and the emptied waiter. */
  datatype Delivery<T> = Delivery(value: T, waiter: Waiter<T>)

  /**
   * `await_resume`: returns the buffered value and empties the slot. The
   * source dereferences the optional, so a value must be buffered.
   */
  function AwaitResume<T>(w: Waiter<T>): (r: Delivery<T>)
    requires AwaitReady(w)
    ensures w.slot == Some(r.value)
    ensures r.waiter.slot.None? && r.waiter.pending == w.pending
  {
    Delivery(w.slot.value, w.(slot := None))
  }

  /** The outcome of `Send`: the updated waiter and executor queue. */
  datatype Sent<T> = Sent(waiter: Waiter<T>, scheduled: Scheduled)

  /**
   * `Send`: a value equal to the buffered one is dropped with no resumption;
   * otherwise it overwrites the slot (latest value wins) and a registered
   * handle is scheduled once and unregistered.
   */
  function Send<T(==)>(w: Waiter<T>, v: T, q: Scheduled): (r: Sent<T>)
    ensures w.slot == Some(v) ==> r == Sent(w, q)
    ensures w.slot != Some(v) ==> r.waiter == Waiter(Some(v), None)
    ensures w.slot != Some(v) ==> r.scheduled == q + Handles(w.pending)
    ensures r.waiter.slot == Some(v)
  {
    if w.slot == Some(v) then Sent(w, q)
    else Sent(Waiter(Some(v), None), Wake(q, w.pending))
  }

  /**
   * The encoder's awaiter, with `await_ready` and `await_suspend` taken as one
   * atomic step (the lock is meant to span both): it suspends and registers
   * the handle iff no value is buffered.
   */
  function EncoderAwait<T>(w: Waiter<T>, h: Handle): (r: Suspension<T>)
    ensures r.suspended <==> !AwaitReady(w)
    ensures r.suspended ==> r.waiter.pending == Some(h) && r.waiter.slot == w.slot
    ensures !r.suspended ==> r.waiter == w
  {
    if AwaitReady(w) then Suspension(false, w) else AwaitSuspend(w, h)
  }

  /** A waiter never holds more than one registered handle (a `Option`), and only while empty. */
  predicate Consistent<T>(w: Waiter<T>) {
    w.pending.Some? ==> w.slot.None?
  }

  /** Every mailbox step keeps a registered consumer only while the slot is empty. */
  lemma StepsKeepConsistent<T>(w: Waiter<T>, v: T, h: Handle, q: Scheduled)
    requires Consistent(w)
    ensures Consistent(Send(w, v, q).waiter)
    ensures Consistent(AwaitSuspend(w, h).waiter)
    ensures Consistent(EncoderAwait(w, h).waiter)
    ensures AwaitReady(w) ==> Consistent(AwaitResume(w).waiter)
  {
  }

  /** With an empty slot, `Send(v)` followed by `await_resume` yields `v`. */
  lemma SendThenResume<T>(w: Waiter<T>, v: T, q: Scheduled)
    requires w.slot.None?
    ensures AwaitReady(Send(w, v, q).waiter)
    ensures AwaitResume(Send(w, v, q).waiter).value == v
    ensures !AwaitReady(AwaitResume(Send(w, v, q).waiter).waiter)
  {
  }

  /** Of two unread sends, the later value is the one delivered. */
  lemma LatestValueWins<T>(w: Waiter<T>, v1: T, v2: T, q: Scheduled)
    ensures var s1 := Send(w, v1, q);
            AwaitResume(Send(s1.waiter, v2, s1.scheduled).waiter).value == v2
  {
  }

  /**
   * The producer/consumer race on `Button::Waiter`: whether `Send(v)` lands
   * before `await_ready`, between `await_ready` and `await_suspend`, or after
   * `await_suspend`, the consumer receives `v`, and the handle is scheduled
   * exactly when the consumer really suspended, and then exactly once.
   */
  lemma NoLostWakeup<T>(v: T, h: Handle, q: Scheduled)
    // Send before the ready check: no suspension, no scheduling.
    ensures var s := Send(Fresh<T>(), v, q);
            AwaitReady(s.waiter) && s.scheduled == q && AwaitResume(s.waiter).value == v
    // Send between the ready check and the suspension: the re-check declines.
    ensures var s := Send(Fresh<T>(), v, q);
            var a := AwaitSuspend(s.waiter, h);
            !AwaitReady(Fresh<T>()) && !a.suspended && s.scheduled == q
            && AwaitResume(a.waiter).value == v
    // Send after the suspension: the handle is scheduled once and unregistered.
    ensures var a := AwaitSuspend(Fresh<T>(), h);
            var s := Send(a.waiter, v, q);
            a.suspended && s.scheduled == q + multiset{h} && s.waiter.pending.None?
            && AwaitResume(s.waiter).value == v
  {
  }

  /** A duplicate send never resumes a consumer a second time. */
  lemma DuplicateSendSchedulesNothing<T>(w: Waiter<T>, v: T, q: Scheduled)
    ensures var s1 := Send(w, v, q);
            Send(s1.waiter, v, s1.scheduled) == s1
  {
  }

  // ---------------------------------------------------------------------------
  // `RotaryEncoder::Waiter` as written: `await_ready` takes the lock and only
  // `await_suspend` releases it, so on the ready path `await_resume` tries to
  // take a lock that is already held on the same core.

  /** The encoder waiter together with the state of its critical section. */
  datatype LockedWaiter<T> = LockedWaiter(waiter: Waiter<T>, locked: bool)

  /** The result of a step that enters the critical section. */
  datatype Locking<R> = Proceeds(result: R) | Deadlock

  /** `await_ready` as written: enter the section, report the slot, stay inside. */
  function AwaitReadyAsWritten<T>(lw: LockedWaiter<T>): (r: Locking<(bool, LockedWaiter<T>)>)
    ensures lw.locked <==> r.Deadlock?
    ensures r.Proceeds? ==> r.result.0 == AwaitReady(lw.waiter) && r.result.1 == lw.(locked := true)
  {
    if lw.locked then Deadlock else Proceeds((AwaitReady(lw.waiter), lw.(locked := true)))
  }

  /** `await_resume` as written: enter the section, take the value, leave. */
  function AwaitResumeAsWritten<T>(lw: LockedWaiter<T>): (r: Locking<(T, LockedWaiter<T>)>)
    requires AwaitReady(lw.waiter)
    ensures lw.locked <==> r.Deadlock?
    ensures r.Proceeds? ==> lw.waiter.slot == Some(r.result.0) && !r.result.1.locked
  {
    if lw.locked then Deadlock
    else Proceeds((lw.waiter.slot.value, LockedWaiter(lw.waiter.(slot := None), false)))
  }

  /**
   * Whenever a value is already buffered when the consumer awaits, the
   * as-written sequence `await_ready` (true) then `await_resume` deadlocks.
   */
  lemma ReadyPathDeadlocks<T>(w: Waiter<T>)
    requires AwaitReady(w)
    ensures var r := AwaitReadyAsWritten(LockedWaiter(w, false));
            r.Proceeds? && r.result.0 && AwaitResumeAsWritten(r.result.1).Deadlock?
  {
  }

  /**
   * The corrected encoder awaiter takes the same path without a deadlock:
   * with a value buffered it does not suspend and delivers that value.
   */
  lemma EncoderReadyPathDelivers<T>(w: Waiter<T>, h: Handle)
    requires AwaitReady(w)
    ensures !EncoderAwait(w, h).suspended
    ensures Some(AwaitResume(EncoderAwait(w, h).waiter).value) == w.slot
  {
  }
}

=== FILE: modbus.dfy ===
/**
 * The Modbus RTU client (`rs232/modbus.py`): requests are packed with
 * `struct`, framed with a two-byte checksum trailer, and replies are checked
 * for length and checksum before being unpacked. Function 3 is Read Holding
 * Registers (section 6.3 of the MODBUS Application Protocol Specification
 * V1.1b3) and function 6 is Write Single Register (section 6.6). The
 * checksum (section 2.5.1 of MODBUS over Serial Line V1.02) is a parameter.
 */
module Modbus {
  import opened Wrappers
  import opened Bytes
  import opened Exceptions

  /** `crc.checksum_bytes`: some function giving two trailer bytes for every payload. */
  type Checksum = f: seq<Byte> -> seq<Byte> | forall p :: |f(p)| == 2
    witness (p: seq<Byte>) => [0 as Byte, 0 as Byte]

  /** `Modbus.DEVICE_ADDRESS`. */
  const DeviceAddress: Byte := 63
  const ReadHoldingRegisters: Byte := 3
  const WriteSingleRegister: Byte := 6

  /** `_send`: the payload followed immediately by its checksum. */
  function Frame(payload: seq<Byte>, crc: Checksum): (frame: seq<Byte>)
    ensures |frame| == |payload| + 2
    ensures frame[..|payload|] == payload && frame[|payload|..] == crc(payload)
  {
    payload + crc(payload)
  }

  /**
   * `_recv` for a format of `size` bytes: no data or a wrong length is a
   * `MessageLengthError`, a trailer that is not the checksum of the rest is
   * a `ChecksumError`; otherwise the payload without the trailer.
   */
  function Recv(data: Option<seq<Byte>>, size: nat, crc: Checksum): (r: Result<seq<Byte>, Exception>)
    ensures data.None? ==> r == Failure(MessageLengthError)
    ensures data.Some? && |data.value| != size + 2 ==> r == Failure(MessageLengthError)
    ensures data.Some? && |data.value| == size + 2 && data.value[size..] != crc(data.value[..size]) ==>
              r == Failure(ChecksumError)
    ensures r.Success? <==> data.Some? && |data.value| == size + 2 && data.value[size..] == crc(data.value[..size])
    ensures r.Success? ==> |r.value| == size && data.value == Frame(r.value, crc)
  {
    match data
    case None => Failure(MessageLengthError)
    case Some(bytes) =>
      if |bytes| != size + 2 then Failure(MessageLengthError)
      else
        var payload := bytes[..|bytes| - 2];
        if crc(payload) != bytes[|bytes| - 2..] then Failure(ChecksumError)
        else
          assert bytes == payload + bytes[|bytes| - 2..];
          Success(payload)
  }

  /** Receiving a frame the same checksum produced returns its payload. */
  lemma RecvFrame(payload: seq<Byte>, crc: Checksum)
    ensures Recv(Some(Frame(payload, crc)), |payload|, crc) == Success(payload)
  {
  }

  /** `struct.pack(">BBHH", 63, code, a, b)`: fails unless both words are unsigned 16-bit. */
  function PackRequest(code: Byte, a: int, b: int): (r: Result<seq<Byte>, Exception>)
    ensures r.Failure? <==> !(IsU16(a) && IsU16(b))
    ensures r.Failure? ==> r.error == StructError
    ensures r.Success? ==> |r.value| == 6 && r.value[0] == DeviceAddress && r.value[1] == code
    ensures r.Success? ==> ReadBigEndian16(r.value[2], r.value[3]) == a && ReadBigEndian16(r.value[4], r.value[5]) == b
  {
    if IsU16(a) && IsU16(b) then
      var request := [DeviceAddress, code] + BigEndian16(a) + BigEndian16(b);
      BigEndian16RoundTrip(a);
      BigEndian16RoundTrip(b);
      Success(request)
    else
      Failure(StructError)
  }

  /** `get(key)`'s request: read one holding register starting at `key`. */
  function ReadRequest(key: int): (r: Result<seq<Byte>, Exception>)
    ensures r.Failure? <==> !IsU16(key)
    ensures r.Success? ==> && |r.value| == 6 && r.value[0] == DeviceAddress && r.value[1] == ReadHoldingRegisters
                           && ReadBigEndian16(r.value[2], r.value[3]) == key
                           && ReadBigEndian16(r.value[4], r.value[5]) == 1
  {
    PackRequest(ReadHoldingRegisters, key, 1)
  }

  /** `get(key)`'s reply: the `">BBBH"` payload (5 bytes); the value is the big-endian last word. */
  function ReadReply(data: Option<seq<Byte>>, crc: Checksum): (r: Result<int, Exception>)
    ensures r.Success? ==> IsU16(r.value)
    ensures r.Success? <==> Recv(data, 5, crc).Success?
    ensures r.Success? ==> r.value == ReadBigEndian16(data.value[3], data.value[4])
  {
    var payload :- Recv(data, 5, crc);
    Success(ReadBigEndian16(payload[3], payload[4]))
  }

  /** `set(key, value)`'s request: write `value` to register `key`. */
  function WriteRequest(key: int, value: int): (r: Result<seq<Byte>, Exception>)
    ensures r.Failure? <==> !(IsU16(key) && IsU16(value))
    ensures r.Success? ==> && |r.value| == 6 && r.value[0] == DeviceAddress && r.value[1] == WriteSingleRegister
                           && ReadBigEndian16(r.value[2], r.value[3]) == key
                           && ReadBigEndian16(r.value[4], r.value[5]) == value
  {
    PackRequest(WriteSingleRegister, key, value)
  }

  /**
   * `set`'s reply: the `">6s"` payload must be the request itself, or the
   * call raises `ValueError`.
   */
  function WriteReply(data: Option<seq<Byte>>, request: seq<Byte>, crc: Checksum): (r: Result<(), Exception>)
    ensures r.Success? <==> |request| == 6 && data == Some(Frame(request, crc))
    ensures Recv(data, 6, crc).Success? && r.Failure? ==> r.error == ValueError
  {
    var payload :- Recv(data, 6, crc);
    if payload != request then Failure(ValueError) else Success(())
  }

  /** The frames a call wrote to the stream, and its outcome. */
  datatype Sent<T> = Sent(written: seq<seq<Byte>>, result: Result<T, Exception>)

  /**
   * `set(self, key)` as written: the body packs `value`, a name bound
   * nowhere, so every call raises `NameError` before anything is sent.
   */
  function SetAsWritten(key: int): (r: Sent<()>)
    ensures r.written == [] && r.result == Failure(NameError)
  {
    Sent([], Failure(NameError))
  }

  /**
   * `get(self, key)` as written: the module imports only `struct`, so once
   * the request is packed `_send` raises `NameError` on `crc` before the
   * stream is written; a key outside 16 bits fails in `struct.pack` first.
   */
  function GetAsWritten(key: int): (r: Sent<int>)
    ensures r.written == []
    ensures IsU16(key) ==> r.result == Failure(NameError)
    ensures !IsU16(key) ==> r.result == Failure(StructError)
  {
    match ReadRequest(key)
    case Failure(e) => Sent([], Failure(e))
    case Success(_) => Sent([], Failure(NameError))
  }

  /**
   * As written, `get` never reads a register: even a request that packs
   * fine is never sent.
   */
  lemma GetAsWrittenNeverReads(key: int)
    ensures GetAsWritten(key).result.Failure? && GetAsWritten(key).written == []
    ensures IsU16(key) ==> ReadRequest(key).Success? && GetAsWritten(key).result.error == NameError
  {
  }

  /** As written, `set` can never write a register, whatever the key. */
  lemma SetAsWrittenNeverWrites(key: int)
    ensures SetAsWritten(key).result.Failure? && SetAsWritten(key).written == []
    ensures IsU16(key) ==> WriteRequest(key, 0).Success?
  {
  }
}

=== FILE: notification.dfy ===
/**
 * `Notification` (`src/picoro/notification.h`): a one-shot latch over a
 * Pico SDK semaphore created with 0 permits and a maximum of 1.
 */
module Notification {

  /** A `semaphore_t`: available permits and the maximum. */
  datatype Semaphore = Semaphore(permits: nat, max: nat)

  /**
   * `sem_release`: adds a permit unless the maximum is reached (the SDK's
   * release does nothing on a full semaphore).
   */
  function Release(s: Semaphore): (s': Semaphore)
    requires s.permits <= s.max
    ensures s'.max == s.max && s'.permits <= s'.max
    ensures s.permits < s.max ==> s'.permits == s.permits + 1
    ensures s.permits == s.max ==> s' == s
  {
    if s.permits < s.max then s.(permits := s.permits + 1) else s
  }

  /**
   * The fields of the class, plus whether the single consumer is parked in
   * `sem_acquire_blocking` inside `Wait()`.
   */
  datatype NotificationState = NotificationState(sem: Semaphore, notified: bool, blocked: bool)

  /** The constructor: `sem_init(&sem_, 0, 1)`, not latched, nobody waiting. */
  const Fresh: NotificationState := NotificationState(Semaphore(0, 1), false, false)

  /**
   * The semaphore keeps its bounds, and a consumer is parked only while the
   * latch is clear and no permit is available.
   */
  predicate Valid(n: NotificationState) {
    && n.sem.max == 1 && n.sem.permits <= 1
    && (n.blocked ==> !n.notified && n.sem.permits == 0)
  }

  /**
   * `Notify()`: release a permit; the count never exceeds one. A consumer
   * parked in `Wait()` takes that permit, leaves `sem_acquire_blocking` and
   * latches.
   */
  function Notify(n: NotificationState): (n': NotificationState)
    requires Valid(n)
    ensures Valid(n') && !n'.blocked
    ensures !n.blocked ==> n'.sem.permits == 1 && n'.notified == n.notified
    ensures n.blocked ==> n'.sem.permits == 0 && n'.notified
  {
    if n.blocked then NotificationState(n.sem, true, false)
    else n.(sem := Release(n.sem))
  }

  /** `Notified()`: latched, or a permit is available (the permit is not consumed). */
  predicate Notified(n: NotificationState) {
    n.notified || n.sem.permits == 1
  }

  /** The outcome of `Wait()`: it returns with a new state, or blocks on the semaphore. */
  datatype Waited = Returned(state: NotificationState) | Blocked

  /**
   * `Wait()`: returns at once when latched; otherwise takes the permit (or
   * blocks while there is none) and latches.
   */
  function Wait(n: NotificationState): (r: Waited)
    requires Valid(n)
    ensures n.notified ==> r == Returned(n)
    ensures !n.notified && n.sem.permits == 0 ==> r.Blocked?
    ensures !n.notified && n.sem.permits == 1 ==>
              r == Returned(NotificationState(Semaphore(0, 1), true, false))
    ensures r.Returned? ==> Valid(r.state) && r.state.notified && !r.state.blocked
  {
    if n.notified then Returned(n)
    else if n.sem.permits == 0 then Blocked
    else Returned(NotificationState(n.sem.(permits := n.sem.permits - 1), true, false))
  }

  /** `Notified()` holds exactly when `Wait()` would return without blocking. */
  lemma NotifiedMeansWaitReturns(n: NotificationState)
    requires Valid(n)
    ensures Notified(n) <==> Wait(n).Returned?
  {
  }

  /** An operation a single consumer and any number of notifiers may issue. */
  datatype Op = NotifyOp | WaitOp

  /**
   * Apply the operations in order. A `Wait` that blocks parks the consumer,
   * and the next `Notify` completes it; a parked consumer issues no further
   * `Wait`, so one that appears while it is parked is the same pending call.
   */
  function Apply(n: NotificationState, ops: seq<Op>): (n': NotificationState)
    requires Valid(n)
    ensures Valid(n')
    decreases |ops|
  {
    if ops == [] then n
    else
      match ops[0]
      case NotifyOp => Apply(Notify(n), ops[1..])
      case WaitOp =>
        match Wait(n)
        case Returned(m) => Apply(m, ops[1..])
        case Blocked => Apply(n.(blocked := true), ops[1..])
  }

  /** Once latched, `Notified()` is true after any further operations. */
  lemma {:induction false} LatchIsPermanent(n: NotificationState, ops: seq<Op>)
    requires Valid(n) && n.notified
    ensures Apply(n, ops).notified && Notified(Apply(n, ops))
    decreases |ops|
  {
    if ops != [] {
      match ops[0]
      case NotifyOp => LatchIsPermanent(Notify(n), ops[1..]);
      case WaitOp => LatchIsPermanent(n, ops[1..]);
    }
  }

  /**
   * No notify and no wait is lost, whatever their order: the latch is set at
   * the end iff it was set already, or some wait (possibly one already
   * parked) meets some permit (one already available or a later notify).
   */
  lemma {:induction false} LatchesIffWaitMeetsNotify(n: NotificationState, ops: seq<Op>)
    requires Valid(n)
    ensures Apply(n, ops).notified <==>
              n.notified || ((n.blocked || WaitOp in ops) && (n.sem.permits == 1 || NotifyOp in ops))
    decreases |ops|
  {
    if ops != [] {
      var rest := ops[1..];
      assert WaitOp in ops <==> ops[0] == WaitOp || WaitOp in rest;
      assert NotifyOp in ops <==> ops[0] == NotifyOp || NotifyOp in rest;
      match ops[0]
      case NotifyOp => LatchesIffWaitMeetsNotify(Notify(n), rest);
      case WaitOp =>
        match Wait(n)
        case Returned(m) => LatchesIffWaitMeetsNotify(m, rest);
        case Blocked => LatchesIffWaitMeetsNotify(n.(blocked := true), rest);
    }
  }

  /** A notify before the first wait is never lost: the wait returns and latches. */
  lemma NotifyThenWaitReturns()
    ensures Wait(Notify(Fresh)) == Returned(NotificationState(Semaphore(0, 1), true, false))
    ensures !Notified(Fresh) && Wait(Fresh).Blocked?
  {
  }

  /**
   * A wait that blocks is completed by the next notify: the parked consumer
   * takes the released permit and latches.
   */
  lemma BlockedWaitLatchesOnNotify(n: NotificationState)
    requires Valid(n) && !Notified(n)
    ensures Wait(n).Blocked?
    ensures Apply(n, [WaitOp, NotifyOp]) == NotificationState(Semaphore(0, 1), true, false)
  {
    assert [WaitOp, NotifyOp][1..] == [NotifyOp];
    assert [NotifyOp][1..] == [];
  }
}

=== FILE: oled_buffer.dfy ===
/**
 * `OledBuffer` (`src/oled_buffer.cc`): a bitmap of `width` x `height` pixels
 * packed into 8-pixel vertical blocks. Block rows are stored one after the
 * other, `width` bytes each; bit `y % 8` of a block is row `y`, the least
 * significant bit being the top row of the block.
 */
module OledBuffer {
  import opened Bytes
  import opened Fonts
  import Arith

  /** The buffer: the bytes behind `data_`, and the dimensions. */
  datatype Buffer = Buffer(data: seq<Byte>, width: nat, height: nat)

  /** Bytes the bitmap occupies: one per column per block row. */
  function Footprint(width: nat, height: nat): nat {
    width * BlocksPerColumn(height)
  }

  /** The bytes behind the buffer hold every block row. */
  predicate Valid(b: Buffer) {
    |b.data| >= Footprint(b.width, b.height)
  }

  /** `operator()`: the byte holding pixel (x, y), `x + (y >> 3) * width`. */
  function Index(width: nat, x: nat, y: nat): nat {
    x + (y / 8) * width
  }

  /** `1 << offset` for a bit offset 0..7. */
  function Mask(k: nat): (m: Byte)
    requires k < 8
  {
    [1, 2, 4, 8, 16, 32, 64, 128][k]
  }

  /** Bit `k` of a byte. */
  predicate BitOf(byte: Byte, k: nat)
    requires k < 8
  {
    byte & Mask(k) != 0
  }

  /** `Pixel::operator=` on the block: set or clear one bit. */
  function WriteBit(byte: Byte, k: nat, v: bool): (r: Byte)
    requires k < 8
    ensures BitOf(r, k) == v
    ensures forall j :: 0 <= j < 8 && j != k ==> BitOf(r, j) == BitOf(byte, j)
  {
    var m := Mask(k);
    var r := if v then byte | m else byte & !m;
    WriteBitOthers(byte, k, v, r);
    r
  }

  /** The other seven bits survive a single-bit write. */
  lemma WriteBitOthers(byte: Byte, k: nat, v: bool, r: Byte)
    requires k < 8
    requires r == if v then byte | Mask(k) else byte & !Mask(k)
    ensures BitOf(r, k) == v
    ensures forall j :: 0 <= j < 8 && j != k ==> BitOf(r, j) == BitOf(byte, j)
  {
    forall j | 0 <= j < 8 && j != k
      ensures BitOf(r, j) == BitOf(byte, j)
    {
      DistinctMasks(j, k);
    }
  }

  /** Two different offsets select disjoint bits. */
  lemma DistinctMasks(j: nat, k: nat)
    requires j < 8 && k < 8 && j != k
    ensures Mask(j) & Mask(k) == 0
  {
  }

  /** A pixel whose byte lies inside the buffer's data. */
  predicate Addressable(b: Buffer, x: nat, y: nat) {
    Index(b.width, x, y) < |b.data|
  }

  /** `Pixel::operator bool`: the pixel's bit. */
  predicate Get(b: Buffer, x: nat, y: nat)
    requires Addressable(b, x, y)
  {
    BitOf(b.data[Index(b.width, x, y)], y % 8)
  }

  /**
   * `Pixel::operator=`: writes the pixel's bit; every other bit of every
   * byte is left as it was.
   */
  function Set(b: Buffer, x: nat, y: nat, v: bool): (r: Buffer)
    requires Addressable(b, x, y)
    ensures r.width == b.width && r.height == b.height && |r.data| == |b.data|
    ensures Get(r, x, y) == v
    ensures forall i :: 0 <= i < |b.data| && i != Index(b.width, x, y) ==> r.data[i] == b.data[i]
    ensures forall k :: 0 <= k < 8 && k != y % 8 ==>
              BitOf(r.data[Index(b.width, x, y)], k) == BitOf(b.data[Index(b.width, x, y)], k)
  {
    var i := Index(b.width, x, y);
    b.(data := b.data[i := WriteBit(b.data[i], y % 8, v)])
  }

  /** Inside the bitmap, different pixels have different (byte, bit) addresses. */
  lemma {:induction false} AddressInjective(width: nat, x: nat, y: nat, x': nat, y': nat)
    requires x < width && x' < width
    requires Index(width, x, y) == Index(width, x', y') && y % 8 == y' % 8
    ensures x == x' && y == y'
  {
    var r, r' := y / 8, y' / 8;
    if r < r' {
      Arith.MulMono(r + 1, r', width);
      assert false;
    } else if r' < r {
      Arith.MulMono(r' + 1, r, width);
      assert false;
    }
  }

  /** Every pixel of the (block-padded) bitmap lies in the footprint. */
  lemma {:induction false} IndexInFootprint(width: nat, height: nat, x: nat, y: nat)
    requires x < width && y < 8 * BlocksPerColumn(height)
    ensures Index(width, x, y) < Footprint(width, height)
  {
    Arith.MulMono(y / 8 + 1, BlocksPerColumn(height), width);
  }

  /** Reading a pixel after writing `v` to it returns `v`; other pixels keep their value. */
  lemma SetThenGet(b: Buffer, x: nat, y: nat, v: bool, x': nat, y': nat)
    requires Addressable(b, x, y) && Addressable(b, x', y')
    requires x < b.width && x' < b.width
    ensures Get(Set(b, x, y, v), x', y') == if x' == x && y' == y then v else Get(b, x', y')
  {
    if Index(b.width, x, y) == Index(b.width, x', y') && (x != x' || y != y') {
      if y % 8 == y' % 8 {
        AddressInjective(b.width, x, y, x', y');
      }
    }
  }

  /** Pixels of the padded bitmap: columns below `width`, rows up to the next multiple of 8. */
  predicate InBitmap(b: Buffer, x: nat, y: nat) {
    x < b.width && y < 8 * BlocksPerColumn(b.height)
  }

  /** A pixel of the padded bitmap of a valid buffer, read with `Get`. */
  predicate Lit(b: Buffer, x: nat, y: nat)
    requires Valid(b) && InBitmap(b, x, y)
  {
    IndexInFootprint(b.width, b.height, x, y);
    Get(b, x, y)
  }

  /** The footprint, and whatever lies beyond it, are the only state; this says which bytes beyond it are unchanged. */
  predicate SameBeyond(b: Buffer, r: Buffer) {
    && r.width == b.width && r.height == b.height && |r.data| == |b.data|
    && forall i :: Footprint(b.width, b.height) <= i < |b.data| ==> r.data[i] == b.data[i]
  }

  /** Setting a pixel of a valid buffer to true turns on exactly that pixel. */
  lemma SetTrueOnlyThatPixel(b: Buffer, x: nat, y: nat)
    requires Valid(b) && InBitmap(b, x, y)
    ensures Addressable(b, x, y) && SameBeyond(b, Set(b, x, y, true))
    ensures forall x', y' :: InBitmap(b, x', y') ==>
              Lit(Set(b, x, y, true), x', y') == (Lit(b, x', y') || (x' == x && y' == y))
  {
    IndexInFootprint(b.width, b.height, x, y);
    forall x', y' | InBitmap(b, x', y')
      ensures Lit(Set(b, x, y, true), x', y') == (Lit(b, x', y') || (x' == x && y' == y))
    {
      IndexInFootprint(b.width, b.height, x', y');
      SetThenGet(b, x, y, true, x', y');
    }
  }

  // ---------------------------------------------------------------------------
  // Clear

  /** Zero the first `n` bytes. */
  function ZeroPrefix(data: seq<Byte>, n: nat): (r: seq<Byte>)
    ensures |r| == |data|
    ensures forall i :: 0 <= i < |r| ==> r[i] == if i < n then 0 else data[i]
  {
    seq(|data|, i requires 0 <= i < |data| => if i < n then 0 else data[i])
  }

  /** `Span()` as written: `width * height / 8` bytes, rounded down. */
  function SpanAsWritten(b: Buffer): nat {
    b.width * b.height / 8
  }

  /** `Clear()` as written: zeroes the `Span()` bytes only. */
  function ClearAsWritten(b: Buffer): (r: Buffer)
    requires |b.data| >= SpanAsWritten(b)
    ensures r.width == b.width && r.height == b.height && |r.data| == |b.data|
    ensures forall i :: 0 <= i < |b.data| ==> r.data[i] == if i < SpanAsWritten(b) then 0 else b.data[i]
  {
    b.(data := ZeroPrefix(b.data, SpanAsWritten(b)))
  }

  /**
   * When the height is not a multiple of 8 the rounded-down span misses the
   * last block row: a 1 x 4 bitmap has a span of 0 bytes, and a lit pixel
   * stays lit after `Clear()`.
   */
  lemma ClearAsWrittenMissesPartialRow()
    ensures var b := Buffer([1], 1, 4);
            Valid(b) && Get(b, 0, 0) && Get(ClearAsWritten(b), 0, 0)
  {
    var b := Buffer([1], 1, 4);
    assert SpanAsWritten(b) == 0;
    assert ClearAsWritten(b).data == [1];
  }

  /** The span the rest of the code relies on: the whole footprint. */
  function Span(b: Buffer): (n: nat)
    ensures b.height % 8 == 0 ==> n == SpanAsWritten(b)
    ensures n >= SpanAsWritten(b)
  {
    var n := Footprint(b.width, b.height);
    SpanCoversAsWritten(b.width, b.height);
    n
  }

  lemma SpanCoversAsWritten(width: nat, height: nat)
    ensures height % 8 == 0 ==> Footprint(width, height) == width * height / 8
    ensures Footprint(width, height) >= width * height / 8
  {
    var k := BlocksPerColumn(height);
    assert width * (8 * k) == 8 * (width * k);
    Arith.MulMono(height, 8 * k, width);
    if height % 8 == 0 {
      assert height == 8 * k;
    }
  }

  /** `Clear()` with the span rounded up: zeroes the footprint. */
  function Clear(b: Buffer): (r: Buffer)
    requires Valid(b)
    ensures SameBeyond(b, r)
    ensures forall i :: 0 <= i < Footprint(b.width, b.height) ==> r.data[i] == 0
  {
    b.(data := ZeroPrefix(b.data, Span(b)))
  }

  /** After `Clear()` every pixel of the bitmap reads false. */
  lemma ClearBlanks(b: Buffer, x: nat, y: nat)
    requires Valid(b) && InBitmap(b, x, y)
    ensures !Lit(Clear(b), x, y)
  {
    IndexInFootprint(b.width, b.height, x, y);
  }

  // ---------------------------------------------------------------------------
  // Drawing

  /**
   * A glyph pixel: the glyph bytes read as an `OledBuffer` of the font's
   * width and height, as `DrawChar` reads them.
   */
  predicate GlyphPixel(glyph: seq<Byte>, fw: nat, fh: nat, dx: nat, dy: nat)
    requires |glyph| >= Footprint(fw, fh) && dx < fw && dy < fh
  {
    IndexInFootprint(fw, fh, dx, dy);
    Get(Buffer(glyph, fw, fh), dx, dy)
  }

  /** The clipped box `DrawChar` visits: `[x0, min(W, x0 + fw)) x [y0, min(H, y0 + fh))`. */
  predicate InBox(b: Buffer, fw: nat, fh: nat, x0: nat, y0: nat, x: nat, y: nat) {
    x0 <= x < x0 + fw && x < b.width && y0 <= y < y0 + fh && y < b.height
  }

  /** Pixels `DrawChar` turns on. */
  predicate CharPixel(b: Buffer, glyph: seq<Byte>, fw: nat, fh: nat, x0: nat, y0: nat, x: nat, y: nat)
    requires |glyph| >= Footprint(fw, fh)
  {
    InBox(b, fw, fh, x0, y0, x, y) && GlyphPixel(glyph, fw, fh, x - x0, y - y0)
  }

  /** A set of pixels a drawing operation turns on, or has turned on so far. */
  datatype Region =
    | Row(y: nat, x0: nat, x1: nat)
      /** The glyph pixels of columns before `x0 + cols`, and of column `x0 + cols` above `y0 + rows`. */
    | GlyphPart(glyph: seq<Byte>, fw: nat, fh: nat, x0: nat, y0: nat, cols: nat, rows: nat)
    /** The first `count` characters of a string drawn at (x0, y0). */
    | Text(f: Font, text: string, count: nat, x0: nat, y0: nat)

  predicate RegionOk(reg: Region) {
    match reg
    case Row(_, _, _) => true
    case GlyphPart(glyph, fw, fh, _, _, _, _) => |glyph| >= Footprint(fw, fh)
    case Text(f, text, count, _, _) => GlyphsFit(f) && count <= |text| && forall i :: 0 <= i < |text| ==> Printable(text[i])
  }

  /** A whole glyph at (x0, y0), as `DrawChar` draws it. */
  function WholeGlyph(glyph: seq<Byte>, fw: nat, fh: nat, x0: nat, y0: nat): Region {
    GlyphPart(glyph, fw, fh, x0, y0, fw, 0)
  }

  predicate InRegion(b: Buffer, reg: Region, x: nat, y: nat)
    requires RegionOk(reg)
  {
    match reg
    case Row(row, x0, x1) => y == row && x0 <= x < x1
    case GlyphPart(glyph, fw, fh, x0, y0, cols, rows) =>
      CharPixel(b, glyph, fw, fh, x0, y0, x, y) && (x < x0 + cols || (x == x0 + cols && y < y0 + rows))
    case Text(f, text, count, x0, y0) => StringPixel(b, f, text, count, x0, y0, x, y)
  }

  /**
   * `r` is `b` with exactly the pixels of `reg` additionally turned on: no
   * pixel is cleared, and nothing outside the bitmap's footprint changes.
   */
  ghost predicate Painted(b: Buffer, r: Buffer, reg: Region)
    requires Valid(b) && RegionOk(reg)
  {
    && SameBeyond(b, r)
    && forall x, y :: InBitmap(b, x, y) ==> Lit(r, x, y) == (Lit(b, x, y) || InRegion(b, reg, x, y))
  }

  /**
   * One drawing step: turning on pixel (px, py) when `lit`, the painted
   * region grows from `reg` to `reg'`, which adds at most that pixel.
   */
  lemma PaintPixel(b: Buffer, r: Buffer, reg: Region, reg': Region, px: nat, py: nat, lit: bool)
    requires Valid(b) && RegionOk(reg) && RegionOk(reg') && InBitmap(b, px, py)
    requires Painted(b, r, reg)
    requires forall x, y :: InBitmap(b, x, y) ==>
               InRegion(b, reg', x, y) == (InRegion(b, reg, x, y) || (lit && x == px && y == py))
    ensures Addressable(r, px, py)
    ensures Painted(b, if lit then Set(r, px, py, true) else r, reg')
  {
    IndexInFootprint(b.width, b.height, px, py);
    if lit {
      SetTrueOnlyThatPixel(r, px, py);
    }
  }

  /** Regions with the same pixels paint the same buffer. */
  lemma Repaint(b: Buffer, r: Buffer, reg: Region, reg': Region)
    requires Valid(b) && RegionOk(reg) && RegionOk(reg')
    requires Painted(b, r, reg)
    requires forall x, y :: InBitmap(b, x, y) ==> InRegion(b, reg', x, y) == InRegion(b, reg, x, y)
    ensures Painted(b, r, reg')
  {
  }

  /**
   * `DrawChar`: ORs a glyph into the bitmap at (x0, y0), clipped at the right
   * and bottom edges. `x1 - x0` is computed on `size_t`, so the caller keeps
   * x0 <= width and y0 <= height.
   */
  method DrawChar(b: Buffer, glyph: seq<Byte>, fw: nat, fh: nat, x0: nat, y0: nat) returns (r: Buffer)
    requires Valid(b) && x0 <= b.width && y0 <= b.height
    requires |glyph| >= Footprint(fw, fh)
    ensures Painted(b, r, WholeGlyph(glyph, fw, fh, x0, y0))
  {
    var x1 := if b.width < x0 + fw then b.width else x0 + fw;
    var y1 := if b.height < y0 + fh then b.height else y0 + fh;
    var width := x1 - x0;
    var height := y1 - y0;
    r := b;
    var dx := 0;
    while dx < width
      invariant 0 <= dx <= width
      invariant Painted(b, r, GlyphPart(glyph, fw, fh, x0, y0, dx, 0))
    {
      r := DrawGlyphColumn(b, r, glyph, fw, fh, x0, y0, dx, height);
      Repaint(b, r, GlyphPart(glyph, fw, fh, x0, y0, dx, height), GlyphPart(glyph, fw, fh, x0, y0, dx + 1, 0));
      dx := dx + 1;
    }
    Repaint(b, r, GlyphPart(glyph, fw, fh, x0, y0, dx, 0), WholeGlyph(glyph, fw, fh, x0, y0));
  }

  /** The inner loop of `DrawChar`: column dx of the glyph, top to bottom, clipped at `height` rows. */
  method DrawGlyphColumn(b: Buffer, r: Buffer, glyph: seq<Byte>, fw: nat, fh: nat, x0: nat, y0: nat, dx: nat, height: nat)
    returns (r': Buffer)
    requires Valid(b) && |glyph| >= Footprint(fw, fh)
    requires x0 + dx < b.width && dx < fw
    requires height == (if b.height < y0 + fh then b.height else y0 + fh) - y0
    requires Painted(b, r, GlyphPart(glyph, fw, fh, x0, y0, dx, 0))
    ensures Painted(b, r', GlyphPart(glyph, fw, fh, x0, y0, dx, height))
  {
    r' := r;
    var dy := 0;
    while dy < height
      invariant 0 <= dy <= height
      invariant Painted(b, r', GlyphPart(glyph, fw, fh, x0, y0, dx, dy))
    {
      IndexInFootprint(fw, fh, dx, dy);
      var on := Get(Buffer(glyph, fw, fh), dx, dy);
      BlockRowsCover(b.height, y0 + dy);
      PaintPixel(b, r', GlyphPart(glyph, fw, fh, x0, y0, dx, dy), GlyphPart(glyph, fw, fh, x0, y0, dx, dy + 1),
                 x0 + dx, y0 + dy, on);
      if on {
        r' := Set(r', x0 + dx, y0 + dy, true);
      }
      dy := dy + 1;
    }
  }

  /**
   * `DrawLineH`: turns on (x, y) for x0 <= x < x1 and nothing else. Any row
   * of the block-padded bitmap is accepted, the padding rows below the
   * height included.
   */
  method DrawLineH(b: Buffer, y: nat, x0: nat, x1: nat) returns (r: Buffer)
    requires Valid(b) && y < 8 * BlocksPerColumn(b.height) && x1 <= b.width
    ensures Painted(b, r, Row(y, x0, x1))
  {
    r := b;
    var x := x0;
    while x < x1
      invariant x == x0 || x0 < x <= x1
      invariant Painted(b, r, Row(y, x0, x))
    {
      PaintPixel(b, r, Row(y, x0, x), Row(y, x0, x + 1), x, y, true);
      r := Set(r, x, y, true);
      x := x + 1;
    }
    if x1 < x0 {
      Repaint(b, r, Row(y, x0, x), Row(y, x0, x1));
    }
  }

  /** Rows above the height lie in the padded bitmap. */
  lemma BlockRowsCover(height: nat, y: nat)
    requires y < height
    ensures y < 8 * BlocksPerColumn(height)
  {
  }


  /** The glyph of a printable character: `font[letter]`, `bytesPerChar` bytes. */
  function Glyph(f: Font, c: char): (g: seq<Byte>)
    requires GlyphsFit(f) && Printable(c)
    ensures |g| == Footprint(f.width, f.height)
  {
    GlyphInData(f, c);
    f.data[GlyphOffset(f, c)..GlyphOffset(f, c) + f.bytesPerChar]
  }

  /** Every printable character's glyph lies inside the font data. */
  lemma GlyphInData(f: Font, c: char)
    requires GlyphsFit(f) && Printable(c)
    ensures GlyphOffset(f, c) + f.bytesPerChar <= |f.data|
  {
    Arith.MulMono(c as int - ' ' as int + 1, NumChars, f.bytesPerChar);
  }

  /**
   * Pixels `DrawString` turns on: column x belongs to character
   * `(x - x0) / width`, which draws its glyph column `(x - x0) % width`.
   */
  predicate StringPixel(b: Buffer, f: Font, text: string, count: nat, x0: nat, y0: nat, x: nat, y: nat)
    requires GlyphsFit(f) && count <= |text| && forall i :: 0 <= i < |text| ==> Printable(text[i])
  {
    && f.width > 0 && x0 <= x && (x - x0) / f.width < count
    && var i := (x - x0) / f.width;
       CharPixel(b, Glyph(f, text[i]), f.width, f.height, x0 + i * f.width, y0, x, y)
  }

  /**
   * `DrawString`: character i is drawn at `x0 + i * width`. The caller keeps
   * every character's left edge within the bitmap (`size_t` arithmetic in
   * `DrawChar`).
   */
  method DrawString(b: Buffer, f: Font, text: string, x0: nat, y0: nat) returns (r: Buffer)
    requires Valid(b) && y0 <= b.height && GlyphsFit(f)
    requires forall i :: 0 <= i < |text| ==> Printable(text[i])
    requires |text| > 0 ==> x0 + (|text| - 1) * f.width <= b.width
    ensures Painted(b, r, Text(f, text, |text|, x0, y0))
  {
    r := b;
    NothingDrawn(b, f, text, x0, y0);
    var k := 0;
    while k < |text|
      invariant 0 <= k <= |text|
      invariant Painted(b, r, Text(f, text, k, x0, y0))
    {
      r := DrawNextChar(b, r, f, text, k, x0, y0);
      k := k + 1;
    }
  }

  /** Before the first character nothing is drawn. */
  lemma NothingDrawn(b: Buffer, f: Font, text: string, x0: nat, y0: nat)
    requires Valid(b) && GlyphsFit(f) && forall i :: 0 <= i < |text| ==> Printable(text[i])
    ensures Painted(b, b, Text(f, text, 0, x0, y0))
  {
    forall x: nat, y: nat | InBitmap(b, x, y)
      ensures !StringPixel(b, f, text, 0, x0, y0, x, y)
    {
      if f.width > 0 && x0 <= x {
        Arith.DivLowerBound(x - x0, f.width, 0);
      }
    }
  }

  /** One iteration of `DrawString`: draw character k at `x0 + k * width`. */
  method DrawNextChar(b: Buffer, r: Buffer, f: Font, text: string, k: nat, x0: nat, y0: nat) returns (r': Buffer)
    requires Valid(b) && y0 <= b.height && GlyphsFit(f)
    requires k < |text| && forall i :: 0 <= i < |text| ==> Printable(text[i])
    requires x0 + (|text| - 1) * f.width <= b.width
    requires Painted(b, r, Text(f, text, k, x0, y0))
    ensures Painted(b, r', Text(f, text, k + 1, x0, y0))
  {
    Arith.MulMono(k, |text| - 1, f.width);
    r' := DrawChar(r, Glyph(f, text[k]), f.width, f.height, x0 + k * f.width, y0);
    StringStep(b, r, r', f, text, k, x0, y0);
  }

  /** Drawing character k on top of the first k characters draws the first k + 1. */
  lemma StringStep(b: Buffer, r: Buffer, r': Buffer, f: Font, text: string, k: nat, x0: nat, y0: nat)
    requires Valid(b) && GlyphsFit(f) && k < |text| && forall i :: 0 <= i < |text| ==> Printable(text[i])
    requires Painted(b, r, Text(f, text, k, x0, y0))
    requires Valid(r) && Painted(r, r', WholeGlyph(Glyph(f, text[k]), f.width, f.height, x0 + k * f.width, y0))
    ensures Painted(b, r', Text(f, text, k + 1, x0, y0))
  {
    forall x, y | InBitmap(b, x, y)
      ensures Lit(r', x, y) == (Lit(b, x, y) || StringPixel(b, f, text, k + 1, x0, y0, x, y))
    {
      assert InBitmap(r, x, y);
      CharColumn(b, f, text, k, x0, y0, x, y);
    }
  }

  /**
   * Adding character k to the drawn prefix adds exactly the pixels of its
   * box: a column belongs to character k iff it lies in `[x0 + k*w, x0 + (k+1)*w)`.
   */
  lemma CharColumn(b: Buffer, f: Font, text: string, k: nat, x0: nat, y0: nat, x: nat, y: nat)
    requires GlyphsFit(f) && k < |text| && forall i :: 0 <= i < |text| ==> Printable(text[i])
    ensures StringPixel(b, f, text, k + 1, x0, y0, x, y) ==
            (StringPixel(b, f, text, k, x0, y0, x, y)
             || CharPixel(b, Glyph(f, text[k]), f.width, f.height, x0 + k * f.width, y0, x, y))
  {
    var w := f.width;
    if w > 0 && x0 <= x {
      var i := (x - x0) / w;
      DivBounds(x - x0, w, k);
    }
  }

  /** Column offset `d` lies in slot k (of width w) iff `d / w == k`. */
  lemma DivBounds(d: nat, w: nat, k: nat)
    requires w > 0
    ensures d / w == k <==> k * w <= d < (k + 1) * w
    ensures d / w < k <==> d < k * w
  {
    var q := d / w;
    assert d == q * w + d % w;
    if q < k {
      Arith.MulMono(q + 1, k, w);
    }
    if q > k {
      Arith.MulMono(k + 1, q, w);
    }
    if q == k {
    }
  }
}

=== FILE: page.dfy ===
/**
 * `Page` (`motor_programmer/page.py`): a window `[start, stop)` of the
 * parameter table, indexed by an offset that wraps round the window's
 * length; and the eight pages `Parameters` builds
 * (`motor_programmer/parameters.py`).
 */
module Page {
  import opened Wrappers
  import opened Exceptions
  import Parameters
  import Arith

  datatype Page = Page(number: int, start: int, stop: int)

  /** `__len__`. */
  function Len(pg: Page): int {
    pg.stop - pg.start
  }

  /**
   * `absolute_key(key) = start + key % len`: an empty page divides by zero;
   * otherwise the key lies inside the window (or, for a reversed window,
   * in `(stop, start]`, as Python's `%` takes the divisor's sign).
   */
  function AbsoluteKey(pg: Page, offset: int): (r: Result<int, Exception>)
    ensures r.Failure? <==> Len(pg) == 0
    ensures r.Failure? ==> r.error == ZeroDivisionError
    ensures r.Success? && Len(pg) > 0 ==> pg.start <= r.value < pg.stop
    ensures r.Success? && Len(pg) < 0 ==> pg.stop < r.value <= pg.start
  {
    if Len(pg) == 0 then Failure(ZeroDivisionError)
    else Success(pg.start + PyMod(offset, Len(pg)))
  }

  /** Inside the window, an offset names the key that many places after `start`. */
  lemma OffsetsInWindow(pg: Page, offset: int)
    requires 0 <= offset < Len(pg)
    ensures AbsoluteKey(pg, offset) == Success(pg.start + offset)
  {
    Arith.DivModUnique(offset, Len(pg), 0, offset);
  }

  /** Offsets that differ by the page length name the same key. */
  lemma OffsetsWrap(pg: Page, offset: int)
    requires Len(pg) != 0
    ensures AbsoluteKey(pg, offset + Len(pg)) == AbsoluteKey(pg, offset)
  {
    var n := Len(pg);
    if n > 0 {
      Arith.ModAddDivisor(offset, n);
    } else {
      Arith.ModAddDivisor(offset + n, -n);
    }
  }

  /** `__getitem__`: read the parameter at the offset's absolute key. */
  function Get(pg: Page, p: Parameters.Params, dev: Parameters.Device, offset: int): (r: Parameters.Access<int>)
    ensures r.result.Success? <==> Len(pg) != 0
    ensures Len(pg) == 0 ==> r == Parameters.Access(Failure(ZeroDivisionError), p, dev, [])
    ensures Len(pg) != 0 ==> r == Parameters.Get(p, dev, AbsoluteKey(pg, offset).value as real)
  {
    match AbsoluteKey(pg, offset)
    case Failure(e) => Parameters.Access(Failure(e), p, dev, [])
    case Success(k) => Parameters.Get(p, dev, k as real)
  }

  /** `__setitem__` as written: the parameter key adds `start` to the absolute key, which already includes it. */
  function SetAsWritten(pg: Page, p: Parameters.Params, dev: Parameters.Device, offset: int, value: int): (r: Parameters.Access<()>)
    ensures r.result.Success? <==> Len(pg) != 0
    ensures Len(pg) == 0 ==> r.result == Failure(ZeroDivisionError)
    ensures Len(pg) != 0 ==> r == Parameters.Set(p, dev, (pg.start + AbsoluteKey(pg, offset).value) as real, value)
  {
    match AbsoluteKey(pg, offset)
    case Failure(e) => Parameters.Access(Failure(e), p, dev, [])
    case Success(k) => Parameters.Set(p, dev, (pg.start + k) as real, value)
  }

  /** `__setitem__` as intended: write the parameter `__getitem__` reads. */
  function Set(pg: Page, p: Parameters.Params, dev: Parameters.Device, offset: int, value: int): (r: Parameters.Access<()>)
    ensures r.result.Success? <==> Len(pg) != 0
    ensures Len(pg) == 0 ==> r.result == Failure(ZeroDivisionError)
    ensures Len(pg) != 0 ==> r == Parameters.Set(p, dev, AbsoluteKey(pg, offset).value as real, value)
  {
    match AbsoluteKey(pg, offset)
    case Failure(e) => Parameters.Access(Failure(e), p, dev, [])
    case Success(k) => Parameters.Set(p, dev, k as real, value)
  }

  /** Through the corrected setter, reading the offset just written returns the value, from the cache. */
  lemma SetThenGet(pg: Page, p: Parameters.Params, dev: Parameters.Device, offset: int, value: int)
    requires Len(pg) != 0
    ensures var w := Set(pg, p, dev, offset, value);
            var r := Get(pg, w.params, w.device, offset);
            r.result == Success(value) && r.ops == []
  {
    var k := AbsoluteKey(pg, offset).value;
    Parameters.SetThenGet(p, dev, k as real, value);
  }

  /** The parameter key each setter writes, after `_check_key`. */
  function WrittenKey(pg: Page, offset: int, asWritten: bool): (k: int)
    requires Len(pg) != 0
    ensures 0 <= k < Parameters.Count
  {
    var a := AbsoluteKey(pg, offset).value;
    Parameters.CheckKey((if asWritten then pg.start + a else a) as real).value
  }

  /**
   * The as-written setter writes the key the getter reads exactly when the
   * page starts at a multiple of 304, which of the eight pages only page 0 does.
   */
  lemma AsWrittenHitsIffStartWraps(pg: Page, offset: int)
    requires Len(pg) != 0
    ensures WrittenKey(pg, offset, true) == WrittenKey(pg, offset, false) <==> pg.start % Parameters.Count == 0
  {
    var a := AbsoluteKey(pg, offset).value;
    assert ((pg.start + a) as real).Floor == pg.start + a;
    assert (a as real).Floor == a;
    ShiftModCount(a, pg.start);
  }

  /** Shifting a key by s keeps its residue modulo 304 exactly when 304 divides s. */
  lemma ShiftModCount(a: int, s: int)
    ensures (s + a) % 304 == a % 304 <==> s % 304 == 0
  {
    var q, r := a / 304, a % 304;
    var q', r' := s / 304, s % 304;
    assert a == q * 304 + r && s == q' * 304 + r';
    if r + r' < 304 {
      assert s + a == (q + q') * 304 + (r + r');
      assert (s + a) % 304 == r + r';
    } else {
      assert s + a == (q + q' + 1) * 304 + (r + r' - 304);
      assert (s + a) % 304 == r + r' - 304;
    }
  }

  /** `starts` and `lengths` in `Parameters.__init__`. */
  const Starts: seq<int> := [0, 25, 65, 95, 125, 175, 215, 255]
  const Lengths: seq<int> := [20, 38, 24, 25, 48, 36, 34, 17]

  /** `Parameters.pages`: page i covers `[starts[i], starts[i] + lengths[i])`. */
  function Table(): (pages: seq<Page>)
    ensures |pages| == 8
    ensures forall i :: 0 <= i < 8 ==> pages[i] == Page(i, Starts[i], Starts[i] + Lengths[i])
  {
    seq(8, i requires 0 <= i < 8 => Page(i, Starts[i], Starts[i] + Lengths[i]))
  }

  /** The pages are non-empty, in increasing order, pairwise disjoint and inside the 304 parameters. */
  lemma TableLayout()
    ensures forall i :: 0 <= i < 8 ==> 0 <= Table()[i].start < Table()[i].stop <= Parameters.Count
    ensures forall i, j :: 0 <= i < j < 8 ==> Table()[i].stop <= Table()[j].start
  {
    var t := Table();
    forall i, j | 0 <= i < j < 8
      ensures t[i].stop <= t[j].start
    {
      assert t[i].stop <= t[i + 1].start;
      assert t[i + 1].start <= t[j].start by {
        assert forall m :: 0 <= m < 7 ==> Starts[m] < Starts[m + 1];
      }
    }
  }

  /** Every page of the table has a non-zero length, so reading and writing it never divides by zero. */
  lemma TablePagesAreNonEmpty(i: int)
    requires 0 <= i < 8
    ensures Len(Table()[i]) == Lengths[i] > 0
  {
  }

  /**
   * On page 1 (`[25, 63)`) the as-written setter stores offset 0 at key 50,
   * so reading offset 0 back from a fresh table returns the device's old
   * value rather than the one written.
   */
  lemma AsWrittenLosesWrite(dev: Parameters.Device, value: int)
    requires dev[25] != value
    ensures var w := SetAsWritten(Table()[1], Parameters.Empty, dev, 0, value);
            && w.ops == [Parameters.DeviceWrite(50, value)]
            && Get(Table()[1], w.params, w.device, 0).result == Success(dev[25])
  {
    var pg := Table()[1];
    assert AbsoluteKey(pg, 0).value == 25;
    assert (50 as real).Floor == 50;
    assert (25 as real).Floor == 25;
  }
}

=== FILE: parameters.dfy ===
/**
 * `Parameters` (`motor_programmer/parameters.py`): the motor controller's 304
 * parameters behind a write-through cache. Keys are reduced modulo 304; a
 * read that misses the cache goes to the bridge device once and remembers
 * the answer, and a write goes to the device and then to the cache.
 */
module Parameters {
  import opened Wrappers
  import opened Exceptions

  /** `len(parameters)`. */
  const Count: nat := 304

  /**
   * `_check_key`: a key that is not a whole number raises `TypeError`;
   * otherwise `int(key) % 304`, which Python makes non-negative.
   */
  function CheckKey(key: real): (r: Result<int, Exception>)
    ensures r.Failure? <==> key.Floor as real != key
    ensures r.Failure? ==> r.error == TypeError
    ensures r.Success? ==> 0 <= r.value < Count && (key.Floor - r.value) % Count == 0
  {
    if key.Floor as real != key then Failure(TypeError)
    else Success(PyMod(key.Floor, Count))
  }

  /** Keys k and k + 304 name the same parameter. */
  lemma KeysWrap(k: int)
    ensures CheckKey(k as real) == CheckKey((k + Count) as real)
    ensures CheckKey(k as real).Success?
  {
    assert (k as real).Floor == k;
    assert ((k + Count) as real).Floor == k + Count;
  }

  /** One access to the bridge device. */
  datatype DeviceOp = DeviceRead(key: int) | DeviceWrite(key: int, value: int)

  /**
   * The controller's registers as the bridge device exposes them, one per
   * parameter key.
   */
  type Device = d: seq<int> | |d| == Count witness seq(Count, _ => 0)

  /** `_cache`. */
  datatype Params = Params(cache: map<int, int>)

  const Empty: Params := Params(map[])

  /** The outcome of one call: its result, the table and device afterwards, and the device accesses made. */
  datatype Access<T> = Access(result: Result<T, Exception>, params: Params, device: Device, ops: seq<DeviceOp>)

  /**
   * `__getitem__`: a cached key is answered from the cache; otherwise the
   * device is read once and the value cached.
   */
  function Get(p: Params, dev: Device, key: real): (r: Access<int>)
    ensures r.device == dev
    ensures r.result.Success? <==> key.Floor as real == key
    ensures key.Floor as real != key ==> r == Access(Failure(TypeError), p, dev, [])
    ensures r.result.Success? ==> var k := CheckKey(key).value;
              && k in r.params.cache && r.params.cache[k] == r.result.value
              && (k in p.cache ==> r.result.value == p.cache[k] && r.params == p && r.ops == [])
              && (k !in p.cache ==>
                    r.result.value == dev[k] && r.ops == [DeviceRead(k)] && r.params.cache == p.cache[k := dev[k]])
  {
    match CheckKey(key)
    case Failure(e) => Access(Failure(e), p, dev, [])
    case Success(k) =>
      if k in p.cache then Access(Success(p.cache[k]), p, dev, [])
      else Access(Success(dev[k]), Params(p.cache[k := dev[k]]), dev, [DeviceRead(k)])
  }

  /** `__setitem__`: write the device, then the cache. */
  function Set(p: Params, dev: Device, key: real, value: int): (r: Access<()>)
    ensures r.result.Success? <==> key.Floor as real == key
    ensures key.Floor as real != key ==> r == Access(Failure(TypeError), p, dev, [])
    ensures r.result.Success? ==> var k := CheckKey(key).value;
              && r.ops == [DeviceWrite(k, value)]
              && r.device == dev[k := value]
              && r.params.cache == p.cache[k := value]
  {
    match CheckKey(key)
    case Failure(e) => Access(Failure(e), p, dev, [])
    case Success(k) => Access(Success(()), Params(p.cache[k := value]), dev[k := value], [DeviceWrite(k, value)])
  }

  /** Every cached value is what the device holds for that key. */
  ghost predicate Coherent(p: Params, dev: Device) {
    forall k :: k in p.cache ==> 0 <= k < Count && p.cache[k] == dev[k]
  }

  /**
   * While this table is the device's only writer, the cache is invisible:
   * every read returns the device's value, and reads and writes keep the
   * cache coherent.
   */
  lemma CacheIsTransparent(p: Params, dev: Device, key: real, value: int)
    requires Coherent(p, dev)
    ensures var r := Get(p, dev, key);
            && Coherent(r.params, r.device)
            && (r.result.Success? ==> r.result.value == dev[CheckKey(key).value])
    ensures var w := Set(p, dev, key, value);
            Coherent(w.params, w.device)
  {
  }

  /** After a successful write, a read of the same key returns the value without touching the device. */
  lemma SetThenGet(p: Params, dev: Device, key: real, value: int)
    requires key.Floor as real == key
    ensures var w := Set(p, dev, key, value);
            var r := Get(w.params, w.device, key);
            r.result == Success(value) && r.ops == [] && r.params == w.params
  {
  }

  /** A second read of a key needs no device access and returns the same value. */
  lemma GetTwice(p: Params, dev: Device, key: real)
    ensures var r := Get(p, dev, key);
            var r' := Get(r.params, r.device, key);
            r'.result == r.result && r'.ops == [] && r'.params == r.params
  {
  }
}

=== FILE: quadrature.dfy ===
/**
 * Quadrature decoding of a rotary encoder (`src/rotary_encoder.cc` and the
 * older single-instance `rotary_encoder.cc`). Every edge on either pin samples
 * both pins, looks up the signed increment of the transition in a 16-entry
 * table, accumulates it in a fractional counter, and at four quarter-steps in
 * one direction moves the detent counter by one.
 */
module Quadrature {
  import opened Wrappers
  import opened Executor
  import opened Gpio
  import Mailbox

  /** `std::bitset<2>` of pin levels: bit 0 is pin a, bit 1 is pin b. */
  type PinPair = p: nat | p < 4

  /** The table index `(previous << 2) | current` of a transition. */
  function Transition(previous: PinPair, current: PinPair): (t: nat)
    ensures t < 16
    ensures t / 4 == previous && t % 4 == current
  {
    previous * 4 + current
  }

  /**
   * `IncrementsTable()`: zero everywhere except the eight single-step
   * transitions, so every entry is a quarter step of at most one.
   */
  function IncrementsTable(): (table: seq<int>)
    ensures |table| == 16
    ensures forall t :: 0 <= t < 16 ==> -1 <= table[t] <= 1
  {
    [0, 0, 0, 0, 0, 0, 0, 0, 0, 0, 0, 0, 0, 0, 0, 0]
      [Transition(3, 1) := 1][Transition(3, 2) := -1]
      [Transition(1, 0) := 1][Transition(1, 3) := -1]
      [Transition(0, 2) := 1][Transition(0, 1) := -1]
      [Transition(2, 3) := 1][Transition(2, 0) := -1]
  }

  /** The increment of the transition from `previous` to `current`. */
  function Increment(previous: PinPair, current: PinPair): int {
    IncrementsTable()[Transition(previous, current)]
  }

  /** The pin pair that follows `p` in the +1 direction, 11 -> 01 -> 00 -> 10 -> 11. */
  function Forward(p: PinPair): PinPair {
    match p
    case 3 => 1
    case 1 => 0
    case 0 => 2
    case 2 => 3
  }

  /** The table written out entry by entry, index `(previous << 2) | current`. */
  lemma TableEntries()
    ensures IncrementsTable() == [0, -1, 1, 0, 1, 0, 0, -1, -1, 0, 0, 1, 0, 1, -1, 0]
  {
    var written := [0, -1, 1, 0, 1, 0, 0, -1, -1, 0, 0, 1, 0, 1, -1, 0];
    assert |IncrementsTable()| == 16;
    forall i | 0 <= i < 16 ensures IncrementsTable()[i] == written[i] {
    }
  }

  /** The table indices holding the increment `v`. */
  function EntriesEqualTo(v: int): set<nat> {
    set t: nat | t < 16 && IncrementsTable()[t] == v
  }

  /** The table holds four +1 entries, four -1 entries and eight zeros. */
  lemma TableCounts()
    ensures EntriesEqualTo(1) == {2, 4, 11, 13} && |EntriesEqualTo(1)| == 4
    ensures EntriesEqualTo(-1) == {1, 7, 8, 14} && |EntriesEqualTo(-1)| == 4
    ensures EntriesEqualTo(0) == {0, 3, 5, 6, 9, 10, 12, 15} && |EntriesEqualTo(0)| == 8
  {
    TableEntries();
    PlusEntries();
    MinusEntries();
    ZeroEntries();
  }

  lemma PlusEntries()
    requires IncrementsTable() == [0, -1, 1, 0, 1, 0, 0, -1, -1, 0, 0, 1, 0, 1, -1, 0]
    ensures EntriesEqualTo(1) == {2, 4, 11, 13}
  {
    forall t: nat | t < 16 ensures IncrementsTable()[t] == 1 <==> t in {2, 4, 11, 13} {}
  }

  lemma MinusEntries()
    requires IncrementsTable() == [0, -1, 1, 0, 1, 0, 0, -1, -1, 0, 0, 1, 0, 1, -1, 0]
    ensures EntriesEqualTo(-1) == {1, 7, 8, 14}
  {
    forall t: nat | t < 16 ensures IncrementsTable()[t] == -1 <==> t in {1, 7, 8, 14} {}
  }

  lemma ZeroEntries()
    requires IncrementsTable() == [0, -1, 1, 0, 1, 0, 0, -1, -1, 0, 0, 1, 0, 1, -1, 0]
    ensures EntriesEqualTo(0) == {0, 3, 5, 6, 9, 10, 12, 15}
  {
    forall t: nat | t < 16 ensures IncrementsTable()[t] == 0 <==> t in {0, 3, 5, 6, 9, 10, 12, 15} {}
  }

  /**
   * The table as a whole: a step forward along the cycle counts +1, a step
   * back counts -1, and everything else (no change, or both pins changing at
   * once) counts 0.
   */
  lemma IncrementCharacterisation(p: PinPair, n: PinPair)
    ensures Increment(p, n) == 1 <==> n == Forward(p)
    ensures Increment(p, n) == -1 <==> p == Forward(n)
    ensures Increment(p, n) == 0 <==> n != Forward(p) && p != Forward(n)
  {
    TableEntries();
  }

  /** The table is antisymmetric: reversing a transition negates its increment. */
  lemma IncrementAntisymmetric(p: PinPair, n: PinPair)
    ensures Increment(p, n) == -Increment(n, p)
  {
    TableEntries();
  }

  /** No change, and a jump changing both pins at once, contribute nothing. */
  lemma InvalidTransitionsAreZero(p: PinPair)
    ensures Increment(p, p) == 0
    ensures Increment(p, 3 - p) == 0
  {
    TableEntries();
  }

  /** The decoder state the interrupt handler owns. */
  datatype Decoder = Decoder(values: PinPair, fraction: int, counter: int)

  /** Power-on state: both pins pulled up (0b11), no fraction, no detents. */
  const Initial: Decoder := Decoder(3, 0, 0)

  /** The documented range of the fractional accumulator. */
  predicate Valid(d: Decoder) {
    -3 <= d.fraction <= 3
  }

  /** The sampled pair of `gpio_get_all()` at the encoder's pins. */
  function Sample(levels: Levels, a: Pin, b: Pin): (p: PinPair)
    ensures (p % 2 == 1) == levels(a)
    ensures (p / 2 == 1) == levels(b)
  {
    (if levels(b) then 2 else 0) + (if levels(a) then 1 else 0)
  }

  /** Whether sampling `current` completes a full detent (`|fraction| == 4`). */
  predicate Detent(d: Decoder, current: PinPair) {
    var f := d.fraction + Increment(d.values, current);
    f == 4 || f == -4
  }

  /**
   * The decoding part of one edge interrupt: the new pair becomes the
   * previous pair, the increment is accumulated, and at +-4 the counter moves
   * by one detent and the fraction restarts at zero.
   */
  function Step(d: Decoder, current: PinPair): (d': Decoder)
    requires Valid(d)
    ensures Valid(d')
    ensures d'.values == current
    ensures 4 * d'.counter + d'.fraction == 4 * d.counter + d.fraction + Increment(d.values, current)
    ensures d'.counter != d.counter <==> Detent(d, current)
    ensures Detent(d, current) ==> d'.fraction == 0
    ensures d'.counter == d.counter || d'.counter == d.counter + 1 || d'.counter == d.counter - 1
  {
    var f := d.fraction + Increment(d.values, current);
    if f == 4 || f == -4 then
      Decoder(current, 0, d.counter + f / 4)
    else
      Decoder(current, f, d.counter)
  }

  /** Repeated interrupts seeing the samples in order. */
  function Run(d: Decoder, samples: seq<PinPair>): Decoder
    requires Valid(d)
    decreases |samples|
  {
    if samples == [] then d else Run(Step(d, samples[0]), samples[1..])
  }

  /** The summed increments of a walk through the pin pairs, starting at `from`. */
  function SumIncrements(from: PinPair, samples: seq<PinPair>): int
    decreases |samples|
  {
    if samples == [] then 0 else Increment(from, samples[0]) + SumIncrements(samples[0], samples[1..])
  }

  /**
   * Nothing is lost or invented: after any sequence of interrupts the detents
   * counted plus the pending fraction equal the summed quarter-steps, the
   * fraction stays in [-3, 3], and the last sample is remembered.
   */
  lemma {:induction false} RunConservesQuarterSteps(d: Decoder, samples: seq<PinPair>)
    requires Valid(d)
    ensures Valid(Run(d, samples))
    ensures 4 * Run(d, samples).counter + Run(d, samples).fraction
         == 4 * d.counter + d.fraction + SumIncrements(d.values, samples)
    ensures samples != [] ==> Run(d, samples).values == samples[|samples| - 1]
    decreases |samples|
  {
    if samples != [] {
      RunConservesQuarterSteps(Step(d, samples[0]), samples[1..]);
    }
  }

  /** One full detent forward, 11 -> 01 -> 00 -> 10 -> 11 from a zero fraction, adds exactly one. */
  lemma ForwardDetent(counter: int)
    ensures Run(Decoder(3, 0, counter), [1, 0, 2, 3]) == Decoder(3, 0, counter + 1)
  {
    TableEntries();
    assert Step(Decoder(3, 0, counter), 1) == Decoder(1, 1, counter);
    assert Step(Decoder(1, 1, counter), 0) == Decoder(0, 2, counter);
    assert Step(Decoder(0, 2, counter), 2) == Decoder(2, 3, counter);
    assert Step(Decoder(2, 3, counter), 3) == Decoder(3, 0, counter + 1);
    assert Run(Decoder(3, 0, counter + 1), []) == Decoder(3, 0, counter + 1);
  }

  /** One full detent backward, 11 -> 10 -> 00 -> 01 -> 11 from a zero fraction, subtracts exactly one. */
  lemma BackwardDetent(counter: int)
    ensures Run(Decoder(3, 0, counter), [2, 0, 1, 3]) == Decoder(3, 0, counter - 1)
  {
    TableEntries();
    assert Step(Decoder(3, 0, counter), 2) == Decoder(2, -1, counter);
    assert Step(Decoder(2, -1, counter), 0) == Decoder(0, -2, counter);
    assert Step(Decoder(0, -2, counter), 1) == Decoder(1, -3, counter);
    assert Step(Decoder(1, -3, counter), 3) == Decoder(3, 0, counter - 1);
    assert Run(Decoder(3, 0, counter - 1), []) == Decoder(3, 0, counter - 1);
  }

  /** `Read()`: the cumulative detent count. */
  function Read(d: Decoder): int {
    d.counter
  }

  /**
   * From power-on, `Read` reports the signed number of whole detents: the
   * summed quarter-steps less the fraction still pending, divided by four.
   */
  lemma ReadCountsDetents(samples: seq<PinPair>)
    ensures Valid(Run(Initial, samples))
    ensures 4 * Read(Run(Initial, samples)) == SumIncrements(3, samples) - Run(Initial, samples).fraction
  {
    RunConservesQuarterSteps(Initial, samples);
  }

  // ---------------------------------------------------------------------------
  // `rotary_encoder.cc`: one global decoder, no mailbox.

  /** The global state of the older single-instance encoder. */
  datatype LegacyEncoder = LegacyEncoder(a: Pin, b: Pin, decoder: Decoder)

  /** The constructor: pins recorded, `values == 0b11`, fraction and counter zero. */
  function LegacyCreate(a: Pin, b: Pin): (e: LegacyEncoder)
    ensures e.decoder == Initial && Read(e.decoder) == 0
  {
    LegacyEncoder(a, b, Initial)
  }

  /** The outcome of a legacy interrupt: new state plus the acknowledgements issued. */
  datatype LegacyInterrupted = LegacyInterrupted(encoder: LegacyEncoder, acks: seq<Ack>)

  /**
   * `EdgeInterrupt()`: acknowledge both pins' edge events, re-sample both pins
   * and decode the transition.
   */
  function LegacyEdgeInterrupt(e: LegacyEncoder, levels: Levels): (r: LegacyInterrupted)
    requires Valid(e.decoder)
    ensures r.acks == [Ack(e.a, EdgeMask), Ack(e.b, EdgeMask)]
    ensures r.encoder.a == e.a && r.encoder.b == e.b && Valid(r.encoder.decoder)
    ensures r.encoder.decoder.values == Sample(levels, e.a, e.b)
    ensures var inc := Increment(e.decoder.values, Sample(levels, e.a, e.b));
            4 * Read(r.encoder.decoder) + r.encoder.decoder.fraction
            == 4 * Read(e.decoder) + e.decoder.fraction + inc
    ensures Read(r.encoder.decoder) != Read(e.decoder) ==> r.encoder.decoder.fraction == 0
  {
    var current := Sample(levels, e.a, e.b);
    LegacyInterrupted(e.(decoder := Step(e.decoder, current)), [Ack(e.a, EdgeMask), Ack(e.b, EdgeMask)])
  }

  // ---------------------------------------------------------------------------
  // `src/rotary_encoder.cc`: per-pin-pair state delivering detents to a mailbox.

  /** `RotaryEncoder::State`: pins, decoder, and the waiter a consumer awaits. */
  datatype Encoder = Encoder(a: Pin, b: Pin, decoder: Decoder, waiter: Mailbox.Waiter<int>)

  /** `Create`: a fresh state (`values == 0b11`, fraction and counter zero) with an empty waiter. */
  function Create(a: Pin, b: Pin): (e: Encoder)
    ensures e.decoder.values == 3 && e.decoder.fraction == 0 && e.decoder.counter == 0
    ensures e.waiter.slot.None? && e.waiter.pending.None?
  {
    Encoder(a, b, Initial, Mailbox.Fresh())
  }

  /** The outcome of one interrupt: new state, executor queue and acknowledgements. */
  datatype Interrupted = Interrupted(encoder: Encoder, scheduled: Scheduled, acks: seq<Ack>)

  /**
   * `State::HandleInterrupt()`: decode the transition; only a completed
   * detent hands the new counter to the waiter (which may schedule the
   * consumer); otherwise the counter, waiter and executor are untouched.
   */
  function HandleInterrupt(e: Encoder, levels: Levels, q: Scheduled): (r: Interrupted)
    requires Valid(e.decoder)
    ensures r.acks == [Ack(e.a, EdgeMask), Ack(e.b, EdgeMask)]
    ensures r.encoder.a == e.a && r.encoder.b == e.b && Valid(r.encoder.decoder)
    ensures r.encoder.decoder.values == Sample(levels, e.a, e.b)
    ensures var d := r.encoder.decoder;
            !Detent(e.decoder, d.values) ==>
              d.counter == e.decoder.counter && r.encoder.waiter == e.waiter && r.scheduled == q
    ensures var d := r.encoder.decoder;
            Detent(e.decoder, d.values) ==>
              d.fraction == 0 && (d.counter == e.decoder.counter + 1 || d.counter == e.decoder.counter - 1)
              && r.encoder.waiter.slot == Some(d.counter)
    ensures var d := r.encoder.decoder;
            Detent(e.decoder, d.values) && e.waiter.slot != Some(d.counter) ==>
              r.encoder.waiter.pending.None? && r.scheduled == q + Handles(e.waiter.pending)
    ensures var d := r.encoder.decoder;
            Detent(e.decoder, d.values) && e.waiter.slot == Some(d.counter) ==>
              r.encoder.waiter == e.waiter && r.scheduled == q
  {
    var current := Sample(levels, e.a, e.b);
    var d := Step(e.decoder, current);
    var acks := [Ack(e.a, EdgeMask), Ack(e.b, EdgeMask)];
    if Detent(e.decoder, current) then
      assert d.counter != e.decoder.counter;
      var sent := Mailbox.Send(e.waiter, d.counter, q);
      Interrupted(Encoder(e.a, e.b, d, sent.waiter), sent.scheduled, acks)
    else
      Interrupted(e.(decoder := d), q, acks)
  }
}

=== FILE: speed_control.dfy ===
/**
 * `SpeedControl` (`speed_control.cc`): drives the stepper pulse pin from a
 * PWM slice clocked at 1 MHz (125 MHz / 125) in phase-correct mode, so one
 * pulse period is `2 * wrap` microseconds. `Set` turns a signed step
 * frequency into a wrap value using 64-bit integer arithmetic only.
 */
module SpeedControl {
  import Arith

  /** `std::numeric_limits<std::uint16_t>::max()`. */
  const MaxWrap: nat := 65535

  /** The PWM base clock after the 125 divider: 1 MHz. */
  const BaseClock: nat := 1000000

  /** The SDK calls the controller issues, in order. */
  datatype HardwareCall =
    | GpioInit(pin: nat)
    | GpioSetOutput(pin: nat)
    | GpioSetPwmFunction(pin: nat)
    | PwmSetClkDiv(divider: nat)
    | PwmSetPhaseCorrect(on: bool)
    | PwmSetEnabled(on: bool)
    | PwmSetWrap(top: nat)
    | PwmSetLevel(level: nat)
    | PwmSetCounter(count: nat)

  /** A call that touches a given GPIO pin directly. */
  predicate WritesPin(c: HardwareCall, pin: nat) {
    match c
    case GpioInit(p) => p == pin
    case GpioSetOutput(p) => p == pin
    case GpioSetPwmFunction(p) => p == pin
    case _ => false
  }

  /** The constructor: direction pin as an output, pulse pin on the PWM slice, 1 MHz, phase-correct. */
  function Create(pulsePin: nat, dirPin: nat): (calls: seq<HardwareCall>)
    ensures GpioSetOutput(dirPin) in calls && GpioSetPwmFunction(pulsePin) in calls
    ensures PwmSetClkDiv(125) in calls && PwmSetPhaseCorrect(true) in calls
  {
    [GpioInit(dirPin), GpioSetOutput(dirPin), GpioSetPwmFunction(pulsePin),
     PwmSetClkDiv(125), PwmSetPhaseCorrect(true)]
  }

  /** `std::int64_t` values for which `2 * std::abs(f)` does not overflow. */
  predicate InRange(f: int) {
    -0x4000_0000_0000_0000 < f < 0x4000_0000_0000_0000
  }

  function Abs(f: int): nat {
    if f < 0 then -f else f
  }

  /**
   * `wrap = min(max_wrap, 1'000'000 / (2 * magnitude))`, stored in a
   * `std::uint16_t` (the minimum already fits).
   */
  function Wrap(f: int): (w: nat)
    requires f != 0
    ensures w <= MaxWrap
  {
    var d := 2 * Abs(f);
    var q := BaseClock / d;
    Arith.DivLowerBound(BaseClock, d, 0);
    if MaxWrap < q then MaxWrap else q
  }

  /** `wrap - 1` passed as the `uint16_t` top: 0 becomes 65535. */
  function Top(wrap: nat): (top: nat)
    requires wrap <= MaxWrap
    ensures top <= MaxWrap && (top + 1) % (MaxWrap + 1) == wrap
  {
    (wrap - 1) % (MaxWrap + 1)
  }

  /**
   * `Set(freq_hz)`: the slice is disabled first; 0 stops there. Otherwise the
   * wrap is programmed as the counter top, the compare level is half the
   * wrap, the counter is reset and the slice re-enabled.
   */
  function Set(f: int): (calls: seq<HardwareCall>)
    requires InRange(f)
    ensures |calls| >= 1 && calls[0] == PwmSetEnabled(false)
    ensures f == 0 <==> calls == [PwmSetEnabled(false)]
    ensures f != 0 ==> calls[|calls| - 1] == PwmSetEnabled(true)
    ensures forall i, pin :: 0 <= i < |calls| ==> !WritesPin(calls[i], pin)
  {
    if f == 0 then
      [PwmSetEnabled(false)]
    else
      var wrap := Wrap(f);
      [PwmSetEnabled(false), PwmSetWrap(Top(wrap)), PwmSetLevel(wrap / 2), PwmSetCounter(0), PwmSetEnabled(true)]
  }

  /** The PWM slice registers the calls program. */
  datatype Slice = Slice(enabled: bool, top: nat, level: nat, counter: nat)

  /** Run calls against the slice; GPIO and clock set-up calls leave these registers alone. */
  function Run(s: Slice, calls: seq<HardwareCall>): Slice
    decreases |calls|
  {
    if calls == [] then s
    else
      var s' := match calls[0]
        case PwmSetEnabled(on) => s.(enabled := on)
        case PwmSetWrap(top) => s.(top := top)
        case PwmSetLevel(level) => s.(level := level)
        case PwmSetCounter(count) => s.(counter := count)
        case _ => s;
      Run(s', calls[1..])
  }

  /** The sign of the request does not affect the wrap. */
  lemma WrapIgnoresSign(f: int)
    requires f != 0
    ensures Wrap(f) == Wrap(-f)
  {
  }

  /** The slice registers after the calls of a nonzero request. */
  lemma RunNonzero(s: Slice, f: int)
    requires InRange(f) && f != 0
    ensures Run(s, Set(f)) == Slice(true, Top(Wrap(f)), Wrap(f) / 2, 0)
  {
    var calls := Set(f);
    var wrap := Wrap(f);
    var s1 := s.(enabled := false);
    var s2 := s1.(top := Top(wrap));
    var s3 := s2.(level := wrap / 2);
    var s4 := s3.(counter := 0);
    var s5 := s4.(enabled := true);
    assert Run(s5, calls[5..]) == s5;
    assert Run(s4, calls[4..]) == s5;
    assert Run(s3, calls[3..]) == s5;
    assert Run(s2, calls[2..]) == s5;
    assert Run(s1, calls[1..]) == s5;
  }

  /**
   * After `Set(f)` the slice runs iff f != 0. When it runs, the half period
   * `top + 1` is the wrap, the level is half of it, and the wrap is the
   * largest half period (in microseconds) not exceeding half the requested
   * period, capped at 65535.
   */
  lemma SetProgramsSlice(s: Slice, f: int)
    requires InRange(f)
    ensures var r := Run(s, Set(f));
            && (r.enabled <==> f != 0)
            && (f == 0 ==> r == s.(enabled := false))
            && (f != 0 ==> r.counter == 0 && (r.top + 1) % 65536 == Wrap(f) && r.level == Wrap(f) / 2)
  {
    if f != 0 {
      RunNonzero(s, f);
    } else {
      assert Run(s.(enabled := false), []) == s.(enabled := false);
    }
  }

  /** The wrap is the half period rounded down, capped: `2|f| * wrap <= 10^6 < 2|f| * (wrap + 1)` below the cap. */
  lemma WrapIsHalfPeriod(f: int)
    requires f != 0
    ensures 2 * Abs(f) * Wrap(f) <= BaseClock
    ensures Wrap(f) < MaxWrap ==> BaseClock < 2 * Abs(f) * (Wrap(f) + 1)
    ensures Wrap(f) == MaxWrap <==> 2 * Abs(f) * MaxWrap <= BaseClock
  {
    var d := 2 * Abs(f);
    var q := BaseClock / d;
    Arith.DivUpperBound(BaseClock, d);
    if MaxWrap < q {
      Arith.MulMono(MaxWrap, q, d);
    }
    if d * MaxWrap <= BaseClock {
      Arith.DivLowerBound(BaseClock, d, MaxWrap);
    }
  }

  /**
   * Requests faster than 500 kHz give a wrap of 0: the top wraps round to
   * 65535 and the level is 0, so the pin stays low while the slice runs.
   */
  lemma TooFastRunsFlat(s: Slice, f: int)
    requires InRange(f) && Abs(f) > 500000
    ensures Wrap(f) == 0
    ensures var r := Run(s, Set(f));
            r.enabled && r.top == MaxWrap && r.level == 0
  {
    Arith.DivUpperBound(BaseClock, 2 * Abs(f));
    RunNonzero(s, f);
  }

  /** Every request from 1 to 500000 Hz in either direction gets a nonzero wrap. */
  lemma OrdinaryRequestsHaveWrap(f: int)
    requires 0 < Abs(f) <= 500000
    ensures 1 <= Wrap(f) <= MaxWrap && Top(Wrap(f)) == Wrap(f) - 1
  {
    Arith.DivLowerBound(BaseClock, 2 * Abs(f), 1);
  }
}

=== FILE: ui.dfy ===
/**
 * The parameter editor's arithmetic (`motor_programmer/ui.py`): the six-digit
 * `ValueEditor` and the page/offset navigation of `Ui.advance`. Label
 * geometry, colours and rendering are not modelled; a digit's highlight is
 * its `selected` flag.
 */
module Ui {
  import opened Wrappers
  import opened Exceptions
  import Page
  import Arith

  /** A decimal digit character. */
  function DigitChar(d: nat): (c: char)
    requires d < 10
    ensures '0' <= c <= '9' && CharValue(c) == d
  {
    (('0' as int) + d) as char
  }

  /** The number a digit character stands for. */
  function CharValue(c: char): int {
    (c as int) - ('0' as int)
  }

  /** `str(v)` for a natural number: its decimal digits, most significant first. */
  function Decimal(v: nat): (s: string)
    ensures |s| >= 1
    ensures forall i :: 0 <= i < |s| ==> '0' <= s[i] <= '9'
    decreases v
  {
    if v < 10 then [DigitChar(v)] else Decimal(v / 10) + [DigitChar(v % 10)]
  }

  /** `int(s)` for a string of decimal digits. */
  function Parse(s: string): int
    decreases |s|
  {
    if s == [] then 0 else Parse(s[..|s| - 1]) * 10 + CharValue(s[|s| - 1])
  }

  /** `int(str(v)) == v`. */
  lemma {:induction false} ParseDecimal(v: nat)
    ensures Parse(Decimal(v)) == v
    decreases v
  {
    if v >= 10 {
      var s := Decimal(v);
      assert s[..|s| - 1] == Decimal(v / 10);
      ParseDecimal(v / 10);
    }
  }

  function Zeros(n: nat): (s: string)
    ensures |s| == n && forall i :: 0 <= i < n ==> s[i] == '0'
  {
    seq(n, _ => '0')
  }

  /** Leading zeros do not change the number `int` reads. */
  lemma {:induction false} ParseLeadingZeros(n: nat, s: string)
    ensures Parse(Zeros(n) + s) == Parse(s)
    decreases |s|
  {
    if s == [] {
      ParseZeros(n);
      assert Zeros(n) + s == Zeros(n);
    } else {
      var t := Zeros(n) + s;
      assert t[..|t| - 1] == Zeros(n) + s[..|s| - 1];
      ParseLeadingZeros(n, s[..|s| - 1]);
    }
  }

  lemma {:induction false} ParseZeros(n: nat)
    ensures Parse(Zeros(n)) == 0
  {
    if n > 0 {
      assert Zeros(n)[..n - 1] == Zeros(n - 1);
      ParseZeros(n - 1);
    }
  }

  function Pow10(n: nat): (p: nat)
    ensures p >= 1
  {
    if n == 0 then 1 else 10 * Pow10(n - 1)
  }

  /** `str(v)` has at most n characters exactly when v < 10^n. */
  lemma {:induction false} DecimalLength(v: nat, n: nat)
    requires n >= 1
    ensures |Decimal(v)| <= n <==> v < Pow10(n)
    decreases v
  {
    if v >= 10 {
      if n == 1 {
        assert Pow10(1) == 10;
      } else {
        DecimalLength(v / 10, n - 1);
      }
    } else {
      assert Pow10(n) >= 10 by {
        assert Pow10(n) == 10 * Pow10(n - 1);
      }
    }
  }

  /** `Digit`: its value (its text is `str(value)`), whether it is hidden, whether it is highlighted. */
  datatype Digit = Digit(value: int, hidden: bool, selected: bool)

  /** `ValueEditor`: six digits, most significant first, and the index of the digit being edited. */
  datatype Editor = Editor(digits: seq<Digit>, selectedIndex: int)

  /** The shape every editor keeps: six decimal digits and an index among them. */
  predicate WellFormed(e: Editor) {
    && |e.digits| == 6
    && 0 <= e.selectedIndex < 6
    && forall i :: 0 <= i < 6 ==> 0 <= e.digits[i].value < 10
  }

  /** `"".join(d.text for d in self)`. */
  function Join(ds: seq<Digit>): string
    requires forall i :: 0 <= i < |ds| ==> ds[i].value >= 0
  {
    if ds == [] then [] else Decimal(ds[0].value) + Join(ds[1..])
  }

  /** Single-digit texts join into one character per digit. */
  lemma {:induction false} JoinDigits(ds: seq<Digit>)
    requires forall i :: 0 <= i < |ds| ==> 0 <= ds[i].value < 10
    ensures |Join(ds)| == |ds|
    ensures forall i :: 0 <= i < |ds| ==> Join(ds)[i] == DigitChar(ds[i].value)
  {
    if ds != [] {
      JoinDigits(ds[1..]);
    }
  }

  /** The `value` getter: the number the six digit texts spell. */
  function Value(e: Editor): int
    requires WellFormed(e)
  {
    Parse(Join(e.digits))
  }

  /** `f"{v:6d}"` for v >= 0: right-justified in six columns, never truncated. */
  function Format6(v: nat): (s: string)
    ensures |Decimal(v)| <= 6 ==> |s| == 6 && s == seq(6 - |Decimal(v)|, _ => ' ') + Decimal(v)
    ensures |Decimal(v)| > 6 ==> s == Decimal(v)
  {
    var d := Decimal(v);
    if |d| < 6 then seq(6 - |d|, _ => ' ') + d else d
  }

  /** The six columns of a value that fits: leading blanks, then the digits of `str(v)`. */
  lemma Columns(v: nat)
    requires v <= 999999
    ensures |Decimal(v)| <= 6 && |Format6(v)| == 6
    ensures forall i :: 0 <= i < 6 ==> (Format6(v)[i] == ' ' <==> i < 6 - |Decimal(v)|)
    ensures forall i :: 6 - |Decimal(v)| <= i < 6 ==> Format6(v)[i] == Decimal(v)[i - (6 - |Decimal(v)|)]
  {
    DecimalLength(v, 6);
    assert Pow10(6) == 1000000;
  }

  /** Values of seven or more digits do not fit six columns. */
  lemma TooWide(v: nat)
    requires v > 999999
    ensures |Format6(v)| > 6
  {
    DecimalLength(v, 6);
    assert Pow10(6) == 1000000;
  }

  /** One position of the setter's loop: a blank becomes a hidden 0, a digit shows its value. */
  function Place(c: char, selected: bool): (d: Digit)
    requires c == ' ' || '0' <= c <= '9'
    ensures 0 <= d.value < 10 && d.selected == selected
    ensures d.hidden <==> c == ' '
    ensures !d.hidden ==> DigitChar(d.value) == c
  {
    if c == ' ' then Digit(0, true, selected) else Digit(CharValue(c), false, selected)
  }

  /** The digits the setter leaves for a value that fits. */
  function Placed(e: Editor, v: nat): (ds: seq<Digit>)
    requires WellFormed(e) && v <= 999999
    ensures |ds| == 6
    ensures forall i :: 0 <= i < 6 ==> ds[i] == Place(Format6(v)[i], e.digits[i].selected || i == 5)
  {
    Columns(v);
    var s := Format6(v);
    seq(6, i requires 0 <= i < 6 => Place(s[i], e.digits[i].selected || i == 5))
  }

  /**
   * The `value` setter. For 0 <= v <= 999999 the six columns of
   * `f"{v:6d}"` become the digits, blanks as hidden zeros, and the last
   * digit is highlighted without the others losing their highlight; the
   * edit index is not touched. A negative value reaches the `-` sign and
   * `int("-")` raises `ValueError`; a seventh column indexes past the six
   * digits and raises `IndexError`.
   */
  function SetValue(e: Editor, v: int): (r: Result<Editor, Exception>)
    requires WellFormed(e)
    ensures v < 0 <==> r == Failure(ValueError)
    ensures v > 999999 <==> r == Failure(IndexError)
    ensures r.Success? ==> WellFormed(r.value) && r.value.selectedIndex == e.selectedIndex
    ensures r.Success? ==> forall i :: 0 <= i < 6 ==>
              && (r.value.digits[i].hidden <==> i < 6 - |Decimal(v)|)
              && r.value.digits[i].selected == (e.digits[i].selected || i == 5)
  {
    if v < 0 then Failure(ValueError)
    else if v > 999999 then Failure(IndexError)
    else
      Columns(v);
      Success(Editor(Placed(e, v), e.selectedIndex))
  }

  /** The setter's digit texts join into `str(v)` behind leading zeros. */
  lemma SetValueText(e: Editor, v: nat)
    requires WellFormed(e) && v <= 999999
    ensures |Decimal(v)| <= 6
    ensures SetValue(e, v).Success? && Join(SetValue(e, v).value.digits) == Zeros(6 - |Decimal(v)|) + Decimal(v)
  {
    var r := SetValue(e, v).value;
    Columns(v);
    var d := Decimal(v);
    var n := 6 - |d|;
    JoinDigits(r.digits);
    var t := Join(r.digits);
    forall i | 0 <= i < 6
      ensures t[i] == (Zeros(n) + d)[i]
    {
      if i < n {
        assert r.digits[i].hidden && r.digits[i].value == 0;
      } else {
        assert !r.digits[i].hidden;
      }
    }
  }

  /** For 0 <= v <= 999999, reading `value` after setting v returns v. */
  lemma SetThenValue(e: Editor, v: int)
    requires WellFormed(e) && 0 <= v <= 999999
    ensures SetValue(e, v).Success? && Value(SetValue(e, v).value) == v
  {
    SetValueText(e, v);
    ParseLeadingZeros(6 - |Decimal(v)|, Decimal(v));
    ParseDecimal(v);
  }

  /** `ValueEditor.__init__`: digits showing 5..0, the last one selected, then the value 123. */
  function New(): (e: Editor)
    ensures WellFormed(e) && e.selectedIndex == 5
  {
    var blank := Editor(seq(6, i requires 0 <= i < 6 => Digit(5 - i, false, false)), 5);
    SetValue(blank, 123).value
  }

  /** A fresh editor reads 123. */
  lemma NewReads123()
    ensures Value(New()) == 123
  {
    var blank := Editor(seq(6, i requires 0 <= i < 6 => Digit(5 - i, false, false)), 5);
    SetThenValue(blank, 123);
  }

  /** `increment_digit`: 0 does nothing; otherwise the edited digit becomes `(value + delta) % 10`. */
  function IncrementDigit(e: Editor, delta: int): (r: Editor)
    requires WellFormed(e)
    ensures WellFormed(r) && r.selectedIndex == e.selectedIndex
    ensures delta == 0 ==> r == e
    ensures delta != 0 ==> var i := e.selectedIndex;
              && r.digits[i].hidden == e.digits[i].hidden && r.digits[i].selected == e.digits[i].selected
              && (r.digits[i].value - e.digits[i].value - delta) % 10 == 0
    ensures forall j :: 0 <= j < 6 && j != e.selectedIndex ==> r.digits[j] == e.digits[j]
  {
    if delta == 0 then e
    else
      var i := e.selectedIndex;
      var d := e.digits[i];
      e.(digits := e.digits[i := d.(value := PyMod(d.value + delta, 10))])
  }

  /** Turning the edited digit forward and back by the same amount restores the editor. */
  lemma IncrementUndo(e: Editor, delta: int)
    requires WellFormed(e)
    ensures IncrementDigit(IncrementDigit(e, delta), -delta) == e
  {
    if delta != 0 {
      var i := e.selectedIndex;
      var v := e.digits[i].value;
      var w := PyMod(v + delta, 10);
      var q := (v + delta) / 10;
      assert v + delta == 10 * q + w;
      assert w - delta == v - 10 * q;
      Arith.DivModUnique(w - delta, 10, -q, v);
      var r := IncrementDigit(IncrementDigit(e, delta), -delta);
      assert r.digits == e.digits;
    }
  }

  /**
   * `next_digit`: the edited digit loses its highlight, the index moves one
   * to the left (from the first digit round to the last), and the new digit
   * is highlighted and shown.
   */
  function NextDigit(e: Editor): (r: Editor)
    requires WellFormed(e)
    ensures WellFormed(r)
    ensures r.selectedIndex == (if e.selectedIndex == 0 then 5 else e.selectedIndex - 1)
    ensures !r.digits[e.selectedIndex].selected
    ensures r.digits[r.selectedIndex].selected && !r.digits[r.selectedIndex].hidden
    ensures forall j :: 0 <= j < 6 ==> r.digits[j].value == e.digits[j].value
    ensures forall j :: 0 <= j < 6 && j != e.selectedIndex && j != r.selectedIndex ==> r.digits[j] == e.digits[j]
  {
    var i := e.selectedIndex;
    var ds := e.digits[i := e.digits[i].(selected := false)];
    var i' := PyMod(i - 1, 6);
    Editor(ds[i' := ds[i'].(selected := true, hidden := false)], i')
  }

  /** Exactly one digit, the edited one, is highlighted. */
  predicate SingleHighlight(e: Editor)
    requires WellFormed(e)
  {
    forall j :: 0 <= j < 6 ==> (e.digits[j].selected <==> j == e.selectedIndex)
  }

  /** `next_digit` moves a single highlight along with the index. */
  lemma NextDigitMovesHighlight(e: Editor)
    requires WellFormed(e) && SingleHighlight(e)
    ensures SingleHighlight(NextDigit(e))
  {
  }

  /**
   * The setter does not move a highlight back: once the edit index has
   * left the last digit, setting a value highlights two digits.
   */
  lemma SetValueCanHighlightTwo(e: Editor, v: int)
    requires WellFormed(e) && SingleHighlight(e) && e.selectedIndex != 5 && 0 <= v <= 999999
    ensures var r := SetValue(e, v).value;
            r.digits[5].selected && r.digits[e.selectedIndex].selected && !SingleHighlight(r)
  {
  }

  /** Six `next_digit` calls bring the index back where it started. */
  lemma NextDigitCycle(e: Editor)
    requires WellFormed(e)
    ensures NextDigit(NextDigit(NextDigit(NextDigit(NextDigit(NextDigit(e)))))).selectedIndex == e.selectedIndex
  {
  }

  /** The navigation state of `Ui`: the page index and the offset within the page. */
  datatype Position = Position(pageIndex: int, offset: int)

  /** Positions `advance` can reach: a page of the table and an offset inside it. */
  predicate ValidPosition(p: Position) {
    0 <= p.pageIndex < 8 && 0 <= p.offset < Page.Len(Page.Table()[p.pageIndex])
  }

  /** `Ui.__init__`: page 0, offset 0. */
  const Start: Position := Position(0, 0)

  /**
   * `advance(page_delta, offset_delta)`: an offset step moves round the
   * current page; a page step moves round the eight pages and returns to
   * offset 0; both at once fail the assertion; no step changes nothing.
   */
  function Advance(p: Position, pageDelta: int, offsetDelta: int): (r: Result<Position, Exception>)
    requires ValidPosition(p)
    ensures r.Failure? <==> pageDelta != 0 && offsetDelta != 0
    ensures r.Failure? ==> r.error == AssertionError
    ensures r.Success? ==> ValidPosition(r.value)
    ensures r.Success? && offsetDelta != 0 ==>
              r.value.pageIndex == p.pageIndex && (r.value.offset - p.offset - offsetDelta) % Page.Lengths[p.pageIndex] == 0
    ensures r.Success? && pageDelta != 0 ==> r.value == Position((p.pageIndex + pageDelta) % 8, 0)
    ensures pageDelta == 0 && offsetDelta == 0 ==> r == Success(p)
  {
    if offsetDelta != 0 && pageDelta != 0 then Failure(AssertionError)
    else if offsetDelta != 0 then
      Page.TablePagesAreNonEmpty(p.pageIndex);
      var n := Page.Len(Page.Table()[p.pageIndex]);
      var o := PyMod(p.offset + offsetDelta, n);
      ModCongruent(p.offset + offsetDelta, n);
      Success(p.(offset := o))
    else if pageDelta != 0 then
      var i := PyMod(p.pageIndex + pageDelta, 8);
      Page.TablePagesAreNonEmpty(i);
      Success(Position(i, 0))
    else
      Success(p)
  }

  /** `a % n` differs from a by a multiple of n. */
  lemma ModCongruent(a: int, n: int)
    requires n > 0
    ensures (a % n - a) % n == 0
  {
    Arith.DivModUnique(a % n - a, n, -(a / n), 0);
  }

  /**
   * Stepping the offset forward a whole page length returns to the same
   * position, and a valid position always shows a key of its own page.
   */
  lemma AdvanceWraps(p: Position)
    requires ValidPosition(p)
    ensures Advance(p, 0, Page.Len(Page.Table()[p.pageIndex])) == Success(p)
    ensures var pg := Page.Table()[p.pageIndex];
            var k := Page.AbsoluteKey(pg, p.offset);
            k == Success(pg.start + p.offset) && pg.start <= k.value < pg.stop
  {
    var pg := Page.Table()[p.pageIndex];
    var n := Page.Len(pg);
    Page.TablePagesAreNonEmpty(p.pageIndex);
    Arith.ModAddDivisor(p.offset, n);
    Arith.DivModUnique(p.offset, n, 0, p.offset);
    Page.OffsetsInWindow(pg, p.offset);
  }

  /** Two page steps make one: moving by a then b lands where moving by a + b does. */
  lemma PageStepsCompose(p: Position, a: int, b: int)
    requires ValidPosition(p) && a != 0 && b != 0 && a + b != 0
    ensures Advance(Advance(p, a, 0).value, b, 0) == Advance(p, a + b, 0)
  {
    var i := p.pageIndex;
    var q, r := (i + a) / 8, (i + a) % 8;
    var q', r' := (r + b) / 8, (r + b) % 8;
    assert i + a == 8 * q + r && r + b == 8 * q' + r';
    Arith.DivModUnique(i + a + b, 8, q + q', r');
  }

  /** Eight page steps come back to the same page, at offset 0. */
  lemma PagesCycle(p: Position)
    requires ValidPosition(p)
    ensures Advance(p, 8, 0) == Success(Position(p.pageIndex, 0))
  {
    Arith.DivModUnique(p.pageIndex + 8, 8, 1, p.pageIndex);
  }
}

=== FILE: wrappers.dfy ===
/** Failure-compatible wrappers shared by every module of the model. */
module Wrappers {

  /** An optional value: the C++ `std::optional` and Python `None`. */
  datatype Option<+T> = None | Some(value: T)

  /** A value or the error the source raises or returns instead. */
  datatype Result<+R, +E> = Success(value: R) | Failure(error: E) {
    predicate IsFailure() {
      Failure?
    }

    function PropagateFailure<U>(): Result<U, E>
      requires Failure?
    {
      Failure(error)
    }

    function Extract(): R
      requires Success?
    {
      value
    }
  }
}

/** Bytes and the big-endian 16-bit field used by the Modbus frames. */
module Bytes {

  type Byte = bv8

  /** A byte holding the integer `n`, which must fit (Python's `bytes([n])` raises otherwise). */
  function ToByte(n: int): (b: Byte)
    requires 0 <= n < 256
    ensures b as int == n
    decreases n
  {
    if n == 0 then 0
    else
      var below := ToByte(n - 1);
      assert below < 255;
      below + 1
  }

  /** The integer a byte holds. */
  function Value(b: Byte): (n: nat)
    ensures n < 256
  {
    b as nat
  }

  /** Converting a byte to an integer and back gives the byte. */
  lemma ToByteOfByte(b: Byte)
    ensures ToByte(b as int) == b && ToByte(Value(b)) == b
  {
    ByteInjective(ToByte(b as int), b);
  }

  /** Bytes with the same value are the same byte. */
  lemma ByteInjective(a: Byte, b: Byte)
    requires a as int == b as int
    ensures a == b
  {
  }

  /** Integers that fit an unsigned 16-bit field (`H` in a `struct` format). */
  predicate IsU16(n: int) {
    0 <= n < 0x1_0000
  }

  /** `struct.pack(">H", n)`: high byte first. */
  function BigEndian16(n: int): (r: seq<Byte>)
    requires IsU16(n)
    ensures |r| == 2
    ensures r[0] as int == n / 256 && r[1] as int == n % 256
  {
    [ToByte(n / 256), ToByte(n % 256)]
  }

  /** `struct.unpack(">H", [hi, lo])`. */
  function ReadBigEndian16(hi: Byte, lo: Byte): (n: int)
    ensures IsU16(n)
    ensures n / 256 == hi as int && n % 256 == lo as int
  {
    (hi as int) * 256 + (lo as int)
  }

  /** Packing a 16-bit field and reading it back gives the field. */
  lemma BigEndian16RoundTrip(n: int)
    requires IsU16(n)
    ensures ReadBigEndian16(BigEndian16(n)[0], BigEndian16(n)[1]) == n
  {
  }

  /** Reading two bytes as a 16-bit field and packing it gives the bytes back. */
  lemma ReadBigEndian16RoundTrip(hi: Byte, lo: Byte)
    ensures BigEndian16(ReadBigEndian16(hi, lo)) == [hi, lo]
  {
    var r := BigEndian16(ReadBigEndian16(hi, lo));
    ByteInjective(r[0], hi);
    ByteInjective(r[1], lo);
  }
}

/** Small facts of integer arithmetic the solver does not find unaided. */
module Arith {
  lemma MulMono(a: nat, b: nat, k: nat)
    requires a <= b
    ensures a * k <= b * k
  {
  }

  /** A multiple of `d` not above `n` is at most `n / d` multiples. */
  lemma DivLowerBound(n: nat, d: nat, k: nat)
    requires d > 0 && d * k <= n
    ensures k <= n / d
  {
    var q, r := n / d, n % d;
    assert n == d * q + r && r < d;
    if q < k {
      MulMono(q + 1, k, d);
    }
  }

  /** Euclidean division: `n < d * (n / d + 1)`. */
  lemma DivUpperBound(n: nat, d: nat)
    requires d > 0
    ensures d * (n / d) <= n < d * (n / d + 1)
  {
    var q, r := n / d, n % d;
    assert n == d * q + r && r < d;
    assert d * (q + 1) == d * q + d;
  }

  /** Euclidean division is determined by `a == q * n + r` with `0 <= r < n`. */
  lemma DivModUnique(a: int, n: int, q: int, r: int)
    requires n > 0 && 0 <= r < n && a == q * n + r
    ensures a / n == q && a % n == r
  {
    var q0, r0 := a / n, a % n;
    assert a == q0 * n + r0;
    var k := q - q0;
    assert k * n == q * n - q0 * n;
    assert k * n == r0 - r;
    if k >= 1 {
      MulMono(1, k, n);
    }
  }

  /** Adding the divisor leaves the remainder unchanged. */
  lemma ModAddDivisor(a: int, n: int)
    requires n > 0
    ensures (a + n) % n == a % n
  {
    var q, r := a / n, a % n;
    assert a + n == (q + 1) * n + r;
    DivModUnique(a + n, n, q + 1, r);
  }
}

/** The Python exceptions the programmer scripts raise, as error values. */
module Exceptions {
  datatype Exception =
    | StructError          // `struct.error`: a field does not fit its format
    | MessageLengthError   // `modbus.MessageLengthError`
    | ChecksumError        // `modbus.ChecksumError`
    | ValueError
    | IndexError
    | TypeError
    | NameError
    | ZeroDivisionError
    | AssertionError

  /** Python's `a % b`: the remainder takes the sign of the divisor. */
  function PyMod(a: int, b: int): (r: int)
    requires b != 0
    ensures b > 0 ==> 0 <= r < b && r == a % b
    ensures b < 0 ==> b < r <= 0 && (r == 0 <==> a % -b == 0) && (r != 0 ==> r == a % -b + b)
  {
    if b > 0 then a % b
    else
      var m := a % -b;
      if m == 0 then 0 else m + b
  }
}
